=== FILE: README.md ===
# Arc-list graphs: parsers, prefix notation and function evaluation

This project models three small programs of a neural-networks course
(`nntask1.py`, `nntask2.py` and `nntask3.py`). Each reads a directed graph
from a text file. A non-blank line lists arcs as `(from,to,ordinal)` groups.
The ordinal is the position of `to` among the arguments of `from`.

- **nntask1** reads the arcs into a set of triples. A repeated triple is an
  error for its line only.
- **nntask2** reads them into a list (`ArcParse2`). If the graph has no
  cycle, it writes the graph in prefix notation: each vertex followed by its
  children in brackets (`Prefix`).
- **nntask3** reads the arcs with a regular expression (`ArcParse3`). It
  also reads a file of `vertex:operation` lines (`OpsParse`). It then checks
  the graph and the operations (`Operations`) and looks for a cycle
  (`Cycles`). Finally it evaluates the function the graph describes
  (`Evaluate`): a vertex is a number, `+`, `*` or `exp` of its children
  taken by ordinal, and the result is the sum over the vertices visited in
  sorted order.

Each program's `main` is modelled without its file handling (`Pipeline`):
the first failing stage decides what is reported.

Shared pieces:

| module | contents |
|---|---|
| `Text` | `strip`, `split` and `join` |
| `Numerals` | `int()` and `float()` on decimal literals |
| `StrOrder` | Python's string order and `sorted` |
| `Sorting` | stable sort of arcs |
| `Graphs` | graphs, paths and cycles |
| `ArcText` | the written form of arc lines, used for round trips |
| `SplitRead` | the line reading shared by nntask1 and nntask2 |

Points where the code behaves in a way its purpose does not suggest; the
model follows the code:

- nntask3 passes over a non-blank line with no `(...)` group without any
  error (`ArcParse3.NoGroupIgnored`).
- nntask2 adds both names of a piece to the vertex set before reading its
  ordinal. When that ordinal fails to read, the two names stay in the graph
  although no arc joins them.
- nntask1 behaves the same way. It also keeps reading after a repeated
  triple, recording one error per such line. The message it reports is the
  last error recorded, not the first.
- nntask2 sorts each vertex's children by `(child name, ordinal)`, not by
  ordinal.
- nntask3's evaluator does not sum only the roots. It adds the value of
  every vertex, in sorted order, that no earlier vertex's evaluation reached.
- nntask3's `validate_graph` reports a root or leaf without an operation
  twice: once under the root or leaf rule and once under the completeness
  rule.
- Messages are modelled by their kind and data, not by their Russian text.

Python iterates a `set` in an order of its own. The cycle search and the
graph validator take any enumeration of the vertex set. Their proved
properties hold for every enumeration; the pipelines use sorted order.

## Model

| member | source | states |
|---|---|---|
| `Text.Strip` | nntask1.py:23 | `strip(chars)` removes only the given characters at both ends, and the result is empty exactly when every character is one of them |
| `Text.StripSlice` | nntask1.py:23 | the stripped text is a slice of the input with only the given characters before and after it, and a non-empty result neither starts nor ends with one of them |
| `Text.Split` | nntask3.py:22 | `split(sep)` yields at least one part, no part holds the separator, and joining the parts with it gives the input back |
| `Text.SplitJoin` | nntask3.py:22 | splitting a join of separator-free parts gives back the parts |
| `Text.SplitOn` | nntask1.py:21 | `split('),(')` yields parts that join back to the input, and no part holds the separator |
| `Text.SplitOnJoin` | nntask1.py:21 | splitting on a multi-character separator inverts joining parts that cannot start it |
| `Numerals.ParseInt` | nntask1.py:27 | `int(n)` succeeds exactly on digit strings with an optional sign, and an unsigned one is non-negative |
| `Numerals.ParseIntToString` | nntask1.py:27 | `int(str(i)) == i` for every integer |
| `Numerals.DecimalValue` | nntask3.py:119 | `float(op)` of a literal is non-negative and agrees with the integer value on digit strings |
| `StrOrder.Transitive` | nntask3.py:143 | Python's string order is transitive |
| `StrOrder.Total` | nntask3.py:143 | any two distinct strings are ordered one way or the other |
| `StrOrder.Sorted` | nntask3.py:143 | `sorted(vertices)` lists every vertex once, strictly increasing |
| `Sorting.Sort` | nntask3.py:122 | `sorted(..., key=...)` returns a permutation ordered by the key |
| `Sorting.SortStable` | nntask3.py:122 | the sort is stable: arcs with equal keys keep their reading order |
| `Sorting.SortIdempotent` | nntask3.py:122 | sorting a sorted list changes nothing |
| `Graphs.Roots` | nntask3.py:154 | the roots are the vertices no arc points to |
| `Graphs.Leaves` | nntask3.py:171-172 | the sinks are the vertices no arc leaves |
| `Graphs.ArcsFrom` | nntask2.py:88-89 | `children_dict[v]` holds exactly the arcs leaving `v` |
| `Graphs.ArcsFromConcat` | nntask2.py:88-89 | collecting the arcs leaving `v` goes arc by arc in reading order: one arc contributes itself exactly when it leaves `v`, and a concatenation gives the concatenated lists |
| `Graphs.EndpointsMembers` | nntask2.py:25-27 | the names the arcs mention are exactly their sources and targets |
| `SplitRead.ReadPiece` | nntask2.py:23-27 | a piece with its brackets stripped must split into three comma-free fields that join back to it, and the third field's `int()` is the ordinal |
| `ArcText.PiecesJoin` | nntask2.py:20-21 | the pieces of a line join back with `),(` to the line with its spaces and tabs removed, and no piece holds `),(` |
| `SplitRead.PieceFault` | nntask2.py:24-29 | a piece raises exactly when it has other than three fields or its ordinal does not read |
| `SplitRead.LineReadsFormatted` | nntask2.py:20-27 | every piece of a written line reads back as the arc written |
| `ArcParse2.AddPieces` | nntask2.py:22-27 | the fault that ends a line is the first fault among its pieces |
| `ArcParse2.AddPiecesAll` | nntask2.py:22-27 | pieces that all read raise nothing, append the arcs they read in order and add those arcs' endpoints |
| `ArcParse2.ParseArcs` | nntask2.py:5-34 | the graph is well formed; its vertices are the arcs' endpoints plus the names of a piece whose ordinal failed; the error is the first faulty line, and there is none exactly when every line reads; the arcs are exactly `ArcsRead`: for each non-blank line reached, in order, the arcs of its pieces before the first that raises, ending with the first faulty line |
| `ArcParse2.AddPiecesGood` | nntask2.py:22-27 | a line appends exactly `GoodPieces`, the arcs of its pieces before the first that raises, in order, and nothing else |
| `ArcParse2.ParseFormatted` | nntask2.py:5-34 | reading written rows of arcs gives back those arcs in order, their endpoints as vertices, and no error |
| `ArcParse1.AddPiecesFault` | nntask1.py:22-35 | a line adds exactly the triples of its leading pieces that read as new triples, none twice; it ends normally exactly when every piece does so, and otherwise at the next piece: with that piece's exception, or with that piece's triple as the repeat, which is already in the set |
| `ArcParse1.AddPiecesExact` | nntask1.py:24-32 | the vertices stay the arcs' endpoints, apart from the names of a piece whose ordinal failed |
| `ArcParse1.ParseArcs` | nntask1.py:6-39 | every arc's endpoints are vertices; the errors go down the file; every error but the last is a repeated triple after which reading went on; an exception is its line's first fault; the message is the last error. No error means no line raises; when no line raises there is no error exactly when no triple occurs twice, the set is then exactly the triples read, and every error is a repeat. In every case the errors are exactly `ErrorsFrom`, a line-by-line reading in which each reached line records its verdict in order, up to and including the first exception, and a repeat names its line's first triple already in the set or earlier on the line; the final set is exactly `SeenAtEnd`, the triples every reached line adds before the piece that ends it |
| `ArcParse1.RepeatNamed` | nntask1.py:24-31 | the repeat a line records is the triple of its first piece that reads as a triple already in the set or earlier on the line, and every triple before it on the line is new |
| `ArcParse1.SameTripleTwice` | nntask1.py:29-32 | for any two names, ordinal text and ordinal, two lines each holding that one triple record the repeat on the second line and nothing else, and the set holds that triple alone |
| `ArcParse1.LineKept` | nntask1.py:12-35 | a line with no exception recorded before it is still read after any repeats: all its triples end up in the set, or, when it records a repeat, that triple is one of its own and it and every triple before it are in the set |
| `ArcParse1.FreshDistinct` | nntask1.py:29-32 | adding triples to a set meets no repetition exactly when the list holds no triple twice and none is already in the set |
| `ArcParse1.ParseFormatted` | nntask1.py:6-39 | reading written rows records no error exactly when no triple repeats, and then yields the set of triples written; any error is a repetition |
| `ArcParse3.Groups` | nntask3.py:20 | `re.findall` on a blank line finds no group, and no group it finds holds a closing bracket or a newline, since each match stops at the first `)` and `.` skips newlines |
| `ArcParse3.GroupsFramed` | nntask3.py:20 | when a line with its spaces removed alternates text free of `(` with bracketed groups free of `)` and newlines, and ends in text with no `(` before any `)`, `re.findall` returns exactly those groups in order |
| `ArcParse3.GroupArc` | nntask3.py:22-34 | a group reads exactly when it has three fields and an all-digit ordinal, and otherwise raises the field-count or ordinal error; the group is its three fields joined by commas, and the arc read is the first two fields stripped with `int()` of the third |
| `ArcParse3.ReadsFaultFirst` | nntask3.py:21-34 | the fault of a line is the one of its first bad group |
| `ArcParse3.AddReadsArcs` | nntask3.py:21-34 | the arcs of the groups before the first bad one stay in the graph |
| `ArcParse3.ParseArcs` | nntask3.py:7-41 | the graph is well formed with the arcs' endpoints as vertices; the error is the first faulty line, and there is none exactly when every line reads; the arcs are exactly `ArcsRead`: for each line reached, in order, the arcs of its groups before the first that does not read, ending with the first faulty line |
| `ArcParse3.AddReadsGood` | nntask3.py:21-34 | a line appends exactly `GoodArcs`, the arcs of its groups before the first that does not read, in order, and nothing else |
| `ArcParse3.NoGroupIgnored` | nntask3.py:18-21 | a line with no opening bracket is passed over without an error, the graph unchanged |
| `ArcParse3.ParseFormatted` | nntask3.py:7-41 | reading written rows of arcs with non-negative ordinals gives back the arcs in order and no error |
| `OpsParse.ReadLine` | nntask3.py:55-61 | a stripped line is blank, or is a pair exactly when it holds one `:`, the vertex and operation being the two sides stripped, or is a bad line with its part count |
| `OpsParse.ParseOpsSpec` | nntask3.py:44-69 | of `OpsParse.ParseOps`: each key maps to the operation of the last line naming it; keys are in first-mention order; the error is the first line that is neither blank nor two parts, and there is none exactly when no such line exists |
| `OpsParse.ParseFormattedOps` | nntask3.py:54-65 | writing `vertex:op` lines and reading them back gives no error and each vertex its last operation |
| `Cycles.Dfs` | nntask3.py:75-90 | each `dfs` call expands a vertex at most once, exactly the vertices it adds to `visited` |
| `Cycles.CycleSearch` | nntask3.py:71-95 | the whole search expands distinct vertices, and every vertex when it finds no cycle |
| `Cycles.SearchFromSound` | nntask3.py:92-95 | when `has_cycle` answers true, the graph has a directed cycle |
| `Cycles.SearchFromComplete` | nntask3.py:92-95 | when `has_cycle` answers false, nothing visited lies on or leads to a cycle |
| `Cycles.HasCycleCorrect` | nntask3.py:71-95 | `Cycles.HasCycle`, the model of `has_cycle`, answers true exactly when the graph has a directed cycle, whatever the set's iteration order |
| `Operations.LiteralShape` | nntask3.py:190 | `replace('.', '', 1).isdigit()` accepts exactly digit strings with at most one dot and at least one digit |
| `Operations.SoleRootCheck` | nntask3.py:156-163 | a sole root is reported for a literal in a larger graph, or for a missing operation |
| `Operations.RootChecks` | nntask3.py:164-169 | with other than one root, each root that is not a literal, or has no operation, is reported once |
| `Operations.LeafChecks` | nntask3.py:171-178 | each sink with an operator, or with no operation, is reported |
| `Operations.MissingChecks` | nntask3.py:179-181 | each vertex without an operation is reported |
| `Operations.ValidateGraph` | nntask3.py:151-183 | exactly the violations of the root, sink and completeness rules are listed, each once, in any iteration order |
| `Operations.ValidateGraphEmpty` | nntask3.py:151-183 | `validate_graph` finds nothing exactly when the graph obeys every rule |
| `Operations.ValidateOperations` | nntask3.py:186-194 | exactly the entries that are neither a literal nor `+`, `*`, `exp` are reported, each once |
| `Evaluate.ChildArcs` | nntask3.py:122 | a vertex's children are its outgoing arcs sorted by ordinal |
| `Evaluate.Apply` | nntask3.py:125-136 | `+` and `*` always apply; `exp` needs exactly one argument; anything else is an unknown operation |
| `Evaluate.Compute` | nntask3.py:108-140 | `compute_vertex` only adds to the memo table, stores the value it returns, and stores each new vertex once, all reachable from the vertex |
| `Evaluate.ComputeAll` | nntask3.py:122-123 | computing the children yields one value each and memoizes only vertices below the parent |
| `Evaluate.Denote` | nntask3.py:108-140 | the memo-free reference value; its errors are genuine faults of vertices the evaluation reaches |
| `Evaluate.ComputeAgrees` | nntask3.py:108-140 | memoization changes nothing: `compute_vertex` returns the reference value or error and keeps the table sound |
| `Evaluate.ComputeCovers` | nntask3.py:108-140 | a successful `compute_vertex` memoizes exactly what the vertex reaches |
| `Evaluate.Turn` | nntask3.py:143-145 | one turn of the outer loop passes over a memoized vertex or adds the next vertex's value, keeping the loop invariant |
| `Evaluate.Evaluate` | nntask3.py:98-148 | `evaluate_function` returns the reference total, or raises its first error; on success every vertex is computed exactly once |
| `Evaluate.ValidatedErrors` | nntask3.py:131-133 | after both validators pass, the only possible error is `exp` with two or more arguments |
| `Prefix.Children` | nntask2.py:86-89 | `sorted(children_dict[v])` is a permutation of the arcs leaving `v`, ordered by child and then ordinal, and each child is a vertex of the graph |
| `Prefix.Visit` | nntask2.py:94-110 | `dfs(v)` marks `v` and only vertices of the graph as visited |
| `Prefix.VisitSpec` | nntask2.py:94-110 | `dfs(v)` walks each vertex it newly visits exactly once, starting with `v`; a leaf has no outgoing arcs; a node lists every child in `(child, ordinal)` order, writing `child()` exactly for a child visited before it, in `v`'s own walk or earlier |
| `Prefix.VisitKidsSpec` | nntask2.py:101-106 | the child loop walks each newly visited vertex once, names each entry after its child, and writes `child()` exactly for a child already visited, counting the walks of the entries before it |
| `Prefix.WalksSpec` | nntask2.py:111-113 | the outer loop walks each newly visited vertex once, leaves every vertex visited, and starts a walk exactly at each vertex in sorted order not yet visited, that walk following the rules from the vertices visited so far |
| `Prefix.ForestSpec` | nntask2.py:84-114 | the rendering walks every vertex exactly once, its walks are rooted at the unvisited vertices in sorted order, and every term follows the graph |
| `Prefix.ForestUnique` | nntask2.py:84-114 | the walks `Prefix.ToPrefix` renders are the only list that obeys those rules, so the rules determine the prefix notation |
| `Prefix.NoArcs` | nntask2.py:84-114 | without arcs the text is the vertex names in sorted order, run together |
| `Pipeline.CycleCheck` | nntask3.py:236 | the cycle gate answers whether the graph has a directed cycle |
| `Pipeline.Run2` | nntask2.py:127-143 | a parse error stops nntask2; otherwise a cyclic graph gets the cycle message and an acyclic one its prefix notation |
| `Pipeline.OperationErrorsEmpty` | nntask3.py:186-194 | `validate_operations` finds nothing exactly when every operation is valid |
| `Pipeline.Judge` | nntask3.py:224-253 | any violation from either validator stops the run, listing exactly the violations; a valid cyclic graph gets the cycle message; otherwise the result is the reference total, or an `exp` error with two or more arguments |
| `Pipeline.Run3` | nntask3.py:196-253 | the stages run in order: graph parse error, then missing operations file, then operations parse error, then the checks of `Judge` |

## Left out

- File opening, `print`, command-line arguments, the output files and
  `FileNotFoundError`. A file is given as its list of lines.
- The JSON branch of `parse_operations_file` (nntask3.py:50-53). Only the
  line-by-line reading is modelled.
- The JSON and XML serializers of nntask1 and nntask2, and nntask4.py. They
  are not part of the core.
- Floating point. Values are exact reals, a literal's value is its exact
  decimal, and `2.718281828459045 ** x` is a function supplied by the
  caller.
- Unicode. `isdigit` accepts only ASCII digits, `strip()` strips only the
  ASCII white-space characters, and there is no normalisation.
- `int()` also accepts surrounding white space and `_` between digits. The
  model's `ParseInt` does not; spaces and tabs are removed before `int()` is
  called anyway.
- Python's recursion limit on deep graphs in `dfs` and `compute_vertex`.
- `parents_count` in `evaluate_function` (nntask3.py:102, 106). It is
  computed but never read.
- The text of the messages. Errors are modelled by their kind, line and
  data.
- `Numerals.ParseInt`: `int()` accepts surrounding white space and
  underscores between digits, as said above. The model states only the
  digits-with-optional-sign form.

=== FILE: arcparse1.dfy ===
/** `parse_input_file` of nntask1.py. Lines are read as in nntask2.py (see
    `SplitRead`), but the arcs form a set of triples. A triple already in the
    set records a `Repeated` error for its line and ends that line only; the
    next line is still read. A piece that raises records its error and ends
    reading. Each recorded error overwrites the one before, so the message
    the program shows is the last one recorded. */
module ArcParse1 {
  import opened Wrappers
  import opened Text
  import opened Graphs
  import opened ArcText
  import opened SplitRead

  /** `{"vertices": set(), "arcs": set()}`. */
  datatype ArcSet = ArcSet(vertices: set<string>, arcs: set<Arc>)

  /** The names some arc of `arcs` starts or ends at. */
  function Ends(arcs: set<Arc>): set<string> {
    (set a | a in arcs :: a.src) + (set a | a in arcs :: a.dst)
  }

  /** The vertices are exactly the arcs' endpoints. */
  predicate Exact(g: ArcSet) {
    g.vertices == Ends(g.arcs)
  }

  /** The set after reading one line, and the fault that ended the line. */
  datatype LineStep = LineStep(graph: ArcSet, fault: Option<Fault>)

  /** Every error recorded while reading, in order, and the set read. */
  datatype Outcome = Outcome(graph: ArcSet, errors: seq<LineError>) {
    /** `error_message` when the function returns: the last error recorded. */
    function Message(): Option<LineError> {
      if errors == [] then None else Some(errors[|errors| - 1])
    }
  }

  /** The loop over one line's pieces, each already read. Both names are
      added before the ordinal is read and before the triple is looked up. */
  function AddPieces(g: ArcSet, rs: seq<PieceRead>): LineStep
    decreases |rs|
  {
    if rs == [] then LineStep(g, None)
    else
      match rs[0]
      case Miscount(c) => LineStep(g, Some(FieldCount(c)))
      case Fields(a, b, t, o) =>
        var vs := g.vertices + {a, b};
        if o.None? then LineStep(ArcSet(vs, g.arcs), Some(BadOrdinal(t)))
        else
          var arc := Arc(a, b, o.value);
          if arc in g.arcs then LineStep(ArcSet(vs, g.arcs), Some(Repeated(arc)))
          else AddPieces(ArcSet(vs, g.arcs + {arc}), rs[1..])
  }

  /** How many leading pieces read as triples that are neither in `seen`
      nor earlier on the line: the piece after them, if any, ends the line. */
  function FreshRun(seen: set<Arc>, rs: seq<PieceRead>): (k: nat)
    ensures k <= |rs|
    ensures forall j :: 0 <= j < k ==> PieceFault(rs[j]).None?
    decreases |rs|
  {
    if rs == [] || PieceFault(rs[0]).Some? || PieceArc(rs[0]) in seen then 0
    else
      var k := FreshRun(seen + {PieceArc(rs[0])}, rs[1..]);
      assert forall j :: 0 < j <= k ==> rs[j] == rs[1..][j - 1];
      1 + k
  }

  /** A line adds the triples of its leading pieces that read as new
      triples, and stops at the first piece after them: with the exception
      that piece raises, or, when it reads, with its triple as a repeat of
      one already in the set. A line that gets through every piece records
      nothing. */
  lemma {:induction false} AddPiecesFault(g: ArcSet, rs: seq<PieceRead>)
    ensures var r := AddPieces(g, rs);
            var k := FreshRun(g.arcs, rs);
            var read := PieceArcs(rs[..k]);
            && Fresh(g.arcs, read)
            && r.graph.arcs == g.arcs + ArcsOf(read)
            && (r.fault.None? <==> k == |rs|)
            && (k < |rs| && PieceFault(rs[k]).Some? ==> r.fault == PieceFault(rs[k]))
            && (k < |rs| && PieceFault(rs[k]).None? ==>
                  PieceArc(rs[k]) in r.graph.arcs && r.fault == Some(Repeated(PieceArc(rs[k]))))
    decreases |rs|
  {
    if rs == [] || PieceFault(rs[0]).Some? || PieceArc(rs[0]) in g.arcs {
      assert rs[..0] == [];
    } else {
      var arc := PieceArc(rs[0]);
      var g' := ArcSet(g.vertices + {arc.src, arc.dst}, g.arcs + {arc});
      AddPiecesFault(g', rs[1..]);
      var k' := FreshRun(g'.arcs, rs[1..]);
      assert rs[..1 + k'][1..] == rs[1..][..k'];
      assert 1 + k' < |rs| ==> rs[1 + k'] == rs[1..][k'];
    }
  }

  /** An exception that ends a line is the first the pieces raise, and a
      line that ends normally raises nothing. */
  lemma {:induction false} AddPiecesRaise(g: ArcSet, rs: seq<PieceRead>)
    ensures var r := AddPieces(g, rs);
            && (r.fault.None? ==> PiecesFault(rs).None?)
            && (r.fault.Some? && !r.fault.value.Repeated? ==> r.fault == PiecesFault(rs))
            && (r.fault.Some? && r.fault.value.Repeated? ==> r.fault.value.arc in r.graph.arcs)
            && g.arcs <= r.graph.arcs
    decreases |rs|
  {
    if rs != [] && rs[0].Fields? && rs[0].ord.Some? {
      var arc := Arc(rs[0].src, rs[0].dst, rs[0].ord.value);
      if arc !in g.arcs {
        AddPiecesRaise(ArcSet(g.vertices + {arc.src, arc.dst}, g.arcs + {arc}), rs[1..]);
      }
    }
  }

  /** The names a line leaves without an arc: those of the piece whose
      ordinal does not read, when that is what ended the line. */
  function Left(rs: seq<PieceRead>, fault: Option<Fault>): set<string> {
    if fault.Some? && fault.value.BadOrdinal? then Stray(rs) else {}
  }

  /** Adding one arc and its names keeps the vertices exact. */
  lemma EndsAdd(arcs: set<Arc>, a: Arc)
    ensures Ends(arcs + {a}) == Ends(arcs) + {a.src, a.dst}
  {
    assert (set x | x in arcs + {a} :: x.src) == (set x | x in arcs :: x.src) + {a.src};
    assert (set x | x in arcs + {a} :: x.dst) == (set x | x in arcs :: x.dst) + {a.dst};
  }

  /** The names of an arc in the set are already vertices of an exact set. */
  lemma EndsHas(arcs: set<Arc>, a: Arc)
    requires a in arcs
    ensures a.src in Ends(arcs) && a.dst in Ends(arcs)
  {
  }

  /** Reading a line keeps the vertices the arcs' endpoints, apart from the
      names of a piece whose ordinal does not read. */
  lemma {:induction false} AddPiecesExact(g: ArcSet, rs: seq<PieceRead>)
    requires Exact(g)
    ensures var r := AddPieces(g, rs);
            r.graph.vertices == Ends(r.graph.arcs) + Left(rs, r.fault)
    ensures var r := AddPieces(g, rs);
            r.fault.None? || r.fault.value.Repeated? ==> Exact(r.graph)
    decreases |rs|
  {
    if rs != [] && rs[0].Fields? {
      var a, b := rs[0].src, rs[0].dst;
      if rs[0].ord.None? {
        assert Stray(rs) == {a, b};
      } else {
        var arc := Arc(a, b, rs[0].ord.value);
        if arc in g.arcs {
          EndsHas(g.arcs, arc);
        } else {
          var g' := ArcSet(g.vertices + {a, b}, g.arcs + {arc});
          assert Exact(g') by {
            EndsAdd(g.arcs, arc);
          }
          AddPiecesExact(g', rs[1..]);
          assert Left(rs, AddPieces(g, rs).fault) == Left(rs[1..], AddPieces(g', rs[1..]).fault);
        }
      }
    }
  }

  /** What one line is to the loop: blank once stripped, or the pieces of
      the line, each read. */
  datatype LineRead = Blank | Filled(pieces: seq<PieceRead>)

  /** `line.strip()` tested for emptiness, then the pieces read. */
  function ReadLine(line: string): (r: LineRead)
    ensures r.Blank? <==> forall k :: 0 <= k < |line| ==> line[k] in Whitespace
    ensures r.Filled? ==> r.pieces == LineReads(line)
  {
    if Trim(line) == [] then Blank else Filled(LineReads(line))
  }

  /** Every line of the file, read. */
  function ReadLines(lines: seq<string>): (r: seq<LineRead>)
    ensures |r| == |lines|
  {
    MapSeq(ReadLine, lines)
  }

  /** Entry `k` of the lines read is line `k`, read. */
  lemma ReadLinesAt(lines: seq<string>, k: nat)
    requires k < |lines|
    ensures ReadLines(lines)[k] == ReadLine(lines[k])
  {
    MapSeqAt(ReadLine, lines, k);
  }

  /** The fault the pieces of a line raise, if any; none for a blank line. */
  function ReadFault(l: LineRead): Option<Fault> {
    if l.Blank? then None else PiecesFault(l.pieces)
  }

  /** The fault of a line of text. */
  function LineFault(line: string): Option<Fault> {
    ReadFault(ReadLine(line))
  }

  /** Each line's fault, in order. */
  function Faults(ls: seq<LineRead>): (r: seq<Option<Fault>>)
    ensures |r| == |ls|
  {
    MapSeq(ReadFault, ls)
  }

  /** Entry `k` of the faults is line `k`'s. */
  lemma FaultsAt(ls: seq<LineRead>, k: nat)
    requires k < |ls|
    ensures Faults(ls)[k] == ReadFault(ls[k])
  {
    MapSeqAt(ReadFault, ls, k);
  }

  /** Each line's fault, for the lines of the file. */
  function LineFaults(lines: seq<string>): (r: seq<Option<Fault>>)
    ensures |r| == |lines|
  {
    Faults(ReadLines(lines))
  }

  /** Entry `k` of the faults is line `k`'s. */
  lemma LineFaultsAt(lines: seq<string>, k: nat)
    requires k < |lines|
    ensures LineFaults(lines)[k] == LineFault(lines[k])
  {
    ReadLinesAt(lines, k);
    FaultsAt(ReadLines(lines), k);
  }

  /** The loop over the lines from line `i` (0-based) on, each line already
      read by `ReadLine`, with the errors recorded from there. A blank line is skipped; a line ended by a
      repeated triple records it and reading goes on; a line ended by an
      exception records it and reading stops. */
  function ParseFrom(ls: seq<LineRead>, i: nat, g: ArcSet): Outcome
    requires i <= |ls|
    decreases |ls| - i
  {
    if i == |ls| then Outcome(g, [])
    else if ls[i].Blank? then ParseFrom(ls, i + 1, g)
    else
      var s := AddPieces(g, ls[i].pieces);
      if s.fault.None? then ParseFrom(ls, i + 1, s.graph)
      else
        var e := LineError(i + 1, s.fault.value);
        if s.fault.value.Repeated? then
          var r := ParseFrom(ls, i + 1, s.graph);
          Outcome(r.graph, [e] + r.errors)
        else Outcome(s.graph, [e])
  }

  /** The errors recorded while reading from line `i` on: each names a line
      after `i` that exists, an exception is the fault of its line's pieces,
      the lines go up, and every error but the last is a repeated triple. */
  predicate Logged(faults: seq<Option<Fault>>, i: nat, es: seq<LineError>) {
    && (forall k :: 0 <= k < |es| ==>
          && i < es[k].line <= |faults|
          && (es[k].fault.Repeated? || faults[es[k].line - 1] == Some(es[k].fault)))
    && (forall k :: 0 <= k < |es| - 1 ==> es[k].line < es[k + 1].line && es[k].fault.Repeated?)
  }

  /** Recording an error at line `i + 1` before those logged from there on. */
  lemma LoggedCons(faults: seq<Option<Fault>>, i: nat, e: LineError, es: seq<LineError>)
    requires i < |faults| && e.line == i + 1 && Logged(faults, i + 1, es)
    requires e.fault.Repeated? || faults[i] == Some(e.fault)
    requires es != [] ==> e.fault.Repeated?
    ensures Logged(faults, i, [e] + es)
  {
    var xs := [e] + es;
    forall k | 0 <= k < |xs| - 1 ensures xs[k].line < xs[k + 1].line && xs[k].fault.Repeated? {
      if k > 0 {
        assert xs[k] == es[k - 1] && xs[k + 1] == es[k];
      }
    }
  }

  /** An exception at line `i + 1` alone. */
  lemma LoggedOne(faults: seq<Option<Fault>>, i: nat, e: LineError)
    requires i < |faults| && e.line == i + 1 && faults[i] == Some(e.fault)
    ensures Logged(faults, i, [e])
  {
  }

  /** Reading from line `i` on logs its errors as `Logged` says. */
  lemma {:induction false} ParseFromLogged(ls: seq<LineRead>, i: nat, g: ArcSet)
    requires i <= |ls|
    ensures Logged(Faults(ls), i, ParseFrom(ls, i, g).errors)
    decreases |ls| - i, 1
  {
    if i < |ls| {
      if ls[i].Blank? {
        var es := ParseFrom(ls, i + 1, g).errors;
        assert ParseFrom(ls, i, g).errors == es;
        assert Logged(Faults(ls), i + 1, es) by {
          ParseFromLogged(ls, i + 1, g);
        }
        LoggedFrom(Faults(ls), i, es);
      } else if AddPieces(g, ls[i].pieces).fault.None? {
        ReadLogged(ls, i, g);
      } else if AddPieces(g, ls[i].pieces).fault.value.Repeated? {
        RepeatLogged(ls, i, g);
      } else {
        StopLogged(ls, i, g);
      }
    }
  }

  /** What is logged from line `i + 1` on is logged from line `i` on. */
  lemma LoggedFrom(faults: seq<Option<Fault>>, i: nat, es: seq<LineError>)
    requires Logged(faults, i + 1, es)
    ensures Logged(faults, i, es)
  {
  }

  /** A line that reads, then the lines after it. */
  lemma {:induction false} ReadLogged(ls: seq<LineRead>, i: nat, g: ArcSet)
    requires i < |ls| && ls[i].Filled?
    requires AddPieces(g, ls[i].pieces).fault.None?
    ensures Logged(Faults(ls), i, ParseFrom(ls, i, g).errors)
    decreases |ls| - i, 0
  {
    var s := AddPieces(g, ls[i].pieces);
    ReadStep(ls, i, g);
    ParseFromLogged(ls, i + 1, s.graph);
    LoggedFrom(Faults(ls), i, ParseFrom(ls, i + 1, s.graph).errors);
  }

  /** A line with a repeated triple, then the lines after it. */
  lemma {:induction false} RepeatLogged(ls: seq<LineRead>, i: nat, g: ArcSet)
    requires i < |ls| && ls[i].Filled?
    requires var f := AddPieces(g, ls[i].pieces).fault; f.Some? && f.value.Repeated?
    ensures Logged(Faults(ls), i, ParseFrom(ls, i, g).errors)
    decreases |ls| - i, 0
  {
    var s := AddPieces(g, ls[i].pieces);
    RepeatStep(ls, i, g);
    ParseFromLogged(ls, i + 1, s.graph);
    LoggedCons(Faults(ls), i, LineError(i + 1, s.fault.value), ParseFrom(ls, i + 1, s.graph).errors);
  }

  /** A line that raises ends the log with its fault. */
  lemma StopLogged(ls: seq<LineRead>, i: nat, g: ArcSet)
    requires i < |ls| && ls[i].Filled?
    requires var f := AddPieces(g, ls[i].pieces).fault; f.Some? && !f.value.Repeated?
    ensures Logged(Faults(ls), i, ParseFrom(ls, i, g).errors)
  {
    var s := AddPieces(g, ls[i].pieces);
    StopFault(ls, i, g);
    StopStep(ls, i, g);
    LoggedOne(Faults(ls), i, LineError(i + 1, s.fault.value));
  }

  /** A blank line is skipped. */
  lemma BlankStep(ls: seq<LineRead>, i: nat, g: ArcSet)
    requires i < |ls| && ls[i].Blank?
    ensures ParseFrom(ls, i, g) == ParseFrom(ls, i + 1, g)
  {
  }

  /** A line that reads hands the set on to the next line. */
  lemma ReadStep(ls: seq<LineRead>, i: nat, g: ArcSet)
    requires i < |ls| && ls[i].Filled?
    requires AddPieces(g, ls[i].pieces).fault.None?
    ensures ParseFrom(ls, i, g) == ParseFrom(ls, i + 1, AddPieces(g, ls[i].pieces).graph)
  {
  }

  /** A line that raises nothing hands the set on, recording a repeated
      triple if it has one. */
  lemma GoesOn(ls: seq<LineRead>, i: nat, g: ArcSet)
    requires i < |ls| && ls[i].Filled?
    requires var f := AddPieces(g, ls[i].pieces).fault; f.Some? ==> f.value.Repeated?
    ensures var s := AddPieces(g, ls[i].pieces);
            var h := ParseFrom(ls, i + 1, s.graph);
            var r := ParseFrom(ls, i, g);
            && (s.fault.None? ==> r == h)
            && (s.fault.Some? ==> r.graph == h.graph && r.errors == [LineError(i + 1, s.fault.value)] + h.errors)
  {
  }

  /** A line with a repeated triple records it and hands the set on. */
  lemma RepeatStep(ls: seq<LineRead>, i: nat, g: ArcSet)
    requires i < |ls| && ls[i].Filled?
    requires var f := AddPieces(g, ls[i].pieces).fault; f.Some? && f.value.Repeated?
    ensures var s := AddPieces(g, ls[i].pieces);
            var h := ParseFrom(ls, i + 1, s.graph);
            && ParseFrom(ls, i, g).graph == h.graph
            && ParseFrom(ls, i, g).errors == [LineError(i + 1, s.fault.value)] + h.errors
  {
  }

  /** The fault a line that raises records is that line's fault. */
  lemma StopFault(ls: seq<LineRead>, i: nat, g: ArcSet)
    requires i < |ls| && ls[i].Filled?
    requires var f := AddPieces(g, ls[i].pieces).fault; f.Some? && !f.value.Repeated?
    ensures Faults(ls)[i] == AddPieces(g, ls[i].pieces).fault
  {
    AddPiecesRaise(g, ls[i].pieces);
    FaultsAt(ls, i);
  }

  /** A line that raises records its error and stops reading. */
  lemma StopStep(ls: seq<LineRead>, i: nat, g: ArcSet)
    requires i < |ls| && ls[i].Filled?
    requires var f := AddPieces(g, ls[i].pieces).fault; f.Some? && !f.value.Repeated?
    ensures var s := AddPieces(g, ls[i].pieces);
            && ParseFrom(ls, i, g).graph == s.graph
            && ParseFrom(ls, i, g).errors == [LineError(i + 1, s.fault.value)]
  {
  }

  /** The names the last error leaves without an arc: those of the piece
      whose ordinal did not read, when that ended reading. */
  function LastLeft(ls: seq<LineRead>, es: seq<LineError>): set<string> {
    if es == [] then {}
    else
      var e := es[|es| - 1];
      if e.fault.BadOrdinal? && 1 <= e.line <= |ls| && ls[e.line - 1].Filled? then Stray(ls[e.line - 1].pieces)
      else {}
  }

  /** Reading from an exact set keeps the vertices the arcs' endpoints, apart
      from the names the last error leaves. */
  lemma {:induction false} ParseFromExact(ls: seq<LineRead>, i: nat, g: ArcSet)
    requires i <= |ls| && Exact(g)
    ensures var r := ParseFrom(ls, i, g);
            r.graph.vertices == Ends(r.graph.arcs) + LastLeft(ls, r.errors)
    decreases |ls| - i, 1
  {
    if i < |ls| {
      if ls[i].Blank? {
        ParseFromExact(ls, i + 1, g);
      } else if AddPieces(g, ls[i].pieces).fault.None? {
        ReadExact(ls, i, g);
      } else if AddPieces(g, ls[i].pieces).fault.value.Repeated? {
        RepeatExact(ls, i, g);
      } else {
        StopExact(ls, i, g);
      }
    }
  }

  /** A line that reads, then the lines after it. */
  lemma {:induction false} ReadExact(ls: seq<LineRead>, i: nat, g: ArcSet)
    requires i < |ls| && ls[i].Filled? && Exact(g)
    requires AddPieces(g, ls[i].pieces).fault.None?
    ensures var r := ParseFrom(ls, i, g);
            r.graph.vertices == Ends(r.graph.arcs) + LastLeft(ls, r.errors)
    decreases |ls| - i, 0
  {
    var rs := ls[i].pieces;
    var s := AddPieces(g, rs);
    AddPiecesExact(g, rs);
    ReadStep(ls, i, g);
    ParseFromExact(ls, i + 1, s.graph);
  }

  /** A line with a repeated triple, then the lines after it. */
  lemma {:induction false} RepeatExact(ls: seq<LineRead>, i: nat, g: ArcSet)
    requires i < |ls| && ls[i].Filled? && Exact(g)
    requires var f := AddPieces(g, ls[i].pieces).fault; f.Some? && f.value.Repeated?
    ensures var r := ParseFrom(ls, i, g);
            r.graph.vertices == Ends(r.graph.arcs) + LastLeft(ls, r.errors)
    decreases |ls| - i, 0
  {
    var rs := ls[i].pieces;
    var s := AddPieces(g, rs);
    AddPiecesExact(g, rs);
    RepeatStep(ls, i, g);
    ParseFromExact(ls, i + 1, s.graph);
    LastLeftCons(ls, LineError(i + 1, s.fault.value), ParseFrom(ls, i + 1, s.graph).errors);
  }

  /** A line that raises leaves the names of a piece whose ordinal does not
      read. */
  lemma StopExact(ls: seq<LineRead>, i: nat, g: ArcSet)
    requires i < |ls| && ls[i].Filled? && Exact(g)
    requires var f := AddPieces(g, ls[i].pieces).fault; f.Some? && !f.value.Repeated?
    ensures var r := ParseFrom(ls, i, g);
            r.graph.vertices == Ends(r.graph.arcs) + LastLeft(ls, r.errors)
  {
    var rs := ls[i].pieces;
    var s := AddPieces(g, rs);
    StopStep(ls, i, g);
    AddPiecesExact(g, rs);
    StopLeft(ls, i, LineError(i + 1, s.fault.value), rs);
  }

  /** The names an error at line `i + 1` leaves are those its line leaves. */
  lemma StopLeft(ls: seq<LineRead>, i: nat, e: LineError, rs: seq<PieceRead>)
    requires i < |ls| && ls[i].Filled? && e.line == i + 1 && rs == ls[i].pieces
    ensures LastLeft(ls, [e]) == Left(rs, Some(e.fault))
  {
  }

  /** A repeated triple recorded before other errors leaves no names of its
      own behind. */
  lemma LastLeftCons(ls: seq<LineRead>, e: LineError, es: seq<LineError>)
    requires e.fault.Repeated?
    ensures LastLeft(ls, [e] + es) == LastLeft(ls, es)
  {
    if es != [] {
      assert ([e] + es)[|es|] == es[|es| - 1];
    }
  }

  /** `parse_input_file(input_file)` on the file's lines. Every arc's
      endpoints are vertices, and the vertices are the arcs' endpoints
      together with the names a piece whose ordinal does not read leaves
      when it ends reading. The errors recorded go down the file; each one
      before the last is a repeated triple, after which reading went on; an
      exception is the first fault of its line's pieces (entry `k` of
      `LineFaults` is line `k`'s, see `LineFaultsAt`); and the message is
      the last error. The errors and the final set of triples are exactly
      those of the line-by-line reference `ErrorsFrom` and `SeenAtEnd`. */
  function ParseArcs(lines: seq<string>): (r: Outcome)
    ensures forall a :: a in r.graph.arcs ==> a.src in r.graph.vertices && a.dst in r.graph.vertices
    ensures r.graph.vertices == Ends(r.graph.arcs) + LastLeft(ReadLines(lines), r.errors)
    ensures Logged(LineFaults(lines), 0, r.errors)
    ensures r.Message().None? <==> r.errors == []
    ensures r.errors == [] ==> ReadsFrom(ReadLines(lines), 0)
    ensures r.errors == ErrorsFrom(ReadLines(lines), 0) && r.graph.arcs == SeenAtEnd(ReadLines(lines), 0)
    ensures var ls := ReadLines(lines);
            ReadsFrom(ls, 0) ==>
              && (r.errors == [] <==> Distinct(FileArcs(ls, 0)))
              && (forall k :: 0 <= k < |r.errors| ==> r.errors[k].fault.Repeated?)
              && (r.errors == [] ==> r.graph.arcs == ArcsOf(FileArcs(ls, 0))
                                     && r.graph.vertices == Endpoints(FileArcs(ls, 0)))
  {
    var ls := ReadLines(lines);
    ParseFromStart(ls);
    ParseFrom(ls, 0, ArcSet({}, {}))
  }

  /** Reading every line, from the empty set. */
  lemma ParseFromStart(ls: seq<LineRead>)
    ensures var r := ParseFrom(ls, 0, ArcSet({}, {}));
            && (forall a :: a in r.graph.arcs ==> a.src in r.graph.vertices && a.dst in r.graph.vertices)
            && r.graph.vertices == Ends(r.graph.arcs) + LastLeft(ls, r.errors)
            && Logged(Faults(ls), 0, r.errors)
            && (r.errors == [] ==> ReadsFrom(ls, 0))
            && r.errors == ErrorsFrom(ls, 0) && r.graph.arcs == SeenAtEnd(ls, 0)
            && (ReadsFrom(ls, 0) ==> ReadsAs(ArcSet({}, {}), FileArcs(ls, 0), r)
                                     && (Fresh({}, FileArcs(ls, 0)) <==> Distinct(FileArcs(ls, 0))))
  {
    var r := ParseFrom(ls, 0, ArcSet({}, {}));
    assert r.errors == [] ==> ReadsFrom(ls, 0) by {
      CleanFrom(ls, 0, ArcSet({}, {}));
    }
    assert ReadsFrom(ls, 0) ==> ReadsAs(ArcSet({}, {}), FileArcs(ls, 0), r)
                                && (Fresh({}, FileArcs(ls, 0)) <==> Distinct(FileArcs(ls, 0))) by {
      ParseAllRead(ls);
    }
    assert Logged(Faults(ls), 0, r.errors) by {
      ParseFromLogged(ls, 0, ArcSet({}, {}));
    }
    assert r.errors == ErrorsFrom(ls, 0) && r.graph.arcs == SeenAtEnd(ls, 0) by {
      ParseFromVerdicts(ls, 0, ArcSet({}, {}));
    }
    assert r.graph.vertices == Ends(r.graph.arcs) + LastLeft(ls, r.errors) by {
      assert Ends({}) == {};
      ParseFromExact(ls, 0, ArcSet({}, {}));
    }
  }

  /** The arcs of a list, as a set. */
  function ArcsOf(s: seq<Arc>): (r: set<Arc>)
    ensures forall k :: 0 <= k < |s| ==> s[k] in r
  {
    if s == [] then {} else {s[0]} + ArcsOf(s[1..])
  }

  lemma {:induction false} ArcsOfConcat(a: seq<Arc>, b: seq<Arc>)
    ensures ArcsOf(a + b) == ArcsOf(a) + ArcsOf(b)
  {
    if a != [] {
      assert (a + b)[1..] == a[1..] + b;
      ArcsOfConcat(a[1..], b);
    } else {
      assert a + b == b;
    }
  }

  /** No arc of `s` is in `seen` or comes twice in `s`. */
  predicate Fresh(seen: set<Arc>, s: seq<Arc>)
    decreases |s|
  {
    s == [] || (s[0] !in seen && Fresh(seen + {s[0]}, s[1..]))
  }

  /** Freshness is having no repeats and nothing already seen. */
  lemma {:induction false} FreshDistinct(seen: set<Arc>, s: seq<Arc>)
    ensures Fresh(seen, s) <==> Distinct(s) && forall k :: 0 <= k < |s| ==> s[k] !in seen
    decreases |s|
  {
    if s != [] {
      FreshDistinct(seen + {s[0]}, s[1..]);
      if Distinct(s) && forall k :: 0 <= k < |s| ==> s[k] !in seen {
        assert Distinct(s[1..]);
        forall k | 0 <= k < |s| - 1 ensures s[1..][k] !in seen + {s[0]} {
          assert s[1..][k] == s[k + 1];
        }
      }
      if Fresh(seen, s) {
        forall i, j | 0 <= i < j < |s| ensures s[i] != s[j] {
          assert s[j] == s[1..][j - 1];
          if i > 0 {
            assert s[i] == s[1..][i - 1];
          }
        }
        forall k | 0 <= k < |s| ensures s[k] !in seen {
          if k > 0 {
            assert s[k] == s[1..][k - 1];
          }
        }
      }
    }
  }

  /** Freshness of two lists in a row. */
  lemma {:induction false} FreshConcat(seen: set<Arc>, a: seq<Arc>, b: seq<Arc>)
    ensures Fresh(seen, a + b) <==> Fresh(seen, a) && Fresh(seen + ArcsOf(a), b)
    decreases |a|
  {
    if a == [] {
      assert a + b == b && seen + ArcsOf(a) == seen;
    } else {
      assert (a + b)[0] == a[0] && (a + b)[1..] == a[1..] + b;
      FreshConcat(seen + {a[0]}, a[1..], b);
      assert seen + {a[0]} + ArcsOf(a[1..]) == seen + ArcsOf(a);
    }
  }

  /** Reading pieces that all read adds their triples and names when no
      triple repeats; otherwise the line ends with a repeated triple. */
  lemma {:induction false} AddReading(g: ArcSet, rs: seq<PieceRead>)
    requires forall j :: 0 <= j < |rs| ==> PieceFault(rs[j]).None?
    ensures var r := AddPieces(g, rs);
            var row := PieceArcs(rs);
            && (r.fault.None? <==> Fresh(g.arcs, row))
            && (r.fault.Some? ==> r.fault.value.Repeated?)
            && (r.fault.None? ==> r.graph.arcs == g.arcs + ArcsOf(row)
                                  && r.graph.vertices == g.vertices + Endpoints(row))
    decreases |rs|
  {
    if rs != [] {
      var row := PieceArcs(rs);
      var a := row[0];
      assert PieceFault(rs[0]).None? && a == PieceArc(rs[0]);
      if a !in g.arcs {
        var g' := ArcSet(g.vertices + {a.src, a.dst}, g.arcs + {a});
        assert AddPieces(g, rs) == AddPieces(g', rs[1..]);
        assert row[1..] == PieceArcs(rs[1..]);
        AddReading(g', rs[1..]);
        assert Endpoints(row) == {a.src, a.dst} + Endpoints(row[1..]);
      }
    }
  }

  /** The triples of a line whose pieces all read, in order; none for a
      blank line. */
  function RowArcs(l: LineRead): seq<Arc>
    requires ReadFault(l).None?
  {
    if l.Blank? then []
    else
      var rs := l.pieces;
      assert forall j :: 0 <= j < |rs| ==> PieceFault(rs[j]).None? by {
        PiecesFaultNone(rs);
      }
      PieceArcs(rs)
  }

  /** The triples of a line of text that raises nothing. */
  function LineArcs(line: string): seq<Arc>
    requires LineFault(line).None?
  {
    RowArcs(ReadLine(line))
  }

  /** No line from line `i` (0-based) on raises. */
  predicate ReadsFrom(ls: seq<LineRead>, i: nat) {
    forall k :: i <= k < |ls| ==> ReadFault(ls[k]).None?
  }

  /** The triples of every line from line `i` on, in order, when none raises. */
  function FileArcs(ls: seq<LineRead>, i: nat): seq<Arc>
    requires i <= |ls| && ReadsFrom(ls, i)
    decreases |ls| - i
  {
    if i == |ls| then [] else RowArcs(ls[i]) + FileArcs(ls, i + 1)
  }

  /** What reading lines that all read gives, from the set `g` on, when the
      lines hold the triples `row`: no error exactly when no triple repeats,
      and then every triple and its names; otherwise only repeated triples. */
  predicate ReadsAs(g: ArcSet, row: seq<Arc>, r: Outcome) {
    && (r.errors == [] <==> Fresh(g.arcs, row))
    && (forall k :: 0 <= k < |r.errors| ==> r.errors[k].fault.Repeated?)
    && (r.errors == [] ==> r.graph.arcs == g.arcs + ArcsOf(row)
                           && r.graph.vertices == g.vertices + Endpoints(row))
  }

  /** Reading lines from line `i` on, none of which raises. */
  lemma {:induction false} ParseReadsFrom(ls: seq<LineRead>, i: nat, g: ArcSet)
    requires i <= |ls| && ReadsFrom(ls, i)
    ensures ReadsAs(g, FileArcs(ls, i), ParseFrom(ls, i, g))
    decreases |ls| - i, 1
  {
    if i < |ls| {
      if ls[i].Blank? {
        ParseReadsFrom(ls, i + 1, g);
        assert FileArcs(ls, i) == FileArcs(ls, i + 1) by {
          assert RowArcs(ls[i]) == [];
        }
      } else {
        ReadsStep(ls, i, g);
      }
    } else {
      assert ArcsOf([]) == {} && Endpoints([]) == {};
    }
  }

  /** One line that is not blank, then the lines after it. */
  lemma {:induction false} ReadsStep(ls: seq<LineRead>, i: nat, g: ArcSet)
    requires i < |ls| && ReadsFrom(ls, i) && ls[i].Filled?
    ensures ReadsAs(g, FileArcs(ls, i), ParseFrom(ls, i, g))
    decreases |ls| - i, 0
  {
    var row := RowArcs(ls[i]);
    var rest := FileArcs(ls, i + 1);
    var rs := ls[i].pieces;
    assert forall j :: 0 <= j < |rs| ==> PieceFault(rs[j]).None? by {
      PiecesFaultNone(rs);
    }
    assert row == PieceArcs(rs);
    var s := AddPieces(g, rs);
    assert LineAdds(g, row, s) by {
      AddReading(g, rs);
    }
    var h := ParseFrom(ls, i + 1, s.graph);
    assert ReadsAs(s.graph, rest, h) by {
      ParseReadsFrom(ls, i + 1, s.graph);
    }
    var r := ParseFrom(ls, i, g);
    assert && (s.fault.None? ==> r == h)
           && (s.fault.Some? ==> r.graph == h.graph && r.errors == [LineError(i + 1, s.fault.value)] + h.errors) by {
      GoesOn(ls, i, g);
    }
    assert ReadsAs(g, row + rest, r) by {
      ReadsCompose(g, row, rest, s, h, r, i + 1);
    }
    assert FileArcs(ls, i) == row + rest;
  }

  /** What reading a line whose pieces all read, with the triples `row`,
      does to the set `g`. */
  predicate LineAdds(g: ArcSet, row: seq<Arc>, s: LineStep) {
    && (s.fault.None? <==> Fresh(g.arcs, row))
    && (s.fault.Some? ==> s.fault.value.Repeated?)
    && (s.fault.None? ==> s.graph.arcs == g.arcs + ArcsOf(row)
                          && s.graph.vertices == g.vertices + Endpoints(row))
  }

  /** A line read as `s`, then the lines after it read as `h`, read as `r`. */
  lemma ReadsCompose(g: ArcSet, row: seq<Arc>, rest: seq<Arc>, s: LineStep, h: Outcome, r: Outcome, n: nat)
    requires LineAdds(g, row, s) && ReadsAs(s.graph, rest, h)
    requires s.fault.None? ==> r == h
    requires s.fault.Some? ==> r.graph == h.graph && r.errors == [LineError(n, s.fault.value)] + h.errors
    ensures ReadsAs(g, row + rest, r)
  {
    assert Fresh(g.arcs, row + rest) <==> Fresh(g.arcs, row) && Fresh(g.arcs + ArcsOf(row), rest) by {
      FreshConcat(g.arcs, row, rest);
    }
    if s.fault.None? {
      if h.errors == [] {
        assert ArcsOf(row + rest) == ArcsOf(row) + ArcsOf(rest) by {
          ArcsOfConcat(row, rest);
        }
        assert Endpoints(row + rest) == Endpoints(row) + Endpoints(rest) by {
          EndpointsConcat(row, rest);
        }
        UnionTwice(g.arcs, ArcsOf(row), ArcsOf(rest), s.graph.arcs, h.graph.arcs, ArcsOf(row + rest));
        UnionTwice(g.vertices, Endpoints(row), Endpoints(rest), s.graph.vertices, h.graph.vertices,
                   Endpoints(row + rest));
      }
    } else {
      AllRepeatedCons(LineError(n, s.fault.value), h.errors);
    }
  }

  /** Adding two sets in turn adds their union. */
  lemma UnionTwice<T>(a: set<T>, x: set<T>, y: set<T>, b: set<T>, c: set<T>, xy: set<T>)
    requires b == a + x && c == b + y && xy == x + y
    ensures c == a + xy
  {
  }

  /** A repeated triple recorded before repeated triples. */
  lemma AllRepeatedCons(e: LineError, es: seq<LineError>)
    requires e.fault.Repeated? && forall k :: 0 <= k < |es| ==> es[k].fault.Repeated?
    ensures forall k :: 0 <= k < |[e] + es| ==> ([e] + es)[k].fault.Repeated?
  {
    forall k | 0 <= k < |[e] + es| ensures ([e] + es)[k].fault.Repeated? {
      if k > 0 {
        assert ([e] + es)[k] == es[k - 1];
      }
    }
  }

  /** Reading a whole file none of whose lines raises. */
  lemma ParseAllRead(ls: seq<LineRead>)
    ensures ReadsFrom(ls, 0) ==>
              && ReadsAs(ArcSet({}, {}), FileArcs(ls, 0), ParseFrom(ls, 0, ArcSet({}, {})))
              && (Fresh({}, FileArcs(ls, 0)) <==> Distinct(FileArcs(ls, 0)))
  {
    if ReadsFrom(ls, 0) {
      ParseReadsFrom(ls, 0, ArcSet({}, {}));
      FreshDistinct({}, FileArcs(ls, 0));
    }
  }

  /** Reading from line `i` on records no error only when no line from
      there on raises. */
  lemma {:induction false} CleanFrom(ls: seq<LineRead>, i: nat, g: ArcSet)
    requires i <= |ls|
    ensures ParseFrom(ls, i, g).errors == [] ==> ReadsFrom(ls, i)
    decreases |ls| - i, 1
  {
    if i < |ls| {
      if ls[i].Blank? {
        CleanFrom(ls, i + 1, g);
      } else if AddPieces(g, ls[i].pieces).fault.None? {
        CleanStep(ls, i, g);
      } else if AddPieces(g, ls[i].pieces).fault.value.Repeated? {
        RepeatStep(ls, i, g);
      } else {
        StopStep(ls, i, g);
      }
    }
  }

  /** A line that reads raises nothing, then the lines after it. */
  lemma {:induction false} CleanStep(ls: seq<LineRead>, i: nat, g: ArcSet)
    requires i < |ls| && ls[i].Filled?
    requires AddPieces(g, ls[i].pieces).fault.None?
    ensures ParseFrom(ls, i, g).errors == [] ==> ReadsFrom(ls, i)
    decreases |ls| - i, 0
  {
    var s := AddPieces(g, ls[i].pieces);
    assert ReadFault(ls[i]).None? by {
      AddPiecesRaise(g, ls[i].pieces);
    }
    ReadStep(ls, i, g);
    CleanFrom(ls, i + 1, s.graph);
  }

  /** A written line reads, as its own arcs. */
  lemma LineWritten(row: seq<Arc>)
    requires row != [] && PlainArcs(row)
    ensures LineFault(FormatLine(row)).None? && LineArcs(FormatLine(row)) == row
  {
    var rs := LineReads(FormatLine(row));
    WrittenFilled(row);
    assert (forall j :: 0 <= j < |rs| ==> PieceFault(rs[j]).None?) && PieceArcs(rs) == row by {
      LineReadsFormatted(row);
      WrittenArcs(rs, row);
    }
    PiecesFaultNone(rs);
  }

  /** A written line is not blank. */
  lemma WrittenFilled(row: seq<Arc>)
    requires row != []
    ensures ReadLine(FormatLine(row)) == Filled(LineReads(FormatLine(row)))
  {
    var line := FormatLine(row);
    assert line[0] == '(' && line[|line| - 1] == ')';
    BracketedTrim(line);
  }

  /** Line `k` of written rows reads, as row `k`. */
  lemma RowWritten(rows: seq<seq<Arc>>, k: nat)
    requires Writable(rows) && k < |rows|
    ensures var ls := ReadLines(FormatLines(rows));
            k < |ls| && ReadFault(ls[k]).None? && RowArcs(ls[k]) == rows[k]
  {
    LineWritten(rows[k]);
    ReadLinesAt(FormatLines(rows), k);
  }

  /** Every line read raises nothing and holds the row of the same index. */
  predicate RowsRead(ls: seq<LineRead>, rows: seq<seq<Arc>>) {
    |ls| == |rows| && forall k :: 0 <= k < |ls| ==> ReadFault(ls[k]).None? && RowArcs(ls[k]) == rows[k]
  }

  /** Lines that read as the rows read, from line `i` on, as those rows. */
  lemma {:induction false} FileOfRows(ls: seq<LineRead>, rows: seq<seq<Arc>>, i: nat)
    requires RowsRead(ls, rows) && i <= |ls|
    ensures ReadsFrom(ls, i)
    ensures FileArcs(ls, i) == Flatten(rows[i..])
    decreases |ls| - i
  {
    if i < |ls| {
      FileOfRows(ls, rows, i + 1);
      FlattenFrom(rows, i);
    } else {
      assert rows[i..] == [];
    }
  }

  /** Written lines all read, as the rows written. */
  lemma FormattedFile(rows: seq<seq<Arc>>)
    requires Writable(rows)
    ensures RowsRead(ReadLines(FormatLines(rows)), rows)
  {
    var ls := ReadLines(FormatLines(rows));
    forall k | 0 <= k < |ls| ensures ReadFault(ls[k]).None? && RowArcs(ls[k]) == rows[k] {
      RowWritten(rows, k);
    }
  }

  /** Reading written lines, one row of arcs per line, records no error
      exactly when no triple occurs twice; the set read is then every arc
      written, with their names as the vertices. Otherwise every error is a
      repeated triple. */
  lemma ParseFormatted(rows: seq<seq<Arc>>)
    requires Writable(rows)
    ensures var r := ParseArcs(FormatLines(rows));
            && (r.Message().None? <==> Distinct(Flatten(rows)))
            && (forall k :: 0 <= k < |r.errors| ==> r.errors[k].fault.Repeated?)
            && (r.Message().None? ==> r.graph.arcs == ArcsOf(Flatten(rows))
                                      && r.graph.vertices == Endpoints(Flatten(rows)))
  {
    var ls := ReadLines(FormatLines(rows));
    FormattedFile(rows);
    assert rows[0..] == rows;
    FileOfRows(ls, rows, 0);
    ParseReadsFrom(ls, 0, ArcSet({}, {}));
    FreshDistinct({}, Flatten(rows));
  }

  // ---------------------------------------------------------------------------
  // Reading goes on after a repeated triple

  /** No exception is recorded before line `k` (0-based): every error that
      names an earlier line is a repeated triple. */
  predicate Reached(es: seq<LineError>, k: nat) {
    forall j :: 0 <= j < |es| ==> es[j].fault.Repeated? || es[j].line > k
  }

  /** The repeated triple recorded for line `n` (1-based), if any. */
  function RepeatAt(es: seq<LineError>, n: nat): Option<Arc>
    decreases |es|
  {
    if es == [] then None
    else if es[0].line == n && es[0].fault.Repeated? then Some(es[0].fault.arc)
    else RepeatAt(es[1..], n)
  }

  /** The triples of `row` before the first `x`. */
  function UpTo(row: seq<Arc>, x: Arc): seq<Arc>
    decreases |row|
  {
    if row == [] || row[0] == x then [] else [row[0]] + UpTo(row[1..], x)
  }

  /** What a line with the triples `row` leaves in the set `arcs`: all its
      triples when it records no repeat `x`, else `x`, one of its own, and
      every triple before it. */
  predicate Kept(row: seq<Arc>, x: Option<Arc>, arcs: set<Arc>) {
    match x
    case None => ArcsOf(row) <= arcs
    case Some(a) => a in row && a in arcs && ArcsOf(UpTo(row, a)) <= arcs
  }

  /** A line whose pieces all read adds its triples up to the first one that
      repeats, which is then in the set, and the set only grows. */
  lemma {:induction false} AddPiecesKeeps(g: ArcSet, rs: seq<PieceRead>)
    requires forall j :: 0 <= j < |rs| ==> PieceFault(rs[j]).None?
    ensures var r := AddPieces(g, rs);
            && g.arcs <= r.graph.arcs
            && (r.fault.Some? ==> r.fault.value.Repeated?)
            && Kept(PieceArcs(rs), if r.fault.Some? then Some(r.fault.value.arc) else None, r.graph.arcs)
    decreases |rs|
  {
    if rs != [] {
      var row := PieceArcs(rs);
      var a := row[0];
      assert PieceFault(rs[0]).None? && a == PieceArc(rs[0]);
      if a in g.arcs {
        assert UpTo(row, a) == [];
      } else {
        var g' := ArcSet(g.vertices + {a.src, a.dst}, g.arcs + {a});
        assert AddPieces(g, rs) == AddPieces(g', rs[1..]);
        assert row[1..] == PieceArcs(rs[1..]);
        AddPiecesKeeps(g', rs[1..]);
        var r := AddPieces(g', rs[1..]);
        assert row == [a] + row[1..];
        if r.fault.Some? {
          var x := r.fault.value.arc;
          if x != a {
            assert UpTo(row, x) == [a] + UpTo(row[1..], x);
          }
        }
      }
    }
  }

  /** Reading on from line `i` only adds triples. */
  lemma {:induction false} ParseFromGrows(ls: seq<LineRead>, i: nat, g: ArcSet)
    requires i <= |ls|
    ensures g.arcs <= ParseFrom(ls, i, g).graph.arcs
    decreases |ls| - i, 1
  {
    if i < |ls| {
      if ls[i].Blank? {
        BlankStep(ls, i, g);
        ParseFromGrows(ls, i + 1, g);
      } else {
        GrowStep(ls, i, g);
      }
    }
  }

  /** A line that is not blank, then the lines after it. */
  lemma {:induction false} GrowStep(ls: seq<LineRead>, i: nat, g: ArcSet)
    requires i < |ls| && ls[i].Filled?
    ensures g.arcs <= ParseFrom(ls, i, g).graph.arcs
    decreases |ls| - i, 0
  {
    var s := AddPieces(g, ls[i].pieces);
    assert g.arcs <= s.graph.arcs by {
      AddPiecesRaise(g, ls[i].pieces);
    }
    var h := ParseFrom(ls, i + 1, s.graph);
    assert s.graph.arcs <= h.graph.arcs by {
      ParseFromGrows(ls, i + 1, s.graph);
    }
    if s.fault.None? {
      ReadStep(ls, i, g);
    } else if s.fault.value.Repeated? {
      RepeatStep(ls, i, g);
    } else {
      StopStep(ls, i, g);
    }
  }

  /** No error names line `n` when every error names a later one. */
  lemma {:induction false} RepeatAtLater(es: seq<LineError>, n: nat)
    requires forall j :: 0 <= j < |es| ==> es[j].line > n
    ensures RepeatAt(es, n) == None
    decreases |es|
  {
    if es != [] {
      assert forall j :: 0 <= j < |es| - 1 ==> es[1..][j] == es[j + 1];
      RepeatAtLater(es[1..], n);
    }
  }

  /** Line `k` itself, read from the set `g`, leaves its triples in the
      final set. */
  lemma KeptHere(ls: seq<LineRead>, k: nat, g: ArcSet)
    requires k < |ls| && ReadFault(ls[k]).None?
    ensures var r := ParseFrom(ls, k, g);
            Kept(RowArcs(ls[k]), RepeatAt(r.errors, k + 1), r.graph.arcs)
  {
    var r := ParseFrom(ls, k, g);
    if ls[k].Blank? {
      assert RepeatAt(r.errors, k + 1) == None by {
        ParseFromLogged(ls, k + 1, g);
        RepeatAtLater(r.errors, k + 1);
      }
    } else {
      var rs := ls[k].pieces;
      assert forall j :: 0 <= j < |rs| ==> PieceFault(rs[j]).None? by {
        PiecesFaultNone(rs);
      }
      var s := AddPieces(g, rs);
      AddPiecesKeeps(g, rs);
      var h := ParseFrom(ls, k + 1, s.graph);
      assert s.graph.arcs <= h.graph.arcs by {
        ParseFromGrows(ls, k + 1, s.graph);
      }
      assert RepeatAt(h.errors, k + 1) == None by {
        ParseFromLogged(ls, k + 1, s.graph);
        RepeatAtLater(h.errors, k + 1);
      }
      if s.fault.None? {
        ReadStep(ls, k, g);
      } else {
        RepeatStep(ls, k, g);
      }
    }
  }

  /** The outcome `r` of reading leaves the triples `row` of line `k` in
      its set unless an exception was recorded before that line. */
  predicate KeptIn(row: seq<Arc>, k: nat, r: Outcome) {
    Reached(r.errors, k) ==> Kept(row, RepeatAt(r.errors, k + 1), r.graph.arcs)
  }

  /** `row` is what line `k` holds, and that line raises nothing. */
  predicate RowOf(ls: seq<LineRead>, k: nat, row: seq<Arc>)
    requires k < |ls|
  {
    ReadFault(ls[k]).None? && row == RowArcs(ls[k])
  }

  /** Reading from line `i` on, to the outcome `r`, line `k` leaves its
      triples in the final set unless an exception was recorded before it. */
  lemma {:induction false} KeptFrom(ls: seq<LineRead>, i: nat, g: ArcSet, k: nat, row: seq<Arc>, r: Outcome)
    requires i <= k < |ls| && RowOf(ls, k, row) && r == ParseFrom(ls, i, g)
    ensures KeptIn(row, k, r)
    decreases k - i, 1
  {
    if i == k {
      KeptHere(ls, k, g);
    } else if ls[i].Blank? {
      KeptBlank(ls, i, g, k, row, r);
    } else if AddPieces(g, ls[i].pieces).fault.None? {
      var s := AddPieces(g, ls[i].pieces);
      var h := ParseFrom(ls, i + 1, s.graph);
      assert r == h by {
        ReadStep(ls, i, g);
      }
      KeptFrom(ls, i + 1, s.graph, k, row, h);
    } else if AddPieces(g, ls[i].pieces).fault.value.Repeated? {
      KeptRepeat(ls, i, g, k, row, r);
    } else {
      StopStep(ls, i, g);
      assert !Reached(r.errors, k) by {
        assert r.errors[0].line == i + 1;
      }
    }
  }

  /** A blank line before line `k`, then the lines after it. */
  lemma {:induction false} KeptBlank(ls: seq<LineRead>, i: nat, g: ArcSet, k: nat, row: seq<Arc>, r: Outcome)
    requires i < k < |ls| && RowOf(ls, k, row) && ls[i].Blank?
    requires r == ParseFrom(ls, i, g)
    ensures KeptIn(row, k, r)
    decreases k - i, 0
  {
    BlankStep(ls, i, g);
    KeptFrom(ls, i + 1, g, k, row, r);
  }

  /** A line before line `k` with a repeated triple, then the lines after it. */
  lemma {:induction false} KeptRepeat(ls: seq<LineRead>, i: nat, g: ArcSet, k: nat, row: seq<Arc>, r: Outcome)
    requires i < k < |ls| && RowOf(ls, k, row) && ls[i].Filled?
    requires var f := AddPieces(g, ls[i].pieces).fault; f.Some? && f.value.Repeated?
    requires r == ParseFrom(ls, i, g)
    ensures KeptIn(row, k, r)
    decreases k - i, 0
  {
    var s := AddPieces(g, ls[i].pieces);
    var h := ParseFrom(ls, i + 1, s.graph);
    var e := LineError(i + 1, s.fault.value);
    assert r.graph == h.graph && r.errors == [e] + h.errors by {
      RepeatStep(ls, i, g);
    }
    assert RepeatAt(r.errors, k + 1) == RepeatAt(h.errors, k + 1) by {
      RepeatAtCons(e, h.errors, k + 1);
    }
    assert Reached(r.errors, k) ==> Reached(h.errors, k) by {
      ReachedTail(e, h.errors, k);
    }
    KeptFrom(ls, i + 1, s.graph, k, row, h);
  }

  /** An error for another line does not change the repeat recorded for `n`. */
  lemma RepeatAtCons(e: LineError, es: seq<LineError>, n: nat)
    requires e.line != n
    ensures RepeatAt([e] + es, n) == RepeatAt(es, n)
  {
    assert ([e] + es)[1..] == es;
  }

  /** No exception before line `k` in a log means none in its tail either. */
  lemma ReachedTail(e: LineError, es: seq<LineError>, k: nat)
    ensures Reached([e] + es, k) ==> Reached(es, k)
  {
    if Reached([e] + es, k) {
      forall j | 0 <= j < |es| ensures es[j].fault.Repeated? || es[j].line > k {
        assert es[j] == ([e] + es)[j + 1];
      }
    }
  }

  /** A line read after any number of repeated triples is still read: when
      no exception is recorded before it, all its triples are in the final
      set, or, when it records a repeated triple, that triple is one of its
      own and it and every triple before it on the line are in the set. */
  lemma LineKept(lines: seq<string>, k: nat)
    requires k < |lines| && LineFault(lines[k]).None?
    ensures var r := ParseArcs(lines);
            Reached(r.errors, k) ==> Kept(LineArcs(lines[k]), RepeatAt(r.errors, k + 1), r.graph.arcs)
  {
    var ls := ReadLines(lines);
    ReadLinesAt(lines, k);
    var row := LineArcs(lines[k]);
    KeptFrom(ls, 0, ArcSet({}, {}), k, row, ParseFrom(ls, 0, ArcSet({}, {})));
  }

  // ---------------------------------------------------------------------------
  // The whole file against a line-by-line reference

  /** What a line that is not blank records, from the triples `seen`
      already in the set: nothing when every piece reads as a triple new to
      the set and to the line; otherwise the first piece that does not,
      with the exception it raises, or with its triple as a repeat. */
  function LineVerdict(seen: set<Arc>, rs: seq<PieceRead>): Option<Fault> {
    var k := FreshRun(seen, rs);
    if k == |rs| then None
    else if PieceFault(rs[k]).Some? then PieceFault(rs[k])
    else Some(Repeated(PieceArc(rs[k])))
  }

  /** The triples a line that is not blank adds to `seen`: those of the
      pieces before the one that ends it. */
  function LineGain(seen: set<Arc>, rs: seq<PieceRead>): set<Arc> {
    ArcsOf(PieceArcs(rs[..FreshRun(seen, rs)]))
  }

  /** The triples in the set when line `i` (0-based) is reached: every line
      before it adds its gain. */
  function SeenBefore(ls: seq<LineRead>, i: nat): set<Arc>
    requires i <= |ls|
    decreases i
  {
    if i == 0 then {}
    else
      var seen := SeenBefore(ls, i - 1);
      if ls[i - 1].Blank? then seen else seen + LineGain(seen, ls[i - 1].pieces)
  }

  /** What line `i` records once it is reached. */
  function Verdict(ls: seq<LineRead>, i: nat): Option<Fault>
    requires i < |ls|
  {
    if ls[i].Blank? then None else LineVerdict(SeenBefore(ls, i), ls[i].pieces)
  }

  /** The errors recorded from line `i` on: the verdict of every line that
      has one, in order, up to and including the first exception. */
  function ErrorsFrom(ls: seq<LineRead>, i: nat): seq<LineError>
    requires i <= |ls|
    decreases |ls| - i
  {
    if i == |ls| then []
    else
      match Verdict(ls, i)
      case None => ErrorsFrom(ls, i + 1)
      case Some(f) =>
        if f.Repeated? then [LineError(i + 1, f)] + ErrorsFrom(ls, i + 1)
        else [LineError(i + 1, f)]
  }

  /** The triples in the set at the end, reading from line `i` on: those
      there after the first line that raises, or after the last line. */
  function SeenAtEnd(ls: seq<LineRead>, i: nat): set<Arc>
    requires i <= |ls|
    decreases |ls| - i
  {
    if i == |ls| then SeenBefore(ls, |ls|)
    else if Verdict(ls, i).Some? && !Verdict(ls, i).value.Repeated? then SeenBefore(ls, i + 1)
    else SeenAtEnd(ls, i + 1)
  }

  /** Two lines holding the same one triple, whatever its names and ordinal
      text: the repeat is recorded for the second line, and the set holds
      that triple alone. */
  lemma SameTripleTwice(a: string, b: string, t: string, n: int)
    ensures var x := Arc(a, b, n);
            var l := Filled([Fields(a, b, t, Some(n))]);
            && ErrorsFrom([l, l], 0) == [LineError(2, Repeated(x))]
            && SeenAtEnd([l, l], 0) == {x}
  {
    var x := Arc(a, b, n);
    var rs := [Fields(a, b, t, Some(n))];
    var l := Filled(rs);
    assert FreshRun({}, rs) == 1 && FreshRun({x}, rs) == 0;
    assert rs[..1] == rs && PieceArcs(rs) == [x] && ArcsOf([x]) == {x};
    var ls := [l, l];
    assert SeenBefore(ls, 1) == {x} && SeenBefore(ls, 2) == {x};
    assert Verdict(ls, 0) == None && Verdict(ls, 1) == Some(Repeated(x));
    assert ErrorsFrom(ls, 1) == [LineError(2, Repeated(x))] + ErrorsFrom(ls, 2);
    assert ErrorsFrom(ls, 0) == ErrorsFrom(ls, 1);
    assert SeenAtEnd(ls, 0) == SeenAtEnd(ls, 1) == SeenAtEnd(ls, 2);
  }

  /** One line's step is its verdict and its gain. */
  lemma LineStepVerdict(g: ArcSet, rs: seq<PieceRead>)
    ensures var s := AddPieces(g, rs);
            s.graph.arcs == g.arcs + LineGain(g.arcs, rs) && s.fault == LineVerdict(g.arcs, rs)
  {
    AddPiecesFault(g, rs);
  }

  /** A repeat a line records is the triple of the first piece that reads
      as one already in the set or earlier on the line; every triple before
      it on the line is new. */
  lemma RepeatNamed(ls: seq<LineRead>, i: nat)
    requires i < |ls| && Verdict(ls, i).Some? && Verdict(ls, i).value.Repeated?
    ensures var seen := SeenBefore(ls, i);
            var rs := ls[i].pieces;
            var k := FreshRun(seen, rs);
            && k < |rs| && PieceFault(rs[k]).None?
            && Verdict(ls, i) == Some(Repeated(PieceArc(rs[k])))
            && PieceArc(rs[k]) in seen + ArcsOf(PieceArcs(rs[..k]))
            && Fresh(seen, PieceArcs(rs[..k]))
  {
    var seen := SeenBefore(ls, i);
    AddPiecesFault(ArcSet({}, seen), ls[i].pieces);
  }

  /** Reading from line `i` on, from the set the reference has there,
      records the reference's errors and ends with its set. */
  lemma {:induction false} ParseFromVerdicts(ls: seq<LineRead>, i: nat, g: ArcSet)
    requires i <= |ls| && g.arcs == SeenBefore(ls, i)
    ensures var r := ParseFrom(ls, i, g);
            r.errors == ErrorsFrom(ls, i) && r.graph.arcs == SeenAtEnd(ls, i)
    decreases |ls| - i, 1
  {
    if i < |ls| {
      if ls[i].Blank? {
        BlankStep(ls, i, g);
        assert SeenBefore(ls, i + 1) == SeenBefore(ls, i);
        ParseFromVerdicts(ls, i + 1, g);
      } else {
        VerdictStep(ls, i, g);
      }
    }
  }

  /** A line that is not blank, then the lines after it. */
  lemma {:induction false} VerdictStep(ls: seq<LineRead>, i: nat, g: ArcSet)
    requires i < |ls| && ls[i].Filled? && g.arcs == SeenBefore(ls, i)
    ensures var r := ParseFrom(ls, i, g);
            r.errors == ErrorsFrom(ls, i) && r.graph.arcs == SeenAtEnd(ls, i)
    decreases |ls| - i, 0
  {
    var rs := ls[i].pieces;
    var s := AddPieces(g, rs);
    assert s.graph.arcs == SeenBefore(ls, i + 1) && s.fault == Verdict(ls, i) by {
      LineStepVerdict(g, rs);
    }
    if s.fault.None? {
      ReadStep(ls, i, g);
      ParseFromVerdicts(ls, i + 1, s.graph);
    } else if s.fault.value.Repeated? {
      RepeatStep(ls, i, g);
      ParseFromVerdicts(ls, i + 1, s.graph);
    } else {
      StopStep(ls, i, g);
    }
  }
}

=== FILE: arcparse2.dfy ===
/** `parse_input_file` of nntask2.py. Each line is stripped and a blank line is
    skipped. The rest is read piece by piece (see `SplitRead`). A piece with
    three fields adds both names to the vertices at once, before its ordinal is
    read; a piece whose ordinal reads also appends its arc. The first piece that
    raises ends parsing with its line number, so the names of a piece whose
    ordinal does not read stay among the vertices with no arc to them. */
module ArcParse2 {
  import opened Wrappers
  import opened Text
  import opened Graphs
  import opened ArcText
  import opened SplitRead

  /** The loop over one line's pieces, each already read. */
  function AddPieces(g: Graph, rs: seq<PieceRead>): (r: Step)
    ensures r.fault == PiecesFault(rs)
    decreases |rs|
  {
    if rs == [] then Step(g, None)
    else
      match rs[0]
      case Miscount(c) => Step(g, Some(FieldCount(c)))
      case Fields(a, b, t, o) =>
        var vs := g.vertices + {a, b};
        if o.None? then Step(Graph(vs, g.arcs), Some(BadOrdinal(t)))
        else AddPieces(Graph(vs, g.arcs + [Arc(a, b, o.value)]), rs[1..])
  }

  /** `h` is `g` with arcs appended, their endpoints added, and the names in
      `extra`. */
  predicate GrowsWith(g: Graph, h: Graph, extra: set<string>) {
    && |g.arcs| <= |h.arcs| && h.arcs[..|g.arcs|] == g.arcs
    && h.vertices == g.vertices + Endpoints(h.arcs[|g.arcs|..]) + extra
  }

  /** Reading a line appends arcs and adds their endpoints, and also the names
      of a piece whose ordinal does not read. */
  lemma {:induction false} AddPiecesGrows(g: Graph, rs: seq<PieceRead>)
    ensures GrowsWith(g, AddPieces(g, rs).graph, Stray(rs))
    decreases |rs|
  {
    var r := AddPieces(g, rs);
    if rs == [] || rs[0].Miscount? {
      assert r.graph == g;
      assert g.arcs[|g.arcs|..] == [];
    } else if rs[0].ord.None? {
      assert r.graph == Graph(g.vertices + {rs[0].src, rs[0].dst}, g.arcs);
      assert g.arcs[|g.arcs|..] == [];
    } else {
      var a := Arc(rs[0].src, rs[0].dst, rs[0].ord.value);
      var g' := Graph(g.vertices + {a.src, a.dst}, g.arcs + [a]);
      assert r == AddPieces(g', rs[1..]);
      AddPiecesGrows(g', rs[1..]);
      assert GrowsWith(g, r.graph, Stray(rs)) by {
        GrowsByOne(g, a);
        GrowsWithStep(g, g', r.graph, Stray(rs));
      }
    }
  }

  /** Growing, then growing with extra names, is growing with those names. */
  lemma GrowsWithStep(g: Graph, h: Graph, k: Graph, extra: set<string>)
    requires Grows(g, h) && GrowsWith(h, k, extra)
    ensures GrowsWith(g, k, extra)
  {
    assert k.arcs[..|g.arcs|] == k.arcs[..|h.arcs|][..|g.arcs|];
    assert k.arcs[|g.arcs|..] == h.arcs[|g.arcs|..] + k.arcs[|h.arcs|..];
    EndpointsConcat(h.arcs[|g.arcs|..], k.arcs[|h.arcs|..]);
  }

  /** Reading pieces that all read, whatever their text, appends their arcs
      in order and adds their endpoints, and raises nothing. */
  lemma {:induction false} AddPiecesAll(g: Graph, rs: seq<PieceRead>)
    requires forall j :: 0 <= j < |rs| ==> PieceFault(rs[j]).None?
    ensures var r := AddPieces(g, rs);
            && r.fault.None? && r.graph.arcs == g.arcs + PieceArcs(rs)
            && r.graph.vertices == g.vertices + Endpoints(PieceArcs(rs))
    decreases |rs|
  {
    if rs == [] {
      assert g.arcs + PieceArcs(rs) == g.arcs;
    } else {
      var a := PieceArc(rs[0]);
      var g' := Graph(g.vertices + {a.src, a.dst}, g.arcs + [a]);
      assert AddPieces(g, rs) == AddPieces(g', rs[1..]);
      assert forall j :: 0 <= j < |rs| - 1 ==> rs[1..][j] == rs[j + 1];
      AddPiecesAll(g', rs[1..]);
      var row := PieceArcs(rs);
      assert Endpoints([a]) == {a.src, a.dst};
      assert row == [a] + PieceArcs(rs[1..]);
      AppendTwice(g, g', AddPieces(g', rs[1..]).graph, [a], PieceArcs(rs[1..]));
    }
  }

  /** The fault that stops reading at this line, if any; none for a blank line. */
  function LineFault(line: string): Option<Fault> {
    if Trim(line) == [] then None else PiecesFault(LineReads(line))
  }

  /** Each line's fault, in order. */
  function LineFaults(lines: seq<string>): (r: seq<Option<Fault>>)
    ensures |r| == |lines|
  {
    MapSeq(LineFault, lines)
  }

  /** Entry `k` of the faults is line `k`'s. */
  lemma LineFaultsAt(lines: seq<string>, k: nat)
    requires k < |lines|
    ensures LineFaults(lines)[k] == LineFault(lines[k])
  {
    MapSeqAt(LineFault, lines, k);
  }

  /** The loop over the lines from line `i` (0-based) on: a blank line is
      skipped, and the first line with a fault ends reading with its error. */
  function ParseFrom(lines: seq<string>, i: nat, g: Graph): (r: Parsed)
    requires i <= |lines|
    decreases |lines| - i
  {
    if i == |lines| then Parsed(g, None)
    else if Trim(lines[i]) == [] then ParseFrom(lines, i + 1, g)
    else
      var s := AddPieces(g, LineReads(lines[i]));
      if s.fault.Some? then Parsed(s.graph, Some(LineError(i + 1, s.fault.value)))
      else ParseFrom(lines, i + 1, s.graph)
  }

  /** The error reading stops with is that of the first line, from line `i`
      on, that has a fault. */
  lemma {:induction false} ParseFromError(lines: seq<string>, i: nat, g: Graph)
    requires i <= |lines|
    ensures ParseFrom(lines, i, g).error == FirstError(LineFaults(lines), i)
    decreases |lines| - i, 1
  {
    if i == |lines| {
    } else if Trim(lines[i]) == [] {
      BlankError(lines, i, g);
    } else if AddPieces(g, LineReads(lines[i])).fault.None? {
      LineReadError(lines, i, g);
    } else {
      LineStopError(lines, i, g);
    }
  }

  /** A blank line is skipped and has no fault. */
  lemma {:induction false} BlankError(lines: seq<string>, i: nat, g: Graph)
    requires i < |lines| && Trim(lines[i]) == []
    ensures ParseFrom(lines, i, g).error == FirstError(LineFaults(lines), i)
    decreases |lines| - i, 0
  {
    var faults := LineFaults(lines);
    assert FirstError(faults, i) == FirstError(faults, i + 1) by {
      LineFaultAt(lines, i, g);
      FirstErrorStep(faults, i);
    }
    ParseFromError(lines, i + 1, g);
  }

  /** A line that reads has no fault and hands on its graph. */
  lemma {:induction false} LineReadError(lines: seq<string>, i: nat, g: Graph)
    requires i < |lines| && Trim(lines[i]) != []
    requires AddPieces(g, LineReads(lines[i])).fault.None?
    ensures ParseFrom(lines, i, g).error == FirstError(LineFaults(lines), i)
    decreases |lines| - i, 0
  {
    var faults := LineFaults(lines);
    var s := AddPieces(g, LineReads(lines[i]));
    assert FirstError(faults, i) == FirstError(faults, i + 1) by {
      LineFaultAt(lines, i, g);
      FirstErrorStep(faults, i);
    }
    assert ParseFrom(lines, i, g).error == ParseFrom(lines, i + 1, s.graph).error by {
      ParseFromNext(lines, i, g);
    }
    ParseFromError(lines, i + 1, s.graph);
  }

  /** A line that stops reading is the first with a fault. */
  lemma LineStopError(lines: seq<string>, i: nat, g: Graph)
    requires i < |lines| && Trim(lines[i]) != []
    requires AddPieces(g, LineReads(lines[i])).fault.Some?
    ensures ParseFrom(lines, i, g).error == FirstError(LineFaults(lines), i)
  {
    var faults := LineFaults(lines);
    var s := AddPieces(g, LineReads(lines[i]));
    assert FirstError(faults, i) == Some(LineError(i + 1, s.fault.value)) by {
      LineFaultAt(lines, i, g);
      FirstErrorStep(faults, i);
    }
  }

  /** A line's fault is none when it is blank, and that of its pieces
      otherwise. */
  lemma LineFaultAt(lines: seq<string>, i: nat, g: Graph)
    requires i < |lines|
    ensures Trim(lines[i]) == [] ==> LineFaults(lines)[i].None?
    ensures Trim(lines[i]) != [] ==> LineFaults(lines)[i] == AddPieces(g, LineReads(lines[i])).fault
  {
    LineFaultsAt(lines, i);
  }

  /** The names the line that stops reading leaves behind. */
  function LineStray(line: string): set<string> {
    if Trim(line) == [] then {} else Stray(LineReads(line))
  }

  /** The names left behind when reading stopped, if it did. */
  function ErrorStray(lines: seq<string>, e: Option<LineError>): set<string> {
    if e.Some? && 1 <= e.value.line <= |lines| then LineStray(lines[e.value.line - 1]) else {}
  }

  /** Reading lines appends arcs and adds their endpoints, and the names left
      behind by the line that stops reading. */
  lemma {:induction false} ParseFromGrows(lines: seq<string>, i: nat, g: Graph)
    requires i <= |lines|
    ensures var r := ParseFrom(lines, i, g);
            GrowsWith(g, r.graph, ErrorStray(lines, r.error))
    decreases |lines| - i, 1
  {
    if i == |lines| {
      assert g.arcs[|g.arcs|..] == [];
    } else if Trim(lines[i]) == [] {
      ParseFromGrows(lines, i + 1, g);
    } else if AddPieces(g, LineReads(lines[i])).fault.None? {
      LineReadGrows(lines, i, g);
    } else {
      LineStopGrows(lines, i, g);
    }
  }

  /** A line that reads, then the lines after it. */
  lemma {:induction false} LineReadGrows(lines: seq<string>, i: nat, g: Graph)
    requires i < |lines| && Trim(lines[i]) != []
    requires AddPieces(g, LineReads(lines[i])).fault.None?
    ensures var r := ParseFrom(lines, i, g);
            GrowsWith(g, r.graph, ErrorStray(lines, r.error))
    decreases |lines| - i, 0
  {
    var rs := LineReads(lines[i]);
    var s := AddPieces(g, rs);
    var h := ParseFrom(lines, i + 1, s.graph);
    assert Grows(g, s.graph) by {
      AddPiecesGrows(g, rs);
      StrayClean(rs);
      GrowsWithNothing(g, s.graph);
    }
    var r := ParseFrom(lines, i, g);
    assert r.graph == h.graph && r.error == h.error by {
      ParseFromNext(lines, i, g);
    }
    var extra := ErrorStray(lines, h.error);
    assert GrowsWith(s.graph, h.graph, extra) by {
      ParseFromGrows(lines, i + 1, s.graph);
    }
    GrowsWithStep(g, s.graph, h.graph, extra);
  }

  /** The line that stops reading leaves its stray names behind. */
  lemma LineStopGrows(lines: seq<string>, i: nat, g: Graph)
    requires i < |lines| && Trim(lines[i]) != []
    requires AddPieces(g, LineReads(lines[i])).fault.Some?
    ensures var r := ParseFrom(lines, i, g);
            GrowsWith(g, r.graph, ErrorStray(lines, r.error))
  {
    var rs := LineReads(lines[i]);
    var s := AddPieces(g, rs);
    var r := ParseFrom(lines, i, g);
    assert r.graph == s.graph && r.error.Some? && r.error.value.line == i + 1;
    assert ErrorStray(lines, r.error) == LineStray(lines[i]) by {
      ErrorStrayAt(lines, i, r.error);
    }
    assert LineStray(lines[i]) == Stray(rs);
    assert GrowsWith(g, s.graph, Stray(rs)) by {
      AddPiecesGrows(g, rs);
    }
  }

  /** An error at line `i + 1` leaves that line's stray names. */
  lemma ErrorStrayAt(lines: seq<string>, i: nat, e: Option<LineError>)
    requires i < |lines| && e.Some? && e.value.line == i + 1
    ensures ErrorStray(lines, e) == LineStray(lines[i])
  {
  }

  /** Growing with no extra names is growing. */
  lemma GrowsWithNothing(g: Graph, h: Graph)
    requires GrowsWith(g, h, {})
    ensures Grows(g, h)
  {
  }

  /** A line that reads leaves no names behind. */
  lemma {:induction false} StrayClean(rs: seq<PieceRead>)
    requires PiecesFault(rs).None?
    ensures Stray(rs) == {}
  {
    if rs != [] {
      StrayClean(rs[1..]);
    }
  }

  /** A line that reads hands the grown graph on to the next line. */
  lemma ParseFromNext(lines: seq<string>, i: nat, g: Graph)
    requires i < |lines| && Trim(lines[i]) != []
    requires AddPieces(g, LineReads(lines[i])).fault.None?
    ensures ParseFrom(lines, i, g) == ParseFrom(lines, i + 1, AddPieces(g, LineReads(lines[i])).graph)
  {
  }

  /** The arcs of the pieces before the first that raises, in order. */
  function GoodPieces(rs: seq<PieceRead>): (r: seq<Arc>)
    ensures |r| <= |rs|
    ensures forall j :: 0 <= j < |r| ==> PieceFault(rs[j]).None? && r[j] == PieceArc(rs[j])
    ensures |r| < |rs| ==> PieceFault(rs[|r|]).Some?
    decreases |rs|
  {
    if rs == [] || PieceFault(rs[0]).Some? then []
    else
      var r := [PieceArc(rs[0])] + GoodPieces(rs[1..]);
      assert forall j :: 1 <= j < |rs| ==> rs[j] == rs[1..][j - 1];
      r
  }

  /** Reading a line appends the arcs of its pieces before the first that
      raises. */
  lemma {:induction false} AddPiecesGood(g: Graph, rs: seq<PieceRead>)
    ensures AddPieces(g, rs).graph.arcs == g.arcs + GoodPieces(rs)
    decreases |rs|
  {
    if rs == [] || PieceFault(rs[0]).Some? {
      assert g.arcs + [] == g.arcs;
    } else {
      var a := PieceArc(rs[0]);
      var g' := Graph(g.vertices + {a.src, a.dst}, g.arcs + [a]);
      assert AddPieces(g, rs) == AddPieces(g', rs[1..]);
      AddPiecesGood(g', rs[1..]);
      AppendThree(g.arcs, [a], GoodPieces(rs[1..]));
    }
  }

  /** The arcs a line adds: none when it is blank, else those of its pieces
      before the first that raises. */
  function LineArcs(line: string): seq<Arc> {
    if Trim(line) == [] then [] else GoodPieces(LineReads(line))
  }

  /** The arcs read from line `i` on: each line's arcs in order, ending with
      the line that has a fault. */
  function ArcsRead(lines: seq<string>, i: nat): seq<Arc>
    requires i <= |lines|
    decreases |lines| - i
  {
    if i == |lines| then []
    else if LineFault(lines[i]).Some? then LineArcs(lines[i])
    else LineArcs(lines[i]) + ArcsRead(lines, i + 1)
  }

  /** Reading from line `i` on appends exactly the arcs of `ArcsRead`. */
  lemma {:induction false} ParseFromArcs(lines: seq<string>, i: nat, g: Graph)
    requires i <= |lines|
    ensures ParseFrom(lines, i, g).graph.arcs == g.arcs + ArcsRead(lines, i)
    decreases |lines| - i, 2
  {
    if i == |lines| {
      assert g.arcs + [] == g.arcs;
    } else if Trim(lines[i]) == [] {
      BlankArcs(lines, i, g);
    } else if AddPieces(g, LineReads(lines[i])).fault.None? {
      ReadArcsStep(lines, i, g);
    } else {
      StopArcsStep(lines, i, g);
    }
  }

  /** A blank line contributes nothing. */
  lemma {:induction false} BlankArcs(lines: seq<string>, i: nat, g: Graph)
    requires i < |lines| && Trim(lines[i]) == []
    ensures ParseFrom(lines, i, g).graph.arcs == g.arcs + ArcsRead(lines, i)
    decreases |lines| - i, 1
  {
    assert ArcsRead(lines, i) == ArcsRead(lines, i + 1);
    ParseFromArcs(lines, i + 1, g);
  }

  /** A line that reads, then the lines after it. */
  lemma {:induction false} ReadArcsStep(lines: seq<string>, i: nat, g: Graph)
    requires i < |lines| && Trim(lines[i]) != []
    requires AddPieces(g, LineReads(lines[i])).fault.None?
    ensures ParseFrom(lines, i, g).graph.arcs == g.arcs + ArcsRead(lines, i)
    decreases |lines| - i, 1
  {
    var s := AddPieces(g, LineReads(lines[i]));
    var h := ParseFrom(lines, i + 1, s.graph);
    assert s.graph.arcs == g.arcs + LineArcs(lines[i]) by {
      AddPiecesGood(g, LineReads(lines[i]));
    }
    assert ParseFrom(lines, i, g).graph == h.graph by {
      ParseFromNext(lines, i, g);
    }
    assert h.graph.arcs == s.graph.arcs + ArcsRead(lines, i + 1) by {
      ParseFromArcs(lines, i + 1, s.graph);
    }
    assert ArcsRead(lines, i) == LineArcs(lines[i]) + ArcsRead(lines, i + 1) by {
      ArcsReadNext(lines, i);
    }
    AppendThree(g.arcs, LineArcs(lines[i]), ArcsRead(lines, i + 1));
  }

  /** A line without a fault is followed by the arcs of the lines after it. */
  lemma ArcsReadNext(lines: seq<string>, i: nat)
    requires i < |lines| && LineFault(lines[i]).None?
    ensures ArcsRead(lines, i) == LineArcs(lines[i]) + ArcsRead(lines, i + 1)
  {
  }

  /** A line with a fault ends reading with the arcs before its bad piece. */
  lemma StopArcsStep(lines: seq<string>, i: nat, g: Graph)
    requires i < |lines| && Trim(lines[i]) != []
    requires AddPieces(g, LineReads(lines[i])).fault.Some?
    ensures ParseFrom(lines, i, g).graph.arcs == g.arcs + ArcsRead(lines, i)
  {
    var s := AddPieces(g, LineReads(lines[i]));
    assert s.graph.arcs == g.arcs + LineArcs(lines[i]) by {
      AddPiecesGood(g, LineReads(lines[i]));
    }
    assert ArcsRead(lines, i) == LineArcs(lines[i]) by {
      assert LineFault(lines[i]) == s.fault;
    }
  }

  /** Reading from the empty graph builds exactly the arcs of `ArcsRead`. */
  lemma ParseArcsRead(lines: seq<string>)
    ensures ParseFrom(lines, 0, Graph({}, [])).graph.arcs == ArcsRead(lines, 0)
  {
    ParseFromArcs(lines, 0, Graph({}, []));
    assert [] + ArcsRead(lines, 0) == ArcsRead(lines, 0);
  }

  /** `parse_input_file(input_file)` on the file's lines. Every arc's
      endpoints are vertices. The vertices are the arcs' endpoints and, when
      a line stops reading at a piece whose ordinal does not read, that
      piece's two names. There is no error exactly when every line reads;
      an error names the first line that does not. */
  function ParseArcs(lines: seq<string>): (r: Parsed)
    ensures WellFormed(r.graph)
    ensures r.graph.arcs == ArcsRead(lines, 0)
    ensures r.graph.vertices == Endpoints(r.graph.arcs) + ErrorStray(lines, r.error)
    ensures var faults := LineFaults(lines);
            && (r.error.None? <==> forall k :: 0 <= k < |lines| ==> faults[k].None?)
            && (r.error.Some? ==>
                  var k := r.error.value.line - 1;
                  && 0 <= k < |lines| && faults[k] == Some(r.error.value.fault)
                  && forall j :: 0 <= j < k ==> faults[j].None?)
  {
    ParseError(lines);
    ParseGraph(lines);
    ParseArcsRead(lines);
    ParseFrom(lines, 0, Graph({}, []))
  }

  /** The error reading from the empty graph stops with names the first line
      with a fault, and there is none when no line has one. */
  lemma ParseError(lines: seq<string>)
    ensures var r := ParseFrom(lines, 0, Graph({}, []));
            var faults := LineFaults(lines);
            && (r.error.None? <==> forall k :: 0 <= k < |lines| ==> faults[k].None?)
            && (r.error.Some? ==>
                  var k := r.error.value.line - 1;
                  && 0 <= k < |lines| && faults[k] == Some(r.error.value.fault)
                  && forall j :: 0 <= j < k ==> faults[j].None?)
  {
    ParseFromError(lines, 0, Graph({}, []));
    FirstErrorIsFirst(LineFaults(lines), 0);
  }

  /** What reading from the empty graph builds is well formed, with the
      arcs' endpoints and the stray names as its vertices. */
  lemma ParseGraph(lines: seq<string>)
    ensures var r := ParseFrom(lines, 0, Graph({}, []));
            WellFormed(r.graph) && r.graph.vertices == Endpoints(r.graph.arcs) + ErrorStray(lines, r.error)
  {
    var r := ParseFrom(lines, 0, Graph({}, []));
    ParseFromGrows(lines, 0, Graph({}, []));
    GrowsWithWellFormed(r.graph, ErrorStray(lines, r.error));
  }

  /** What grows from the empty graph is well formed, and its vertices are
      its arcs' endpoints and the extra names. */
  lemma GrowsWithWellFormed(h: Graph, extra: set<string>)
    requires GrowsWith(Graph({}, []), h, extra)
    ensures WellFormed(h) && h.vertices == Endpoints(h.arcs) + extra
  {
    assert h.arcs[0..] == h.arcs;
    EndpointsMembers(h.arcs);
    forall a | a in h.arcs ensures a.src in h.vertices && a.dst in h.vertices {
      var k :| 0 <= k < |h.arcs| && h.arcs[k] == a;
    }
  }

  /** Reading written lines, one row of arcs per line, gives back every arc
      in order and no error. */
  lemma {:induction false} ParseFormattedFrom(rows: seq<seq<Arc>>, i: nat, g: Graph)
    requires Writable(rows) && i <= |rows|
    ensures var r := ParseFrom(FormatLines(rows), i, g);
            && r.error.None? && r.graph.arcs == g.arcs + Flatten(rows[i..])
            && r.graph.vertices == g.vertices + Endpoints(Flatten(rows[i..]))
    decreases |rows| - i, 1
  {
    if i < |rows| {
      FormattedStep(rows, i, g);
    } else {
      assert rows[i..] == [];
    }
  }

  /** One written line, then the lines after it. */
  lemma {:induction false} FormattedStep(rows: seq<seq<Arc>>, i: nat, g: Graph)
    requires Writable(rows) && i < |rows|
    ensures var r := ParseFrom(FormatLines(rows), i, g);
            && r.error.None? && r.graph.arcs == g.arcs + Flatten(rows[i..])
            && r.graph.vertices == g.vertices + Endpoints(Flatten(rows[i..]))
    decreases |rows| - i, 0
  {
    var lines := FormatLines(rows);
    var row := rows[i];
    var rest := Flatten(rows[i + 1..]);
    var s := AddPieces(g, LineReads(lines[i]));
    assert && Trim(lines[i]) != [] && s.fault.None? && s.graph.arcs == g.arcs + row
           && s.graph.vertices == g.vertices + Endpoints(row) by {
      ReadFormattedLine(g, row);
    }
    var r := ParseFrom(lines, i + 1, s.graph);
    assert ParseFrom(lines, i, g).graph == r.graph && ParseFrom(lines, i, g).error == r.error by {
      ParseFromNext(lines, i, g);
    }
    assert && r.error.None? && r.graph.arcs == s.graph.arcs + rest
           && r.graph.vertices == s.graph.vertices + Endpoints(rest) by {
      ParseFormattedFrom(rows, i + 1, s.graph);
    }
    assert Flatten(rows[i..]) == row + rest by {
      FlattenFrom(rows, i);
    }
    AppendTwice(g, s.graph, r.graph, row, rest);
  }

  /** Reading a written line appends its arcs and adds their endpoints. */
  lemma ReadFormattedLine(g: Graph, row: seq<Arc>)
    requires row != [] && PlainArcs(row)
    ensures var line := FormatLine(row);
            var s := AddPieces(g, LineReads(line));
            && Trim(line) != []
            && s.fault.None? && s.graph.arcs == g.arcs + row
            && s.graph.vertices == g.vertices + Endpoints(row)
  {
    var line := FormatLine(row);
    assert Trim(line) != [] by {
      assert line[0] == '(' && line[|line| - 1] == ')';
      BracketedTrim(line);
    }
    var rs := LineReads(line);
    assert |rs| == |row| && forall j :: 0 <= j < |rs| ==> rs[j] == Written(row[j]) by {
      LineReadsFormatted(row);
    }
    WrittenArcs(rs, row);
    AddPiecesAll(g, rs);
  }

  /** Reading the written form of rows of arcs with plain names gives back
      the arcs in order, their endpoints as the vertices, and no error. */
  lemma ParseFormatted(rows: seq<seq<Arc>>)
    requires Writable(rows)
    ensures var r := ParseArcs(FormatLines(rows));
            && r.error.None? && r.graph.arcs == Flatten(rows)
            && r.graph.vertices == Endpoints(Flatten(rows))
  {
    ParseFormattedFrom(rows, 0, Graph({}, []));
    assert rows[0..] == rows;
  }
}

=== FILE: arcparse3.dfy ===
/** `parse_input_file` of nntask3.py. Each line is stripped; a blank line is
    skipped. The rest of the line, with its spaces removed, is searched for
    `(...)` groups, and each group must be `from,to,ordinal` with exactly three
    comma fields and an all-digit ordinal. The first bad group ends parsing
    with its line number; arcs read before it, even on the same line, stay in
    the graph. A line with no group at all adds nothing and is no error. */
module ArcParse3 {
  import opened Wrappers
  import opened Text
  import opened Numerals
  import opened Graphs
  import opened ArcText

  /** `re.findall(r"\((.*?)\)", line.replace(' ', ''))` on the stripped line. */
  function Groups(line: string): (r: seq<string>)
    ensures Trim(line) == [] ==> r == []
    ensures forall g :: g in r ==> ')' !in g && '\n' !in g
  {
    ScanGroups(RemoveAll(Trim(line), ' '))
  }

  /** `re.findall(r"\((.*?)\)", s)` on text made of the groups `gs`, each
      in brackets with a stretch of other text in front: the stretches in
      front hold no opening bracket, and the groups no closing bracket nor
      newline. Whatever follows the last group holds no closing bracket after
      its first opening one. The matches are exactly `gs`, in order. */
  lemma GroupsFramed(line: string, js: seq<string>, gs: seq<string>, pre: string, post: string)
    requires |js| == |gs|
    requires forall k :: 0 <= k < |gs| ==> '(' !in js[k] && ')' !in gs[k] && '\n' !in gs[k]
    requires '(' !in pre && ')' !in post
    requires RemoveAll(Trim(line), ' ') == Frame(js, gs, pre + post)
    ensures Groups(line) == gs
  {
    ScanFrame(js, gs, pre + post);
    ScanTail(pre, post);
  }

  /** One group: three comma fields, else a field-count fault; an ordinal with
      only digits, else an ordinal fault; then the arc between the stripped
      names. A name read never holds a comma nor begins or ends with white
      space, and an ordinal read is never negative. */
  function GroupArc(group: string): (r: Result<Arc, Fault>)
    ensures var fs := Split(group, ',');
            && (r.Success? <==> |fs| == 3 && IsDigits(fs[2]))
            && (|fs| != 3 ==> r.Failure? && r.error == FieldCount(|fs|))
            && (|fs| == 3 && !IsDigits(fs[2]) ==> r.Failure? && r.error == BadOrdinal(fs[2]))
    ensures r.Success? ==> var fs := Split(group, ',');
            && group == fs[0] + "," + fs[1] + "," + fs[2]
            && r.value.src == Trim(fs[0]) && r.value.dst == Trim(fs[1])
            && ParseInt(fs[2]) == Some(r.value.ord)
    ensures r.Success? ==> r.value.ord >= 0 && ',' !in r.value.src && ',' !in r.value.dst
    ensures r.Success? ==> Trimmed(r.value.src) && Trimmed(r.value.dst)
  {
    var fs := Split(group, ',');
    if |fs| != 3 then Failure(FieldCount(|fs|))
    else if !IsDigits(fs[2]) then Failure(BadOrdinal(fs[2]))
    else
      assert group == fs[0] + "," + fs[1] + "," + fs[2] by {
        assert fs == [fs[0], fs[1], fs[2]];
        Join3(fs[0], fs[1], fs[2], ",");
      }
      assert ParseInt(fs[2]) == Some(DigitsValue(fs[2]) as int) by {
        ParseDigits(fs[2]);
      }
      assert ',' !in Trim(fs[0]) && ',' !in Trim(fs[1]) by {
        assert fs[0] in fs && fs[1] in fs;
        StripSub(fs[0], Whitespace);
        StripSub(fs[1], Whitespace);
      }
      Success(Arc(Trim(fs[0]), Trim(fs[1]), DigitsValue(fs[2])))
  }

  /** No white space at either end. */
  predicate Trimmed(s: string) {
    |s| > 0 ==> s[0] !in Whitespace && s[|s| - 1] !in Whitespace
  }

  /** Each group read, in order. */
  function Reads(groups: seq<string>): (r: seq<Result<Arc, Fault>>)
    ensures |r| == |groups| && forall j :: 0 <= j < |groups| ==> r[j] == GroupArc(groups[j])
  {
    seq(|groups|, j requires 0 <= j < |groups| => GroupArc(groups[j]))
  }

  /** The fault of the first group that does not read, if any. */
  function ReadsFault(rs: seq<Result<Arc, Fault>>): Option<Fault> {
    if rs == [] then None
    else if rs[0].Failure? then Some(rs[0].error)
    else ReadsFault(rs[1..])
  }

  /** The fault that stops reading at this line, if any; none for a blank line. */
  function LineFault(line: string): Option<Fault> {
    ReadsFault(Reads(Groups(line)))
  }

  /** The position of the first group that does not read, or the number of
      groups when all do. */
  function FirstBad(rs: seq<Result<Arc, Fault>>): (k: nat)
    ensures k <= |rs|
    ensures forall j :: 0 <= j < k ==> rs[j].Success?
    ensures k < |rs| ==> rs[k].Failure?
  {
    if rs == [] then 0
    else if rs[0].Failure? then 0
    else 1 + FirstBad(rs[1..])
  }

  /** A line's fault is that of its first group that does not read: there is
      none exactly when every group reads. */
  lemma {:induction false} ReadsFaultFirst(rs: seq<Result<Arc, Fault>>)
    ensures var k := FirstBad(rs);
            && (ReadsFault(rs).None? <==> k == |rs|)
            && (k < |rs| ==> ReadsFault(rs) == Some(rs[k].error))
  {
    if rs != [] && rs[0].Success? {
      ReadsFaultFirst(rs[1..]);
    }
  }

  /** The loop over one line's groups, each already read: each group that
      reads appends its arc and adds its endpoints; the first that does not
      stops the line with its fault. */
  function AddReads(g: Graph, rs: seq<Result<Arc, Fault>>): (r: Step)
    ensures r.fault == ReadsFault(rs)
    decreases |rs|
  {
    if rs == [] then Step(g, None)
    else if rs[0].Failure? then Step(g, Some(rs[0].error))
    else
      var a := rs[0].value;
      AddReads(Graph(g.vertices + {a.src, a.dst}, g.arcs + [a]), rs[1..])
  }

  /** Reading a line only appends arcs, and adds exactly their endpoints. */
  lemma {:induction false} AddReadsGrows(g: Graph, rs: seq<Result<Arc, Fault>>)
    ensures Grows(g, AddReads(g, rs).graph)
    decreases |rs|
  {
    if rs != [] && rs[0].Success? {
      var a := rs[0].value;
      var g' := Graph(g.vertices + {a.src, a.dst}, g.arcs + [a]);
      GrowsByOne(g, a);
      AddReadsGrows(g', rs[1..]);
      GrowsTrans(g, g', AddReads(g', rs[1..]).graph);
    } else {
      GrowsRefl(g);
    }
  }

  /** The arcs a line appends are those of its groups before the first bad
      one, in order. */
  lemma {:induction false} AddReadsArcs(g: Graph, rs: seq<Result<Arc, Fault>>)
    ensures var r := AddReads(g, rs);
            var k := FirstBad(rs);
            && |r.graph.arcs| == |g.arcs| + k
            && forall j :: 0 <= j < k ==> r.graph.arcs[|g.arcs| + j] == rs[j].value
    decreases |rs|
  {
    if rs != [] && rs[0].Success? {
      var a := rs[0].value;
      var g' := Graph(g.vertices + {a.src, a.dst}, g.arcs + [a]);
      AddReadsArcs(g', rs[1..]);
      var r := AddReads(g', rs[1..]);
      forall j | 0 <= j < FirstBad(rs) ensures r.graph.arcs[|g.arcs| + j] == rs[j].value {
        if j > 0 {
          assert rs[1..][j - 1] == rs[j];
          assert r.graph.arcs[|g'.arcs| + (j - 1)] == rs[1..][j - 1].value;
        } else {
          assert r.graph.arcs[..|g'.arcs|] == g'.arcs by { AddReadsGrows(g', rs[1..]); }
          assert r.graph.arcs[|g.arcs|] == r.graph.arcs[..|g'.arcs|][|g.arcs|];
        }
      }
    }
  }

  /** Reading groups that all read appends their arcs and adds their
      endpoints. */
  lemma AddReadsAll(g: Graph, rs: seq<Result<Arc, Fault>>, row: seq<Arc>)
    requires |rs| == |row| && forall j :: 0 <= j < |rs| ==> rs[j] == Success(row[j])
    ensures var r := AddReads(g, rs);
            && r.fault.None? && r.graph.arcs == g.arcs + row
            && r.graph.vertices == g.vertices + Endpoints(row)
  {
    var r := AddReads(g, rs);
    AddReadsGrows(g, rs);
    AddReadsArcs(g, rs);
    ReadsFaultFirst(rs);
    var n := |g.arcs|;
    assert FirstBad(rs) == |rs|;
    assert forall j :: 0 <= j < |row| ==> r.graph.arcs[n + j] == row[j];
    assert r.graph.arcs[n..] == row;
    assert r.graph.arcs == r.graph.arcs[..n] + r.graph.arcs[n..];
  }

  /** Each line's fault, in order. */
  function LineFaults(lines: seq<string>): (r: seq<Option<Fault>>)
    ensures |r| == |lines|
  {
    MapSeq(LineFault, lines)
  }

  /** Entry `k` of the faults is line `k`'s. */
  lemma LineFaultsAt(lines: seq<string>, k: nat)
    requires k < |lines|
    ensures LineFaults(lines)[k] == LineFault(lines[k])
  {
    MapSeqAt(LineFault, lines, k);
  }

  /** The loop over the lines from line `i` (0-based) on: a blank line is
      skipped, and the first line with a fault ends reading with its error. */
  function ParseFrom(lines: seq<string>, i: nat, g: Graph): (r: Parsed)
    requires i <= |lines|
    decreases |lines| - i
  {
    if i == |lines| then Parsed(g, None)
    else if Trim(lines[i]) == [] then ParseFrom(lines, i + 1, g)
    else
      var s := AddReads(g, Reads(Groups(lines[i])));
      if s.fault.Some? then Parsed(s.graph, Some(LineError(i + 1, s.fault.value)))
      else ParseFrom(lines, i + 1, s.graph)
  }

  /** A line's fault is none when it is blank, and that of its groups
      otherwise. */
  lemma LineFaultAt(lines: seq<string>, i: nat, g: Graph)
    requires i < |lines|
    ensures Trim(lines[i]) == [] ==> LineFaults(lines)[i].None?
    ensures Trim(lines[i]) != [] ==> LineFaults(lines)[i] == AddReads(g, Reads(Groups(lines[i]))).fault
  {
    LineFaultsAt(lines, i);
    if Trim(lines[i]) == [] {
      assert Groups(lines[i]) == [] by {
        assert RemoveAll(Trim(lines[i]), ' ') == [];
      }
    }
  }

  /** The error reading stops with is that of the first line, from line `i`
      on, that has a fault. */
  lemma {:induction false} ParseFromError(lines: seq<string>, i: nat, g: Graph)
    requires i <= |lines|
    ensures ParseFrom(lines, i, g).error == FirstError(LineFaults(lines), i)
    decreases |lines| - i, 1
  {
    if i == |lines| {
    } else if Trim(lines[i]) == [] {
      BlankError(lines, i, g);
    } else if AddReads(g, Reads(Groups(lines[i]))).fault.None? {
      LineReadError(lines, i, g);
    } else {
      LineStopError(lines, i, g);
    }
  }

  /** A blank line is skipped and has no fault. */
  lemma {:induction false} BlankError(lines: seq<string>, i: nat, g: Graph)
    requires i < |lines| && Trim(lines[i]) == []
    ensures ParseFrom(lines, i, g).error == FirstError(LineFaults(lines), i)
    decreases |lines| - i, 0
  {
    var faults := LineFaults(lines);
    assert FirstError(faults, i) == FirstError(faults, i + 1) by {
      LineFaultAt(lines, i, g);
      FirstErrorStep(faults, i);
    }
    ParseFromError(lines, i + 1, g);
  }

  /** A line that reads has no fault and hands on its graph. */
  lemma {:induction false} LineReadError(lines: seq<string>, i: nat, g: Graph)
    requires i < |lines| && Trim(lines[i]) != []
    requires AddReads(g, Reads(Groups(lines[i]))).fault.None?
    ensures ParseFrom(lines, i, g).error == FirstError(LineFaults(lines), i)
    decreases |lines| - i, 0
  {
    var faults := LineFaults(lines);
    var s := AddReads(g, Reads(Groups(lines[i])));
    assert FirstError(faults, i) == FirstError(faults, i + 1) by {
      LineFaultAt(lines, i, g);
      FirstErrorStep(faults, i);
    }
    assert ParseFrom(lines, i, g).error == ParseFrom(lines, i + 1, s.graph).error by {
      ParseFromNext(lines, i, g);
    }
    ParseFromError(lines, i + 1, s.graph);
  }

  /** A line that stops reading is the first with a fault. */
  lemma LineStopError(lines: seq<string>, i: nat, g: Graph)
    requires i < |lines| && Trim(lines[i]) != []
    requires AddReads(g, Reads(Groups(lines[i]))).fault.Some?
    ensures ParseFrom(lines, i, g).error == FirstError(LineFaults(lines), i)
  {
    var faults := LineFaults(lines);
    var s := AddReads(g, Reads(Groups(lines[i])));
    assert FirstError(faults, i) == Some(LineError(i + 1, s.fault.value)) by {
      LineFaultAt(lines, i, g);
      FirstErrorStep(faults, i);
    }
  }

  /** A line that reads hands the grown graph on to the next line. */
  lemma ParseFromNext(lines: seq<string>, i: nat, g: Graph)
    requires i < |lines| && Trim(lines[i]) != []
    requires AddReads(g, Reads(Groups(lines[i]))).fault.None?
    ensures ParseFrom(lines, i, g) == ParseFrom(lines, i + 1, AddReads(g, Reads(Groups(lines[i]))).graph)
  {
  }

  /** Reading lines only appends arcs, and adds exactly their endpoints. */
  lemma {:induction false} ParseFromGrows(lines: seq<string>, i: nat, g: Graph)
    requires i <= |lines|
    ensures Grows(g, ParseFrom(lines, i, g).graph)
    decreases |lines| - i, 1
  {
    if i == |lines| {
      GrowsRefl(g);
    } else if Trim(lines[i]) == [] {
      ParseFromGrows(lines, i + 1, g);
    } else if AddReads(g, Reads(Groups(lines[i]))).fault.None? {
      LineReadGrows(lines, i, g);
    } else {
      AddReadsGrows(g, Reads(Groups(lines[i])));
    }
  }

  /** A line that reads, then the lines after it. */
  lemma {:induction false} LineReadGrows(lines: seq<string>, i: nat, g: Graph)
    requires i < |lines| && Trim(lines[i]) != []
    requires AddReads(g, Reads(Groups(lines[i]))).fault.None?
    ensures Grows(g, ParseFrom(lines, i, g).graph)
    decreases |lines| - i, 0
  {
    var s := AddReads(g, Reads(Groups(lines[i])));
    var h := ParseFrom(lines, i + 1, s.graph);
    assert Grows(g, s.graph) by {
      AddReadsGrows(g, Reads(Groups(lines[i])));
    }
    assert ParseFrom(lines, i, g).graph == h.graph by {
      ParseFromNext(lines, i, g);
    }
    assert Grows(s.graph, h.graph) by {
      ParseFromGrows(lines, i + 1, s.graph);
    }
    GrowsTrans(g, s.graph, h.graph);
  }

  /** The arcs of the groups before the first that does not read, in order. */
  function GoodArcs(rs: seq<Result<Arc, Fault>>): (r: seq<Arc>)
    ensures |r| == FirstBad(rs) && forall j :: 0 <= j < |r| ==> rs[j] == Success(r[j])
    decreases |rs|
  {
    if rs == [] || rs[0].Failure? then []
    else
      var r := [rs[0].value] + GoodArcs(rs[1..]);
      assert forall j :: 1 <= j < |r| ==> rs[j] == rs[1..][j - 1];
      r
  }

  /** The arcs a line contributes: those of its groups before the first
      that does not read. */
  function LineArcs(line: string): seq<Arc> {
    GoodArcs(Reads(Groups(line)))
  }

  /** The arcs of the lines from line `i` (0-based) on, in order, through the
      first line with a fault, whose groups before its bad one count too. */
  function ArcsRead(lines: seq<string>, i: nat): seq<Arc>
    requires i <= |lines|
    decreases |lines| - i
  {
    if i == |lines| then []
    else if LineFault(lines[i]).Some? then LineArcs(lines[i])
    else LineArcs(lines[i]) + ArcsRead(lines, i + 1)
  }

  /** A line appends exactly the arcs of its groups before the first bad one. */
  lemma AddReadsGood(g: Graph, rs: seq<Result<Arc, Fault>>)
    ensures AddReads(g, rs).graph.arcs == g.arcs + GoodArcs(rs)
  {
    var r := AddReads(g, rs);
    AddReadsGrows(g, rs);
    AddReadsArcs(g, rs);
    var n := |g.arcs|;
    assert r.graph.arcs[n..] == GoodArcs(rs);
    assert r.graph.arcs == r.graph.arcs[..n] + r.graph.arcs[n..];
  }

  /** Reading from line `i` on appends exactly the arcs of `ArcsRead`. */
  lemma {:induction false} ParseFromArcs(lines: seq<string>, i: nat, g: Graph)
    requires i <= |lines|
    ensures ParseFrom(lines, i, g).graph.arcs == g.arcs + ArcsRead(lines, i)
    decreases |lines| - i, 2
  {
    if i == |lines| {
      assert g.arcs + [] == g.arcs;
    } else if Trim(lines[i]) == [] {
      BlankArcs(lines, i, g);
    } else if AddReads(g, Reads(Groups(lines[i]))).fault.None? {
      ReadArcsStep(lines, i, g);
    } else {
      StopArcsStep(lines, i, g);
    }
  }

  /** A blank line contributes nothing. */
  lemma {:induction false} BlankArcs(lines: seq<string>, i: nat, g: Graph)
    requires i < |lines| && Trim(lines[i]) == []
    ensures ParseFrom(lines, i, g).graph.arcs == g.arcs + ArcsRead(lines, i)
    decreases |lines| - i, 1
  {
    assert Groups(lines[i]) == [];
    assert LineFault(lines[i]).None? && LineArcs(lines[i]) == [];
    assert ArcsRead(lines, i) == ArcsRead(lines, i + 1);
    ParseFromArcs(lines, i + 1, g);
  }

  /** A line that reads, then the lines after it. */
  lemma {:induction false} ReadArcsStep(lines: seq<string>, i: nat, g: Graph)
    requires i < |lines| && Trim(lines[i]) != []
    requires AddReads(g, Reads(Groups(lines[i]))).fault.None?
    ensures ParseFrom(lines, i, g).graph.arcs == g.arcs + ArcsRead(lines, i)
    decreases |lines| - i, 1
  {
    var s := AddReads(g, Reads(Groups(lines[i])));
    var h := ParseFrom(lines, i + 1, s.graph);
    assert s.graph.arcs == g.arcs + LineArcs(lines[i]) by {
      AddReadsGood(g, Reads(Groups(lines[i])));
    }
    assert ParseFrom(lines, i, g).graph == h.graph by {
      ParseFromNext(lines, i, g);
    }
    assert h.graph.arcs == s.graph.arcs + ArcsRead(lines, i + 1) by {
      ParseFromArcs(lines, i + 1, s.graph);
    }
    assert ArcsRead(lines, i) == LineArcs(lines[i]) + ArcsRead(lines, i + 1) by {
      ArcsReadNext(lines, i);
    }
    AppendThree(g.arcs, LineArcs(lines[i]), ArcsRead(lines, i + 1));
  }

  /** A line without a fault is followed by the arcs of the lines after it. */
  lemma ArcsReadNext(lines: seq<string>, i: nat)
    requires i < |lines| && LineFault(lines[i]).None?
    ensures ArcsRead(lines, i) == LineArcs(lines[i]) + ArcsRead(lines, i + 1)
  {
  }

  /** A line with a fault ends reading with the arcs before its bad group. */
  lemma StopArcsStep(lines: seq<string>, i: nat, g: Graph)
    requires i < |lines| && Trim(lines[i]) != []
    requires AddReads(g, Reads(Groups(lines[i]))).fault.Some?
    ensures ParseFrom(lines, i, g).graph.arcs == g.arcs + ArcsRead(lines, i)
  {
    var rs := Reads(Groups(lines[i]));
    var s := AddReads(g, rs);
    assert s.graph.arcs == g.arcs + LineArcs(lines[i]) by {
      AddReadsGood(g, rs);
    }
    assert ArcsRead(lines, i) == LineArcs(lines[i]) by {
      assert LineFault(lines[i]) == s.fault;
    }
  }

  /** Reading from the empty graph builds exactly the arcs of `ArcsRead`. */
  lemma ParseArcsRead(lines: seq<string>)
    ensures ParseFrom(lines, 0, Graph({}, [])).graph.arcs == ArcsRead(lines, 0)
  {
    ParseFromArcs(lines, 0, Graph({}, []));
    assert [] + ArcsRead(lines, 0) == ArcsRead(lines, 0);
  }

  /** `parse_input_file(input_file)` on the file's lines. Every vertex is an
      endpoint of an arc read, and every arc's endpoints are vertices. There is
      no error exactly when every line reads (`LineFaults(lines)[k]` is line
      `k`'s fault, see `LineFaultsAt`); an error names the first line that
      does not. */
  function ParseArcs(lines: seq<string>): (r: Parsed)
    ensures WellFormed(r.graph)
    ensures r.graph.arcs == ArcsRead(lines, 0)
    ensures r.graph.vertices == Endpoints(r.graph.arcs)
    ensures var faults := LineFaults(lines);
            && (r.error.None? <==> forall k :: 0 <= k < |lines| ==> faults[k].None?)
            && (r.error.Some? ==>
                  var k := r.error.value.line - 1;
                  && 0 <= k < |lines| && faults[k] == Some(r.error.value.fault)
                  && forall j :: 0 <= j < k ==> faults[j].None?)
  {
    ParseError(lines);
    ParseGraph(lines);
    ParseArcsRead(lines);
    ParseFrom(lines, 0, Graph({}, []))
  }

  /** The error reading from the empty graph stops with names the first line
      with a fault, and there is none when no line has one. */
  lemma ParseError(lines: seq<string>)
    ensures var r := ParseFrom(lines, 0, Graph({}, []));
            var faults := LineFaults(lines);
            && (r.error.None? <==> forall k :: 0 <= k < |lines| ==> faults[k].None?)
            && (r.error.Some? ==>
                  var k := r.error.value.line - 1;
                  && 0 <= k < |lines| && faults[k] == Some(r.error.value.fault)
                  && forall j :: 0 <= j < k ==> faults[j].None?)
  {
    ParseFromError(lines, 0, Graph({}, []));
    FirstErrorIsFirst(LineFaults(lines), 0);
  }

  /** What reading from the empty graph builds is well formed, with the
      arcs' endpoints as its vertices. */
  lemma ParseGraph(lines: seq<string>)
    ensures var r := ParseFrom(lines, 0, Graph({}, []));
            WellFormed(r.graph) && r.graph.vertices == Endpoints(r.graph.arcs)
  {
    var r := ParseFrom(lines, 0, Graph({}, []));
    ParseFromGrows(lines, 0, Graph({}, []));
    GrowsWellFormed(Graph({}, []), r.graph);
    assert r.graph.arcs[0..] == r.graph.arcs;
  }

  /** A line with no opening bracket (a line of text, say) is passed over
      without an error, whatever it says. */
  lemma NoGroupIgnored(lines: seq<string>, i: nat, g: Graph)
    requires i < |lines| && '(' !in lines[i]
    ensures ParseFrom(lines, i, g) == ParseFrom(lines, i + 1, g)
  {
    var t := Trim(lines[i]);
    StripSub(lines[i], Whitespace);
    assert '(' !in RemoveAll(t, ' ');
  }

  /** A written triple reads back as its arc. */
  lemma GroupArcTriple(a: Arc)
    requires Plain(a.src) && Plain(a.dst) && a.ord >= 0
    ensures GroupArc(Triple(a)) == Success(a)
  {
    var fs := Split(Triple(a), ',');
    assert fs == [a.src, a.dst, IntToString(a.ord)] by {
      TripleFields(a);
    }
    assert Trim(a.src) == a.src && Trim(a.dst) == a.dst by {
      PlainTrim(a.src);
      PlainTrim(a.dst);
    }
  }

  /** A written line has no white space to strip or remove. */
  lemma FormatLineClean(row: seq<Arc>)
    requires row != [] && PlainArcs(row)
    ensures RemoveAll(Trim(FormatLine(row)), ' ') == FormatLine(row)
  {
    var line := FormatLine(row);
    TriplesFree(row);
    assert line[0] == '(' && line[|line| - 1] == ')';
    BracketedTrim(line);
    JoinFree(Triples(row), "),(", ' ');
    assert ' ' !in line;
  }

  /** The groups found in a written line are its triples. */
  lemma LineGroups(row: seq<Arc>)
    requires row != [] && PlainArcs(row)
    ensures Groups(FormatLine(row)) == Triples(row)
  {
    var ts := Triples(row);
    var line := FormatLine(row);
    assert Groups(line) == ScanGroups(line) by {
      FormatLineClean(row);
    }
    assert ScanGroups("(" + Join(ts, "),(") + ")") == ts by {
      TriplesFree(row);
      forall t | t in ts ensures ')' !in t && '\n' !in t {
        assert ')' in Parens;
      }
      ScanFormatted(ts);
    }
    assert line == "(" + Join(ts, "),(") + ")";
  }

  /** Every triple of a written line reads back as its arc. */
  lemma ReadsFormatted(row: seq<Arc>)
    requires PlainArcs(row) && Unsigned(row)
    ensures var rs := Reads(Triples(row));
            |rs| == |row| && forall j :: 0 <= j < |rs| ==> rs[j] == Success(row[j])
  {
    forall j | 0 <= j < |row| ensures GroupArc(Triples(row)[j]) == Success(row[j]) {
      GroupArcTriple(row[j]);
    }
  }

  /** Reading a written line appends its arcs and adds their endpoints. */
  lemma ReadFormattedLine(g: Graph, row: seq<Arc>)
    requires row != [] && PlainArcs(row) && Unsigned(row)
    ensures var line := FormatLine(row);
            var s := AddReads(g, Reads(Groups(line)));
            && Trim(line) != []
            && s.fault.None? && s.graph.arcs == g.arcs + row
            && s.graph.vertices == g.vertices + Endpoints(row)
  {
    var line := FormatLine(row);
    assert Groups(line) == Triples(row) by {
      LineGroups(row);
    }
    assert Trim(line) != [] by {
      assert line[0] == '(' && line[|line| - 1] == ')';
      BracketedTrim(line);
    }
    ReadsFormatted(row);
    AddReadsAll(g, Reads(Triples(row)), row);
  }

  /** Reading written lines, one row of arcs per line, gives back every arc in
      order and no error. */
  lemma {:induction false} ParseFormattedFrom(rows: seq<seq<Arc>>, i: nat, g: Graph)
    requires Writable(rows) && i <= |rows|
    requires forall j :: 0 <= j < |rows| ==> Unsigned(rows[j])
    ensures var r := ParseFrom(FormatLines(rows), i, g);
            && r.error.None? && r.graph.arcs == g.arcs + Flatten(rows[i..])
            && r.graph.vertices == g.vertices + Endpoints(Flatten(rows[i..]))
    decreases |rows| - i, 1
  {
    if i < |rows| {
      FormattedStep(rows, i, g);
    } else {
      assert rows[i..] == [];
    }
  }

  /** One written line, then the lines after it. */
  lemma {:induction false} FormattedStep(rows: seq<seq<Arc>>, i: nat, g: Graph)
    requires Writable(rows) && i < |rows|
    requires forall j :: 0 <= j < |rows| ==> Unsigned(rows[j])
    ensures var r := ParseFrom(FormatLines(rows), i, g);
            && r.error.None? && r.graph.arcs == g.arcs + Flatten(rows[i..])
            && r.graph.vertices == g.vertices + Endpoints(Flatten(rows[i..]))
    decreases |rows| - i, 0
  {
    var lines := FormatLines(rows);
    var row := rows[i];
    var rest := Flatten(rows[i + 1..]);
    var s := AddReads(g, Reads(Groups(lines[i])));
    assert && Trim(lines[i]) != [] && s.fault.None? && s.graph.arcs == g.arcs + row
           && s.graph.vertices == g.vertices + Endpoints(row) by {
      assert lines[i] == FormatLine(row);
      ReadFormattedLine(g, row);
    }
    var r := ParseFrom(lines, i + 1, s.graph);
    assert ParseFrom(lines, i, g).graph == r.graph && ParseFrom(lines, i, g).error == r.error by {
      ParseFromNext(lines, i, g);
    }
    assert && r.error.None? && r.graph.arcs == s.graph.arcs + rest
           && r.graph.vertices == s.graph.vertices + Endpoints(rest) by {
      ParseFormattedFrom(rows, i + 1, s.graph);
    }
    assert Flatten(rows[i..]) == row + rest by {
      FlattenFrom(rows, i);
    }
    AppendTwice(g, s.graph, r.graph, row, rest);
  }

  lemma ParseFormatted(rows: seq<seq<Arc>>)
    requires Writable(rows)
    requires forall j :: 0 <= j < |rows| ==> Unsigned(rows[j])
    ensures var r := ParseArcs(FormatLines(rows));
            && r.error.None? && r.graph.arcs == Flatten(rows)
            && r.graph.vertices == Endpoints(Flatten(rows))
  {
    ParseFormattedFrom(rows, 0, Graph({}, []));
    assert rows[0..] == rows;
  }
}

=== FILE: arctext.dfy ===
/** The arc text the three programs read: lines such as `(a,b,0),(a,c,1)`,
    one parenthesised `from,to,ordinal` triple per group. nntask3.py finds the
    groups with a regular expression; nntask1.py and nntask2.py split the line
    on `),(` and strip the parentheses. Both readings are modelled here, with
    the writer they invert. */
module ArcText {
  import opened Wrappers
  import opened Text
  import opened Numerals
  import opened Graphs

  const Parens: set<char> := {'(', ')'}

  /** The characters a vertex name must avoid to be written and read back:
      white space, the field separator and the group brackets. */
  const Reserved: set<char> := Whitespace + {',', '(', ')'}

  predicate Plain(name: string) {
    forall c :: c in name ==> c !in Reserved
  }

  /** Why a line of arcs is refused: a group without exactly three comma
      fields, an ordinal that does not read as a number, or (nntask1.py
      only) a triple already read. */
  datatype Fault = FieldCount(count: nat) | BadOrdinal(text: string) | Repeated(arc: Arc)

  /** The error a parser reports, with the 1-based number of the line. */
  datatype LineError = LineError(line: nat, fault: Fault)

  /** What a parser returns: the graph read and the error that stopped it. */
  datatype Parsed = Parsed(graph: Graph, error: Option<LineError>)

  /** The graph after reading one line, and the fault that stopped the line. */
  datatype Step = Step(graph: Graph, fault: Option<Fault>)

  /** The error of a fail-fast loop over lines, given each line's fault: the
      first line, from `i` (0-based) on, that has one. */
  function FirstError(faults: seq<Option<Fault>>, i: nat): Option<LineError>
    requires i <= |faults|
    decreases |faults| - i
  {
    if i == |faults| then None
    else if faults[i].Some? then Some(LineError(i + 1, faults[i].value))
    else FirstError(faults, i + 1)
  }

  /** One step of the loop: the line at `i` stops it, or the rest decides. */
  lemma FirstErrorStep(faults: seq<Option<Fault>>, i: nat)
    requires i < |faults|
    ensures FirstError(faults, i) ==
              if faults[i].Some? then Some(LineError(i + 1, faults[i].value)) else FirstError(faults, i + 1)
  {
  }

  /** `f` applied to every element, in order. */
  function MapSeq<A, B>(f: A -> B, s: seq<A>): (r: seq<B>)
    ensures |r| == |s|
  {
    if s == [] then [] else [f(s[0])] + MapSeq(f, s[1..])
  }

  lemma {:induction false} MapSeqAt<A, B>(f: A -> B, s: seq<A>, k: nat)
    requires k < |s|
    ensures MapSeq(f, s)[k] == f(s[k])
  {
    if k > 0 {
      MapSeqAt(f, s[1..], k - 1);
    }
  }

  /** There is no error exactly when no line has a fault; an error names a
      line with its fault, and no line before it has one. */
  lemma {:induction false} FirstErrorIsFirst(faults: seq<Option<Fault>>, i: nat)
    requires i <= |faults|
    ensures var e := FirstError(faults, i);
            && (e.None? <==> forall k :: i <= k < |faults| ==> faults[k].None?)
            && (e.Some? ==>
                  var k := e.value.line - 1;
                  && i <= k < |faults| && faults[k] == Some(e.value.fault)
                  && forall j :: i <= j < k ==> faults[j].None?)
    decreases |faults| - i
  {
    if i < |faults| && faults[i].None? {
      FirstErrorIsFirst(faults, i + 1);
    }
  }

  /** The rows of arcs, one after the other. */
  function Flatten(rows: seq<seq<Arc>>): seq<Arc> {
    if rows == [] then [] else rows[0] + Flatten(rows[1..])
  }

  lemma FlattenFrom(rows: seq<seq<Arc>>, i: nat)
    requires i < |rows|
    ensures Flatten(rows[i..]) == rows[i] + Flatten(rows[i + 1..])
  {
    assert rows[i..][0] == rows[i];
    assert rows[i..][1..] == rows[i + 1..];
  }

  /** Rows of arcs written one row per line. */
  function FormatLines(rows: seq<seq<Arc>>): (r: seq<string>)
    requires forall i :: 0 <= i < |rows| ==> rows[i] != []
    ensures |r| == |rows| && forall i :: 0 <= i < |r| ==> r[i] == FormatLine(rows[i])
  {
    if rows == [] then [] else [FormatLine(rows[0])] + FormatLines(rows[1..])
  }

  /** `h` is `g` with arcs appended and their endpoints added, and nothing
      else: what reading more arcs does to a graph. */
  predicate Grows(g: Graph, h: Graph) {
    && |g.arcs| <= |h.arcs| && h.arcs[..|g.arcs|] == g.arcs
    && h.vertices == g.vertices + Endpoints(h.arcs[|g.arcs|..])
  }

  lemma GrowsTrans(g: Graph, h: Graph, k: Graph)
    requires Grows(g, h) && Grows(h, k)
    ensures Grows(g, k)
  {
    assert k.arcs[..|g.arcs|] == k.arcs[..|h.arcs|][..|g.arcs|];
    assert k.arcs[|g.arcs|..] == h.arcs[|g.arcs|..] + k.arcs[|h.arcs|..];
    EndpointsConcat(h.arcs[|g.arcs|..], k.arcs[|h.arcs|..]);
  }

  lemma GrowsRefl(g: Graph)
    ensures Grows(g, g)
  {
    assert g.arcs[|g.arcs|..] == [];
  }

  /** A plain name has no white space to strip. */
  lemma PlainTrim(name: string)
    requires Plain(name)
    ensures Trim(name) == name
  {
    if |name| > 0 {
      assert name[0] in name && name[|name| - 1] in name;
    }
  }

  /** A bracketed text has no white space to strip. */
  lemma BracketedTrim(s: string)
    requires |s| > 0 && s[0] == '(' && s[|s| - 1] == ')'
    ensures Trim(s) == s
  {
    assert '(' !in Whitespace && ')' !in Whitespace;
    assert s[0] !in Whitespace && s[|s| - 1] !in Whitespace;
  }

  /** Appending one arc and adding its endpoints grows the graph. */
  lemma GrowsByOne(g: Graph, a: Arc)
    ensures Grows(g, Graph(g.vertices + {a.src, a.dst}, g.arcs + [a]))
  {
    var h := Graph(g.vertices + {a.src, a.dst}, g.arcs + [a]);
    assert h.arcs[..|g.arcs|] == g.arcs;
    assert h.arcs[|g.arcs|..] == [a];
    assert Endpoints([a]) == {a.src, a.dst};
  }

  /** Regrouping a concatenation of three arc lists, kept apart from the
      string terms of the callers so the solver meets it in a small context. */
  lemma AppendThree(a: seq<Arc>, b: seq<Arc>, c: seq<Arc>)
    ensures (a + b) + c == a + (b + c)
  {
  }

  /** Appending arcs twice appends them together. */
  lemma AppendTwice(g: Graph, h: Graph, k: Graph, row: seq<Arc>, rest: seq<Arc>)
    requires h.arcs == g.arcs + row && h.vertices == g.vertices + Endpoints(row)
    requires k.arcs == h.arcs + rest && k.vertices == h.vertices + Endpoints(rest)
    ensures k.arcs == g.arcs + (row + rest) && k.vertices == g.vertices + Endpoints(row + rest)
  {
    assert k.arcs == g.arcs + (row + rest) by {
      assert g.arcs + row + rest == g.arcs + (row + rest);
    }
    assert Endpoints(row + rest) == Endpoints(row) + Endpoints(rest) by {
      EndpointsConcat(row, rest);
    }
  }

  /** A graph that only grew from one whose arcs stay among its vertices
      keeps that property. */
  lemma GrowsWellFormed(g: Graph, h: Graph)
    requires WellFormed(g) && Grows(g, h)
    ensures WellFormed(h)
  {
    forall a | a in h.arcs ensures a.src in h.vertices && a.dst in h.vertices {
      var i :| 0 <= i < |h.arcs| && h.arcs[i] == a;
      if i < |g.arcs| {
        assert h.arcs[..|g.arcs|][i] == a;
      } else {
        assert h.arcs[|g.arcs|..][i - |g.arcs|] == a;
        EndpointsMembers(h.arcs[|g.arcs|..]);
      }
    }
  }

  /** Arcs whose names can be written and read back. */
  predicate PlainArcs(row: seq<Arc>) {
    forall k :: 0 <= k < |row| ==> Plain(row[k].src) && Plain(row[k].dst)
  }

  /** Arcs whose ordinals are written with digits only. */
  predicate Unsigned(row: seq<Arc>) {
    forall k :: 0 <= k < |row| ==> row[k].ord >= 0
  }

  /** Rows of arcs that can be written one row per line and read back. */
  predicate Writable(rows: seq<seq<Arc>>) {
    forall i :: 0 <= i < |rows| ==> rows[i] != [] && PlainArcs(rows[i])
  }

  /** The position of the first `(` in `junk + x` lies in `x` when `junk` has none. */
  lemma {:induction false} IndexOfAfter(junk: string, x: string, c: char)
    requires c !in junk && c in x
    ensures IndexOf(junk + x, c) == |junk| + IndexOf(x, c)
  {
    if junk != [] {
      assert junk[0] in junk;
      assert (junk + x)[1..] == junk[1..] + x;
      IndexOfAfter(junk[1..], x, c);
    } else {
      assert junk + x == x;
    }
  }

  /** `re.findall(r"\((.*?)\)", s)`: each shortest parenthesised group, left
      to right. The regular expression's `.` does not match a newline, so an
      opening bracket whose group would span one is passed over and the scan
      resumes right after it. */
  function ScanGroups(s: string): (r: seq<string>)
    ensures forall g :: g in r ==> ')' !in g && '\n' !in g
    ensures '(' !in s ==> r == []
    decreases |s|, 0
  {
    if '(' !in s then [] else ScanOpen(s[IndexOf(s, '(') + 1..])
  }

  /** The scan just after an opening bracket: the group up to the next
      closing bracket when no newline comes first, else the scan goes on. */
  function ScanOpen(t: string): (r: seq<string>)
    ensures forall g :: g in r ==> ')' !in g && '\n' !in g
    decreases |t|, 1
  {
    if ')' in t && '\n' !in t[..IndexOf(t, ')')] then
      var q := IndexOf(t, ')');
      [t[..q]] + ScanGroups(t[q + 1..])
    else ScanGroups(t)
  }

  /** The scan of text holding an opening bracket starts just after the first one. */
  lemma ScanFrom(s: string, j: nat)
    requires '(' in s && j == IndexOf(s, '(')
    ensures ScanGroups(s) == ScanOpen(s[j + 1..])
  {
    assert '(' in s;
  }

  /** Dropping past `junk` and `k` more characters of `junk + x` leaves `x[k..]`. */
  lemma DropPast(junk: string, x: string, k: nat)
    requires k <= |x|
    ensures (junk + x)[|junk| + k..] == x[k..]
  {
  }

  /** Text without an opening bracket in front of the groups changes nothing. */
  lemma ScanSkip(junk: string, x: string)
    requires '(' !in junk
    ensures ScanGroups(junk + x) == ScanGroups(x)
  {
    if '(' in x {
      ScanSkipTo(junk, x, IndexOf(x, '('));
    } else {
      assert '(' !in junk + x;
    }
  }

  /** `ScanSkip` when `x` has its first opening bracket at `p`. */
  lemma ScanSkipTo(junk: string, x: string, p: nat)
    requires '(' !in junk && '(' in x && p == IndexOf(x, '(')
    ensures ScanGroups(junk + x) == ScanGroups(x)
  {
    assert '(' in junk + x by {
      assert (junk + x)[|junk| + p] == '(';
    }
    IndexOfAfter(junk, x, '(');
    ScanFrom(junk + x, |junk| + p);
    ScanFrom(x, p);
    DropPast(junk, x, p + 1);
  }

  /** One arc as a triple `from,to,ordinal`. */
  function Triple(a: Arc): (t: string)
    ensures ',' in t
  {
    var t := a.src + "," + a.dst + "," + IntToString(a.ord);
    assert t[|a.src|] == ',';
    t
  }

  /** Arcs written as one line: `(a,b,0),(a,c,1)`. */
  function FormatLine(arcs: seq<Arc>): string
    requires arcs != []
  {
    "(" + Join(Triples(arcs), "),(") + ")"
  }

  function Triples(arcs: seq<Arc>): (ts: seq<string>)
    ensures |ts| == |arcs| && forall i :: 0 <= i < |ts| ==> ts[i] == Triple(arcs[i])
  {
    seq(|arcs|, i requires 0 <= i < |arcs| => Triple(arcs[i]))
  }

  /** A leading group is read, then the scan goes on after its bracket. */
  lemma ScanStep(g: string, rest: string)
    requires ')' !in g && '\n' !in g
    ensures ScanGroups("(" + g + ")" + rest) == [g] + ScanGroups(rest)
  {
    var s := "(" + g + ")" + rest;
    assert IndexOf(s, '(') == 0;
    var t := s[1..];
    assert t == g + (")" + rest);
    assert IndexOf(")" + rest, ')') == 0;
    IndexOfAfter(g, ")" + rest, ')');
    assert t[..|g|] == g;
    assert t[|g| + 1..] == rest;
  }

  /** The groups `gs` in brackets, each after its stretch of text `js[k]`,
      and then `tail`. */
  function Frame(js: seq<string>, gs: seq<string>, tail: string): string
    requires |js| == |gs|
  {
    if gs == [] then tail else js[0] + ("(" + gs[0] + ")" + Frame(js[1..], gs[1..], tail))
  }

  /** Framed groups are matched one after the other, then the scan goes on
      in the tail. */
  lemma {:induction false} ScanFrame(js: seq<string>, gs: seq<string>, tail: string)
    requires |js| == |gs|
    requires forall k :: 0 <= k < |gs| ==> '(' !in js[k] && ')' !in gs[k] && '\n' !in gs[k]
    ensures ScanGroups(Frame(js, gs, tail)) == gs + ScanGroups(tail)
  {
    if gs != [] {
      var f := Frame(js[1..], gs[1..], tail);
      assert ScanGroups(f) == gs[1..] + ScanGroups(tail) by {
        assert forall k :: 0 <= k < |gs[1..]| ==> js[1..][k] == js[k + 1] && gs[1..][k] == gs[k + 1];
        ScanFrame(js[1..], gs[1..], tail);
      }
      assert ScanGroups(Frame(js, gs, tail)) == [gs[0]] + ScanGroups(f) by {
        ScanSkip(js[0], "(" + gs[0] + ")" + f);
        ScanStep(gs[0], f);
      }
      var t := ScanGroups(tail);
      assert [gs[0]] + (gs[1..] + t) == gs + t by {
        assert [gs[0]] + (gs[1..] + t) == ([gs[0]] + gs[1..]) + t;
        assert [gs[0]] + gs[1..] == gs;
      }
    }
  }

  /** Text with no opening bracket, then text with no closing bracket, holds
      no group. */
  lemma ScanTail(pre: string, post: string)
    requires '(' !in pre && ')' !in post
    ensures ScanGroups(pre + post) == []
  {
    ScanSkip(pre, post);
    ScanNoClose(post);
  }

  lemma {:induction false} ScanNoClose(t: string)
    requires ')' !in t
    ensures ScanGroups(t) == []
    decreases |t|
  {
    if '(' in t {
      var u := t[IndexOf(t, '(') + 1..];
      assert ')' !in u;
      ScanNoClose(u);
    }
  }

  /** The regular-expression reading recovers every triple of a written line. */
  lemma {:induction false} ScanFormatted(ts: seq<string>)
    requires ts != [] && forall t :: t in ts ==> ')' !in t && '\n' !in t
    ensures ScanGroups("(" + Join(ts, "),(") + ")") == ts
  {
    assert ts[0] in ts;
    if |ts| == 1 {
      ScanStep(ts[0], "");
      assert "(" + Join(ts, "),(") + ")" == "(" + ts[0] + ")" + "";
    } else {
      var next := "(" + Join(ts[1..], "),(") + ")";
      assert "(" + Join(ts, "),(") + ")" == "(" + ts[0] + ")" + ("," + next) by {
        FramedJoin(ts);
      }
      assert ScanGroups(next) == ts[1..] by {
        assert forall t :: t in ts[1..] ==> t in ts;
        ScanFormatted(ts[1..]);
      }
      ScanNext(ts[0], next, ts[1..]);
      assert [ts[0]] + ts[1..] == ts;
    }
  }

  /** A written line of two or more triples is its first group, a comma,
      and the written line of the rest. */
  lemma FramedJoin(ts: seq<string>)
    requires |ts| >= 2
    ensures "(" + Join(ts, "),(") + ")" == "(" + ts[0] + ")" + ("," + ("(" + Join(ts[1..], "),(") + ")"))
  {
    var j := Join(ts[1..], "),(");
    assert Join(ts, "),(") == ts[0] + "),(" + j;
    Regroup(ts[0], j);
  }

  lemma Regroup(a: string, j: string)
    ensures "(" + (a + "),(" + j) + ")" == "(" + a + ")" + ("," + ("(" + j + ")"))
  {
    var l := "(" + (a + "),(" + j) + ")";
    var r := "(" + a + ")" + ("," + ("(" + j + ")"));
    assert |l| == |r|;
    forall k | 0 <= k < |l| ensures l[k] == r[k] {
      if k == 0 {
      } else if k <= |a| {
        assert l[k] == a[k - 1] && r[k] == a[k - 1];
      } else if k <= |a| + 3 {
      } else if k < |l| - 1 {
        assert l[k] == j[k - |a| - 4] && r[k] == j[k - |a| - 4];
      }
    }
  }

  /** A group, a comma, then text whose groups are `rest`. */
  lemma ScanNext(g: string, next: string, rest: seq<string>)
    requires ')' !in g && '\n' !in g && ScanGroups(next) == rest
    ensures ScanGroups("(" + g + ")" + ("," + next)) == [g] + rest
  {
    ScanStep(g, "," + next);
    ScanSkip(",", next);
  }

  /** `line.replace(" ", "").replace("\t", "").split('),(')`: the pieces of
      a line, each still to be stripped of brackets, none with a space or a
      tab. */
  function Pieces(line: string): (r: seq<string>)
    ensures |r| >= 1
    ensures forall i :: 0 <= i < |r| ==> ' ' !in r[i] && '\t' !in r[i]
  {
    var bare := RemoveAll(RemoveAll(line, ' '), '\t');
    var r := SplitOn(bare, "),(");
    forall i | 0 <= i < |r| ensures ' ' !in r[i] && '\t' !in r[i] {
      PieceOf(bare, "),(", i);
    }
    r
  }

  /** The pieces of a line, joined again with `),(`, give the line without
      its spaces and tabs, and none of them holds `),(`. */
  lemma PiecesJoin(line: string)
    ensures var r := Pieces(line);
            && Join(r, "),(") == RemoveAll(RemoveAll(line, ' '), '\t')
            && forall i :: 0 <= i < |r| ==> !Occurs(r[i], "),(")
  {
  }

  /** Every piece of a split is made of characters of the string split. */
  lemma {:induction false} PieceOf(s: string, sep: string, i: nat)
    requires |sep| > 0 && i < |SplitOn(s, sep)|
    ensures forall c :: c in SplitOn(s, sep)[i] ==> c in s
    decreases |s|
  {
    var r := SplitOn(s, sep);
    if |s| >= |sep| && s[..|sep|] == sep {
      if i > 0 {
        PieceOf(s[|sep|..], sep, i - 1);
      }
    } else if s != [] {
      PieceOf(s[1..], sep, i);
    }
  }

  /** Stripping keeps only characters of the string stripped. */
  lemma StripSub(s: string, cs: set<char>)
    ensures forall c :: c in Strip(s, cs) ==> c in s
  {
    var l := StripLeft(s, cs);
    var r := StripRight(l, cs);
    forall c | c in r ensures c in s {
      var k :| 0 <= k < |r| && r[k] == c;
      assert r[k] == l[k] == s[|s| - |l| + k];
    }
  }

  /** A string that neither starts nor ends with a character of `cs`,
      framed by characters of `cs`, is stripped back to itself. */
  lemma StripFramed(pre: string, x: string, suf: string, cs: set<char>)
    requires |x| > 0 && x[0] !in cs && x[|x| - 1] !in cs
    requires forall c :: c in pre ==> c in cs
    requires forall c :: c in suf ==> c in cs
    ensures Strip(pre + x + suf, cs) == x
  {
    var s := pre + x + suf;
    assert s == pre + (x + suf);
    StripLeftFramed(pre, x + suf, cs);
    assert StripLeft(s, cs) == x + suf;
    StripRightFramed(x, suf, cs);
    assert Strip(s, cs) == StripRight(StripLeft(s, cs), cs);
  }

  lemma {:induction false} StripLeftFramed(pre: string, y: string, cs: set<char>)
    requires |y| > 0 && y[0] !in cs
    requires forall c :: c in pre ==> c in cs
    ensures StripLeft(pre + y, cs) == y
  {
    if pre != [] {
      assert pre[0] in pre;
      assert (pre + y)[1..] == pre[1..] + y;
      StripLeftFramed(pre[1..], y, cs);
    }
  }

  lemma {:induction false} StripRightFramed(x: string, suf: string, cs: set<char>)
    requires |x| > 0 && x[|x| - 1] !in cs
    requires forall c :: c in suf ==> c in cs
    ensures StripRight(x + suf, cs) == x
  {
    if suf != [] {
      assert suf[|suf| - 1] in suf;
      assert (x + suf)[..|x + suf| - 1] == x + suf[..|suf| - 1];
      StripRightFramed(x, suf[..|suf| - 1], cs);
    } else {
      assert x + suf == x;
    }
  }

  /** A string ending in the separator's first character and otherwise free of
      it holds no separator of two or more characters. */
  lemma {:induction false} SplitOnTail(a: string, sep: string)
    requires |sep| >= 2 && sep[0] !in a
    ensures SplitOn(a + [sep[0]], sep) == [a + [sep[0]]]
  {
    var s := a + [sep[0]];
    if a == [] {
      assert s == [sep[0]] && s[1..] == [];
      assert SplitOn(s[1..], sep) == [[]];
      assert [s[0]] + [] == s;
    } else {
      assert s[0] == a[0] != sep[0];
      assert s[1..] == a[1..] + [sep[0]];
      SplitOnTail(a[1..], sep);
      assert [s[0]] + (a[1..] + [sep[0]]) == s;
    }
  }

  /** The split of a written line: the first piece keeps the opening bracket
      and the last the closing one. */
  function Framed(p: string, ts: seq<string>): seq<string>
    requires ts != []
    decreases |ts|
  {
    if |ts| == 1 then [p + ts[0] + ")"] else [p + ts[0]] + Framed("", ts[1..])
  }

  lemma {:induction false} SplitFormatted(p: string, ts: seq<string>)
    requires ts != [] && ')' !in p && forall t :: t in ts ==> ')' !in t
    ensures SplitOn(p + Join(ts, "),(") + ")", "),(") == Framed(p, ts)
    decreases |ts|
  {
    var sep := "),(";
    if |ts| == 1 {
      assert p + Join(ts, sep) + ")" == (p + ts[0]) + [sep[0]];
      SplitOnTail(p + ts[0], sep);
    } else {
      var b := Join(ts[1..], sep) + ")";
      assert p + Join(ts, sep) + ")" == (p + ts[0]) + sep + b;
      SplitOnAt(p + ts[0], b, sep);
      SplitFormatted("", ts[1..]);
      assert "" + Join(ts[1..], sep) + ")" == b;
    }
  }

  /** The splitting reading of a written line: its pieces are the triples,
      the first with the opening bracket and the last with the closing one. */
  lemma PiecesFormatted(ts: seq<string>)
    requires ts != []
    requires forall t :: t in ts ==> forall c :: c in t ==> c !in Parens && c != ' ' && c != '\t'
    ensures Pieces("(" + Join(ts, "),(") + ")") == Framed("(", ts)
  {
    var line := "(" + Join(ts, "),(") + ")";
    JoinFree(ts, "),(", ' ');
    JoinFree(ts, "),(", '\t');
    assert RemoveAll(RemoveAll(line, ' '), '\t') == line;
    forall t | t in ts ensures ')' !in t {
      assert ')' in Parens;
    }
    SplitFormatted("(", ts);
  }

  /** A character in none of the parts nor the separator is not in the join. */
  lemma {:induction false} JoinFree(ts: seq<string>, sep: string, c: char)
    requires c !in sep && forall t :: t in ts ==> c !in t
    ensures c !in Join(ts, sep)
  {
    if |ts| > 1 {
      JoinFree(ts[1..], sep, c);
      assert ts[0] in ts;
    } else if |ts| == 1 {
      assert ts[0] in ts;
    }
  }

  /** Piece `i` of a written line is triple `i` with the brackets the line
      adds around it, if any. */
  lemma {:induction false} FramedAt(p: string, ts: seq<string>, i: nat)
    requires i < |ts|
    ensures |Framed(p, ts)| == |ts|
    ensures Framed(p, ts)[i] == (if i == 0 then p else "") + ts[i] + (if i == |ts| - 1 then ")" else "")
    decreases |ts|
  {
    if |ts| > 1 {
      FramedAt("", ts[1..], if i == 0 then 0 else i - 1);
      if i > 0 {
        assert ts[1..][i - 1] == ts[i];
      }
    }
  }

  /** `strip('()')` takes each piece of a written line back to its triple. */
  lemma StripPiece(ts: seq<string>, i: nat)
    requires i < |ts| && |ts[i]| > 0 && forall c :: c in ts[i] ==> c !in Parens
    ensures |Framed("(", ts)| == |ts|
    ensures Strip(Framed("(", ts)[i], Parens) == ts[i]
  {
    FramedAt("(", ts, i);
    StripOne(if i == 0 then "(" else "", ts[i], if i == |ts| - 1 then ")" else "");
  }

  lemma StripOne(p: string, t: string, q: string)
    requires (p == "" || p == "(") && (q == "" || q == ")")
    requires |t| > 0 && forall c :: c in t ==> c !in Parens
    ensures Strip(p + t + q, Parens) == t
  {
    assert t[0] in t && t[|t| - 1] in t;
    StripFramed(p, t, q, Parens);
  }

  /** Every triple of plain names is free of brackets, spaces, tabs and newlines. */
  lemma TripleFree(a: Arc)
    requires Plain(a.src) && Plain(a.dst)
    ensures |Triple(a)| > 0
    ensures forall c :: c in Triple(a) ==> c !in Parens && c != ' ' && c != '\t' && c != '\n'
  {
    var n := IntToString(a.ord);
    IntToStringChars(a.ord);
    forall c | c in Triple(a) ensures c !in Parens && c != ' ' && c != '\t' && c != '\n' {
      if c in a.src { assert c !in Reserved; }
      else if c in a.dst { assert c !in Reserved; }
    }
  }

  /** Every triple of arcs with plain names is non-empty and free of
      brackets, spaces, tabs and newlines. */
  lemma TriplesFree(row: seq<Arc>)
    requires PlainArcs(row)
    ensures forall t :: t in Triples(row) ==>
              |t| > 0 && forall c :: c in t ==> c !in Parens && c != ' ' && c != '\t' && c != '\n'
  {
    var ts := Triples(row);
    forall t | t in ts
      ensures |t| > 0 && forall c :: c in t ==> c !in Parens && c != ' ' && c != '\t' && c != '\n'
    {
      var i :| 0 <= i < |ts| && ts[i] == t;
      TripleFree(row[i]);
    }
  }

  lemma IntToStringChars(i: int)
    ensures forall c :: c in IntToString(i) ==> c == '-' || IsDigit(c)
  {
    var d := NatToString(if i < 0 then -i else i);
    assert forall c :: c in d ==> IsDigit(c);
  }

  /** Splitting a triple on commas gives its three fields back. */
  lemma TripleFields(a: Arc)
    requires Plain(a.src) && Plain(a.dst)
    ensures Split(Triple(a), ',') == [a.src, a.dst, IntToString(a.ord)]
  {
    var fs := [a.src, a.dst, IntToString(a.ord)];
    IntToStringChars(a.ord);
    assert ',' !in a.src by { assert ',' in Reserved; }
    assert ',' !in a.dst by { assert ',' in Reserved; }
    forall p | p in fs ensures ',' !in p {}
    assert Join(fs, ",") == Triple(a) by {
      assert fs[1..] == [a.dst, IntToString(a.ord)];
      assert fs[1..][1..] == [IntToString(a.ord)];
      assert Join(fs[1..], ",") == a.dst + "," + IntToString(a.ord);
    }
    SplitJoin(fs, ',');
  }
}

=== FILE: cycles.dfy ===
/** `has_cycle` (nntask3.py and nntask2.py hold the same code): depth-first
    search with a `visited` set kept across the whole search and a recursion
    stack holding the vertices of the current path. */
module Cycles {
  import opened Graphs

  /** What the search leaves behind: whether it met a vertex already on the
      recursion stack, the `visited` set, and the vertices it expanded, in the
      order it expanded them. */
  datatype Search = Search(found: bool, visited: set<string>, expanded: seq<string>)

  /** Inner `dfs(vertex)`. A vertex on the stack closes a cycle; a visited one
      is pruned; any other is marked and expanded. A vertex is expanded only
      when it enters `visited`, so the expansions are distinct and are exactly
      the vertices that entered `visited`. */
  function Dfs(g: Graph, v: string, visited: set<string>, stack: set<string>): (r: Search)
    requires v in Nodes(g) && visited <= Nodes(g) && stack <= visited
    ensures visited <= r.visited <= Nodes(g)
    ensures Distinct(r.expanded) && Elems(r.expanded) == r.visited - visited
    ensures !r.found ==> v in r.visited
    decreases Nodes(g) - visited, 0, 0
  {
    if v in stack then Search(true, visited, [])
    else if v in visited then Search(false, visited, [])
    else
      var e := Expand(g, v, 0, visited + {v}, stack + {v});
      ElemsConcat([v], e.expanded);
      DistinctConcat([v], e.expanded);
      Search(e.found, e.visited, [v] + e.expanded)
  }

  /** The loop `for arc in graph["arcs"]` of `dfs(v)`, from position `i`:
      follows every arc leaving `v`, stopping at the first cycle. */
  function Expand(g: Graph, v: string, i: nat, visited: set<string>, stack: set<string>): (r: Search)
    requires i <= |g.arcs| && v in stack && stack <= visited <= Nodes(g)
    ensures visited <= r.visited <= Nodes(g)
    ensures Distinct(r.expanded) && Elems(r.expanded) == r.visited - visited
    decreases Nodes(g) - visited, 1, |g.arcs| - i
  {
    if i == |g.arcs| then Search(false, visited, [])
    else if g.arcs[i].src != v then Expand(g, v, i + 1, visited, stack)
    else
      var d := Dfs(g, g.arcs[i].dst, visited, stack);
      if d.found then d
      else
        var e := Expand(g, v, i + 1, d.visited, stack);
        ElemsConcat(d.expanded, e.expanded);
        DistinctConcat(d.expanded, e.expanded);
        Search(e.found, e.visited, d.expanded + e.expanded)
  }

  /** The outer loop of `has_cycle` over the vertices, in the order `order`
      in which the vertex set happens to be iterated. */
  function SearchFrom(g: Graph, order: seq<string>, visited: set<string>): (r: Search)
    requires forall v :: v in order ==> v in Nodes(g)
    requires visited <= Nodes(g)
    ensures visited <= r.visited <= Nodes(g)
    ensures Distinct(r.expanded) && Elems(r.expanded) == r.visited - visited
    ensures !r.found ==> forall v :: v in order ==> v in r.visited
  {
    if order == [] then Search(false, visited, [])
    else
      var d := Dfs(g, order[0], visited, {});
      if d.found then d
      else
        var e := SearchFrom(g, order[1..], d.visited);
        ElemsConcat(d.expanded, e.expanded);
        DistinctConcat(d.expanded, e.expanded);
        Search(e.found, e.visited, d.expanded + e.expanded)
  }

  /** `has_cycle(graph)`: the whole search, starting from empty sets. Every
      vertex is expanded at most once; when no cycle is reported, every vertex
      of `order` has been expanded exactly once. */
  function CycleSearch(g: Graph, order: seq<string>): (r: Search)
    requires forall v :: v in order ==> v in g.vertices
    ensures Distinct(r.expanded) && Elems(r.expanded) <= Nodes(g)
    ensures !r.found ==> forall v :: v in order ==> v in r.expanded
  {
    var r := SearchFrom(g, order, {});
    assert Elems(r.expanded) == r.visited;
    r
  }

  function HasCycle(g: Graph, order: seq<string>): bool
    requires forall v :: v in order ==> v in g.vertices
  {
    CycleSearch(g, order).found
  }

  // ---------------------------------------------------------------------------
  // Soundness: a reported cycle exists.

  lemma {:induction false} DfsSound(g: Graph, v: string, visited: set<string>, stack: set<string>, path: seq<string>)
    requires v in Nodes(g) && visited <= Nodes(g) && stack <= visited
    requires IsPath(g, path + [v]) && stack <= Elems(path)
    ensures Dfs(g, v, visited, stack).found ==> Cyclic(g)
    decreases Nodes(g) - visited, 0, 0
  {
    var p := path + [v];
    if v in stack {
      var j :| 0 <= j < |path| && path[j] == v;
      PathSlice(g, p, j, |p|);
      assert IsCycle(g, p[j..]);
    } else if v !in visited {
      ExpandSound(g, v, 0, visited + {v}, stack + {v}, p);
    }
  }

  lemma {:induction false} ExpandSound(g: Graph, v: string, i: nat, visited: set<string>, stack: set<string>, path: seq<string>)
    requires i <= |g.arcs| && v in stack && stack <= visited <= Nodes(g)
    requires IsPath(g, path) && path[|path| - 1] == v && stack <= Elems(path)
    ensures Expand(g, v, i, visited, stack).found ==> Cyclic(g)
    decreases Nodes(g) - visited, 1, |g.arcs| - i
  {
    if i < |g.arcs| {
      var a := g.arcs[i];
      if a.src != v {
        ExpandSound(g, v, i + 1, visited, stack, path);
      } else {
        assert Edge(g, v, a.dst);
        PathExtend(g, path, a.dst);
        DfsSound(g, a.dst, visited, stack, path);
        var d := Dfs(g, a.dst, visited, stack);
        if !d.found {
          ExpandSound(g, v, i + 1, d.visited, stack, path);
        }
      }
    }
  }

  lemma {:induction false} SearchFromSound(g: Graph, order: seq<string>, visited: set<string>)
    requires forall v :: v in order ==> v in Nodes(g)
    requires visited <= Nodes(g)
    ensures SearchFrom(g, order, visited).found ==> Cyclic(g)
  {
    if order != [] {
      assert [] + [order[0]] == [order[0]];
      DfsSound(g, order[0], visited, {}, []);
      var d := Dfs(g, order[0], visited, {});
      if !d.found {
        SearchFromSound(g, order[1..], d.visited);
      }
    }
  }

  // ---------------------------------------------------------------------------
  // Completeness: when no cycle is reported, none exists.

  /** The fully explored ("black") vertices: no arc leaves them, and none of
      them lies on a cycle. */
  ghost predicate Settled(g: Graph, b: set<string>) {
    Closed(g, b) && forall x :: x in b ==> !OnCycle(g, x)
  }

  /** A vertex all of whose successors are settled, and which is not itself
      among them, lies on no cycle. */
  lemma OffCycle(g: Graph, b: set<string>, v: string)
    requires Settled(g, b) && v !in b
    requires forall a :: a in g.arcs && a.src == v ==> a.dst in b
    ensures !OnCycle(g, v)
  {
    if p :| IsCycle(g, p) && p[0] == v {
      assert Edge(g, p[0], p[1]);
      PathSlice(g, p, 1, |p|);
      assert p[|p| - 1] == p[1..][|p| - 2];
      PathStaysIn(g, b, p[1..]);
      assert false;
    }
  }

  lemma {:induction false} DfsComplete(g: Graph, v: string, visited: set<string>, stack: set<string>)
    requires v in Nodes(g) && visited <= Nodes(g) && stack <= visited
    requires Settled(g, visited - stack)
    ensures var r := Dfs(g, v, visited, stack);
            !r.found ==> Settled(g, r.visited - stack) && v in r.visited - stack
    decreases Nodes(g) - visited, 0, 0
  {
    if v !in stack && v !in visited {
      var s' := stack + {v};
      assert (visited + {v}) - s' == visited - stack;
      ExpandComplete(g, v, 0, visited + {v}, s');
      var e := Expand(g, v, 0, visited + {v}, s');
      if !e.found {
        var b' := e.visited - s';
        forall a | a in g.arcs && a.src == v ensures a.dst in b' {
          var j :| 0 <= j < |g.arcs| && g.arcs[j] == a;
        }
        OffCycle(g, b', v);
        assert e.visited - stack == b' + {v};
      }
    }
  }

  lemma {:induction false} ExpandComplete(g: Graph, v: string, i: nat, visited: set<string>, stack: set<string>)
    requires i <= |g.arcs| && v in stack && stack <= visited <= Nodes(g)
    requires Settled(g, visited - stack)
    ensures var r := Expand(g, v, i, visited, stack);
            !r.found ==> Settled(g, r.visited - stack)
                         && forall j :: i <= j < |g.arcs| && g.arcs[j].src == v ==> g.arcs[j].dst in r.visited - stack
    decreases Nodes(g) - visited, 1, |g.arcs| - i
  {
    if i < |g.arcs| {
      if g.arcs[i].src != v {
        ExpandComplete(g, v, i + 1, visited, stack);
      } else {
        DfsComplete(g, g.arcs[i].dst, visited, stack);
        var d := Dfs(g, g.arcs[i].dst, visited, stack);
        if !d.found {
          ExpandComplete(g, v, i + 1, d.visited, stack);
        }
      }
    }
  }

  lemma {:induction false} SearchFromComplete(g: Graph, order: seq<string>, visited: set<string>)
    requires forall v :: v in order ==> v in Nodes(g)
    requires visited <= Nodes(g)
    requires Settled(g, visited)
    ensures var r := SearchFrom(g, order, visited);
            !r.found ==> Settled(g, r.visited)
  {
    if order != [] {
      assert visited - {} == visited;
      DfsComplete(g, order[0], visited, {});
      var d := Dfs(g, order[0], visited, {});
      if !d.found {
        assert d.visited - {} == d.visited;
        SearchFromComplete(g, order[1..], d.visited);
      }
    }
  }

  /** A cycle starts at a vertex that a settled set cannot contain. */
  lemma CycleOutside(g: Graph, b: set<string>, p: seq<string>)
    requires Settled(g, b) && IsCycle(g, p)
    ensures p[0] !in b
  {
    assert OnCycle(g, p[0]);
  }

  /** `has_cycle` answers true exactly when the arc relation has a directed
      cycle, whatever order the vertex set is iterated in. */
  lemma HasCycleCorrect(g: Graph, order: seq<string>)
    requires WellFormed(g)
    requires forall v :: v in order <==> v in g.vertices
    ensures HasCycle(g, order) <==> Cyclic(g)
  {
    SearchFromSound(g, order, {});
    SearchFromComplete(g, order, {});
    var r := SearchFrom(g, order, {});
    if !r.found && Cyclic(g) {
      var p :| IsCycle(g, p);
      assert Edge(g, p[0], p[1]);
      CycleOutside(g, r.visited, p);
      assert false;
    }
  }
}

=== FILE: evaluate.dfy ===
/** `evaluate_function` of nntask3.py: each vertex's operation is applied to
    the values of its children, taken in the order of their arc ordinals;
    values are memoized; the result is the sum of the values of the vertices
    the outer loop had to compute itself. Values are exact reals and the
    exponential is a parameter, so floating-point rounding is not modelled. */
module Evaluate {
  import opened Wrappers
  import opened Numerals
  import opened Graphs
  import opened StrOrder
  import opened Sorting
  import opened Operations

  /** The three `ValueError`s `compute_vertex` raises. */
  datatype EvalError =
    | Missing(vertex: string)                 // no operation for the vertex
    | ExpArity(vertex: string, count: nat)    // `exp` with other than one argument
    | Unknown(vertex: string, op: string)     // an operation it does not know

  /** What evaluation works on: the graph, the operation table and the
      function standing for `2.718281828459045 ** x`. */
  datatype Env = Env(g: Graph, ops: map<string, string>, exp: real -> real)

  /** The evaluator is only run on well-formed graphs that `has_cycle`
      found acyclic. */
  ghost predicate Ready(env: Env) {
    WellFormed(env.g) && !Cyclic(env.g)
  }

  /** `children_dict[v]` sorted by ordinal: the arcs leaving `v`, with equal
      ordinals kept in reading order. */
  function ChildArcs(g: Graph, v: string): (r: seq<Arc>)
    ensures SortedBy(ByOrdinal, r) && multiset(r) == multiset(ArcsFrom(g.arcs, v))
  {
    Sort(ByOrdinal, ArcsFrom(g.arcs, v))
  }

  function Targets(arcs: seq<Arc>): (r: seq<string>)
    ensures |r| == |arcs| && forall i :: 0 <= i < |r| ==> r[i] == arcs[i].dst
  {
    if arcs == [] then [] else [arcs[0].dst] + Targets(arcs[1..])
  }

  /** The children of `v`, one per arc leaving it, in argument order. */
  function Kids(g: Graph, v: string): (r: seq<string>)
    ensures |r| == |ArcsFrom(g.arcs, v)|
    ensures forall w :: w in r <==> Edge(g, v, w)
  {
    var arcs := ChildArcs(g, v);
    var r := Targets(arcs);
    assert forall w :: w in r <==> Edge(g, v, w) by {
      forall w ensures w in r <==> Edge(g, v, w) {
        if w in r {
          var i :| 0 <= i < |r| && r[i] == w;
          assert arcs[i] in multiset(arcs);
        }
        if Edge(g, v, w) {
          var a :| a in g.arcs && a.src == v && a.dst == w;
          assert a in multiset(arcs);
          var i :| 0 <= i < |arcs| && arcs[i] == a;
          assert r[i] == w;
        }
      }
    }
    r
  }

  lemma KidsAreVertices(g: Graph, v: string)
    requires WellFormed(g)
    ensures forall w :: w in Kids(g, v) ==> w in g.vertices
  {
  }

  /** `compute_vertex(v)` goes on to the children: `v` has an operation
      that is not a literal. */
  predicate Expands(env: Env, v: string) {
    v in env.ops && !IsLiteral(env.ops[v])
  }

  /** A walk whose every vertex but the last expands: the chain of calls
      `compute_vertex` can make. */
  ghost predicate IsEvalPath(env: Env, p: seq<string>) {
    IsPath(env.g, p) && forall i :: 0 <= i < |p| - 1 ==> Expands(env, p[i])
  }

  /** The vertices `compute_vertex(v)` can reach. */
  ghost function Reach(env: Env, v: string): (r: set<string>)
    requires v in Nodes(env.g)
    ensures v in r && r <= Nodes(env.g)
  {
    assert IsEvalPath(env, [v]);
    set w | w in Nodes(env.g) && exists p {:trigger IsEvalPath(env, p)} :: IsEvalPath(env, p) && p[0] == v && p[|p| - 1] == w
  }

  /** A walk back from a child to its parent closes a cycle. */
  lemma BackToParent(g: Graph, v: string, w: string, p: seq<string>)
    requires Edge(g, v, w) && IsPath(g, p) && p[0] == w && p[|p| - 1] == v
    ensures Cyclic(g)
  {
    PathPrepend(g, v, p);
    assert IsCycle(g, [v] + p);
  }

  /** A child of an expanding vertex reaches less than its parent does, unless
      the graph has a cycle. */
  lemma ReachStep(env: Env, v: string, w: string)
    requires WellFormed(env.g) && v in env.g.vertices && Expands(env, v) && Edge(env.g, v, w)
    ensures w in env.g.vertices
    ensures Reach(env, w) <= Reach(env, v)
    ensures Cyclic(env.g) || v !in Reach(env, w)
  {
    var g := env.g;
    forall x | x in Reach(env, w) ensures x in Reach(env, v) {
      var p :| IsEvalPath(env, p) && p[0] == w && p[|p| - 1] == x;
      PathPrepend(g, v, p);
      var q := [v] + p;
      assert IsEvalPath(env, q) by {
        forall i | 0 <= i < |q| - 1 ensures Expands(env, q[i]) {
          if i > 0 { assert q[i] == p[i - 1]; }
        }
      }
    }
    if v in Reach(env, w) {
      var p :| IsEvalPath(env, p) && p[0] == w && p[|p| - 1] == v;
      BackToParent(g, v, w, p);
    }
  }

  /** A memo table `m2` that keeps every entry of `m`. */
  predicate Extends(m: map<string, real>, m2: map<string, real>) {
    forall k :: k in m ==> k in m2 && m2[k] == m[k]
  }

  /** Two runs of computation one after the other: the second starts from the
      memo table the first left. */
  lemma Chain(m0: map<string, real>, m1: map<string, real>, t1: seq<string>,
              m2: map<string, real>, t2: seq<string>, bound: set<string>)
    requires Extends(m0, m1) && Extends(m1, m2)
    requires m1.Keys <= m0.Keys + bound && m2.Keys <= m1.Keys + bound
    requires Distinct(t1) && Elems(t1) == m1.Keys - m0.Keys
    requires Distinct(t2) && Elems(t2) == m2.Keys - m1.Keys
    ensures Extends(m0, m2) && m2.Keys <= m0.Keys + bound
    ensures Distinct(t1 + t2) && Elems(t1 + t2) == m2.Keys - m0.Keys
  {
    ElemsConcat(t1, t2);
    DistinctConcat(t1, t2);
  }

  /** The outcome of `compute_vertex`: the value, the memo table `values`
      afterwards, and the vertices whose value it stored, in order. */
  datatype Done = Done(value: real, memo: map<string, real>, trace: seq<string>)

  /** The outcome of computing a run of children. */
  datatype Batch = Batch(values: seq<real>, memo: map<string, real>, trace: seq<string>)

  /** Python's `sum(xs)`: left to right from 0. */
  function Sum(xs: seq<real>): (r: real)
    ensures xs == [] ==> r == 0.0
  {
    if xs == [] then 0.0 else Sum(xs[..|xs| - 1]) + xs[|xs| - 1]
  }

  /** `result = 1; for val in xs: result *= val`. */
  function Product(xs: seq<real>): (r: real)
    ensures xs == [] ==> r == 1.0
  {
    if xs == [] then 1.0 else Product(xs[..|xs| - 1]) * xs[|xs| - 1]
  }

  /** The operation step of `compute_vertex` once the children's values are
      known (nntask3.py:125-136). */
  function Apply(env: Env, v: string, op: string, xs: seq<real>): (r: Result<real, EvalError>)
    ensures r.Failure? <==> !(op == "+" || op == "*" || (op == "exp" && |xs| == 1))
    ensures r.Failure? ==> r.error == (if op == "exp" then ExpArity(v, |xs|) else Unknown(v, op))
  {
    if op == "+" then Success(Sum(xs))
    else if op == "*" then Success(Product(xs))
    else if op == "exp" then
      if |xs| != 1 then Failure(ExpArity(v, |xs|)) else Success(env.exp(xs[0]))
    else Failure(Unknown(v, op))
  }

  /** `compute_vertex(v)` with memo table `memo`. A memoized vertex returns
      its stored value; a vertex without an operation fails; a literal is its
      own value whatever its children; otherwise the children are computed in
      argument order, stopping at the first error, and only then is the
      operation looked at. The vertices newly stored are each stored once,
      all reachable from `v`, and `v` is among them unless it was memoized. */
  function Compute(env: Env, v: string, memo: map<string, real>): (r: Result<Done, EvalError>)
    requires Ready(env) && v in env.g.vertices && memo.Keys <= env.g.vertices
    ensures r.Success? ==> Extends(memo, r.value.memo)
    ensures r.Success? ==> v in r.value.memo && r.value.memo[v] == r.value.value
    ensures r.Success? ==> r.value.memo.Keys <= env.g.vertices
    ensures r.Success? ==> r.value.memo.Keys <= memo.Keys + Reach(env, v)
    ensures r.Success? ==> Distinct(r.value.trace) && Elems(r.value.trace) == r.value.memo.Keys - memo.Keys
    decreases Reach(env, v), 1, 0
  {
    if v in memo then Success(Done(memo[v], memo, []))
    else if v !in env.ops then Failure(Missing(v))
    else
      var op := env.ops[v];
      if IsLiteral(op) then Success(Done(DecimalValue(op), memo[v := DecimalValue(op)], [v]))
      else
        var b :- ComputeAll(env, v, Kids(env.g, v), 0, memo);
        var x :- Apply(env, v, op, b.values);
        ElemsConcat(b.trace, [v]);
        DistinctConcat(b.trace, [v]);
        Success(Done(x, b.memo[v := x], b.trace + [v]))
  }

  /** `[compute_vertex(c) for c in children]` from position `i`. The new
      entries are reachable from the parent `v` but never `v` itself. */
  function ComputeAll(env: Env, v: string, kids: seq<string>, i: nat, memo: map<string, real>)
    : (r: Result<Batch, EvalError>)
    requires Ready(env) && v in env.g.vertices && Expands(env, v) && kids == Kids(env.g, v) && i <= |kids|
    requires memo.Keys <= env.g.vertices
    ensures r.Success? ==> |r.value.values| == |kids| - i
    ensures r.Success? ==> Extends(memo, r.value.memo)
    ensures r.Success? ==> r.value.memo.Keys <= env.g.vertices
    ensures r.Success? ==> r.value.memo.Keys <= memo.Keys + (Reach(env, v) - {v})
    ensures r.Success? ==> Distinct(r.value.trace) && Elems(r.value.trace) == r.value.memo.Keys - memo.Keys
    decreases Reach(env, v), 0, |kids| - i
  {
    if i == |kids| then Success(Batch([], memo, []))
    else
      assert kids[i] in kids;
      ReachStep(env, v, kids[i]);
      var d :- Compute(env, kids[i], memo);
      var rest :- ComputeAll(env, v, kids, i + 1, d.memo);
      Chain(memo, d.memo, d.trace, rest.memo, rest.trace, Reach(env, v) - {v});
      Success(Batch([d.value] + rest.values, rest.memo, d.trace + rest.trace))
  }

  /** An error `compute_vertex` is right to raise: the vertex has no
      operation, or has `exp` with other than one child, or has an operation
      that is neither a literal nor one of the three operators. */
  predicate Faulty(env: Env, e: EvalError) {
    match e
    case Missing(u) => u !in env.ops
    case ExpArity(u, n) => u in env.ops && env.ops[u] == "exp" && n == |ArcsFrom(env.g.arcs, u)| && n != 1
    case Unknown(u, op) => u in env.ops && env.ops[u] == op && !IsLiteral(op) && !IsOperator(op)
  }

  /** The value of `v` by plain structural recursion, with no memo table: the
      reference `Compute` is measured against. An error is always a genuine
      fault of a vertex the evaluation of `v` reaches. */
  function Denote(env: Env, v: string): (r: Result<real, EvalError>)
    requires Ready(env) && v in env.g.vertices
    ensures r.Failure? ==> Faulty(env, r.error) && r.error.vertex in Reach(env, v)
    decreases Reach(env, v), 1, 0
  {
    if v !in env.ops then Failure(Missing(v))
    else if IsLiteral(env.ops[v]) then Success(DecimalValue(env.ops[v]))
    else
      var xs :- DenoteAll(env, v, Kids(env.g, v), 0);
      Apply(env, v, env.ops[v], xs)
  }

  /** The values of the children of `v` from position `i`, stopping at the
      first error. */
  function DenoteAll(env: Env, v: string, kids: seq<string>, i: nat): (r: Result<seq<real>, EvalError>)
    requires Ready(env) && v in env.g.vertices && Expands(env, v) && kids == Kids(env.g, v) && i <= |kids|
    ensures r.Success? ==> |r.value| == |kids| - i
    ensures r.Failure? ==> Faulty(env, r.error) && r.error.vertex in Reach(env, v)
    decreases Reach(env, v), 0, |kids| - i
  {
    if i == |kids| then Success([])
    else
      assert kids[i] in kids;
      ReachStep(env, v, kids[i]);
      var x :- Denote(env, kids[i]);
      var rest :- DenoteAll(env, v, kids, i + 1);
      Success([x] + rest)
  }

  /** Every entry of the memo table holds the vertex's reference value. */
  ghost predicate MemoSound(env: Env, memo: map<string, real>)
    requires Ready(env)
  {
    forall k :: k in memo ==> k in env.g.vertices && Denote(env, k) == Success(memo[k])
  }

  /** Memoization changes nothing: from a sound memo table, `Compute` returns
      the reference value or the reference error, and leaves the table sound. */
  lemma {:induction false} ComputeAgrees(env: Env, v: string, memo: map<string, real>)
    requires Ready(env) && v in env.g.vertices && MemoSound(env, memo)
    ensures var r := Compute(env, v, memo);
            && (r.Success? ==> Denote(env, v) == Success(r.value.value) && MemoSound(env, r.value.memo))
            && (r.Failure? ==> Denote(env, v) == Failure(r.error))
    decreases Reach(env, v), 2, 0
  {
    var r := Compute(env, v, memo);
    if v in memo {
      assert r == Success(Done(memo[v], memo, []));
    } else if v !in env.ops {
      assert r == Failure(Missing(v));
    } else if IsLiteral(env.ops[v]) {
      var x := DecimalValue(env.ops[v]);
      assert r == Success(Done(x, memo[v := x], [v]));
      assert Denote(env, v) == Success(x);
    } else {
      OperationAgrees(env, v, memo);
    }
  }

  /** `ComputeAgrees` for a vertex computed from its children. */
  lemma {:induction false} OperationAgrees(env: Env, v: string, memo: map<string, real>)
    requires Ready(env) && v in env.g.vertices && MemoSound(env, memo)
    requires v !in memo && v in env.ops && !IsLiteral(env.ops[v])
    ensures var r := Compute(env, v, memo);
            && (r.Success? ==> Denote(env, v) == Success(r.value.value) && MemoSound(env, r.value.memo))
            && (r.Failure? ==> Denote(env, v) == Failure(r.error))
    decreases Reach(env, v), 1, 0
  {
    var r := Compute(env, v, memo);
    var op := env.ops[v];
    var kids := Kids(env.g, v);
    ComputeAllAgrees(env, v, kids, 0, memo);
    var b := ComputeAll(env, v, kids, 0, memo);
    if b.Success? {
      var a := Apply(env, v, op, b.value.values);
      assert Denote(env, v) == a;
      if a.Success? {
        var m := b.value.memo[v := a.value];
        assert r.Success? && r.value.value == a.value && r.value.memo == m;
        forall k | k in m ensures k in env.g.vertices && Denote(env, k) == Success(m[k]) {
          if k != v {
            assert k in b.value.memo;
          }
        }
      }
    }
  }

  lemma {:induction false} ComputeAllAgrees(env: Env, v: string, kids: seq<string>, i: nat, memo: map<string, real>)
    requires Ready(env) && v in env.g.vertices && Expands(env, v) && kids == Kids(env.g, v) && i <= |kids|
    requires MemoSound(env, memo)
    ensures var r := ComputeAll(env, v, kids, i, memo);
            && (r.Success? ==> DenoteAll(env, v, kids, i) == Success(r.value.values) && MemoSound(env, r.value.memo))
            && (r.Failure? ==> DenoteAll(env, v, kids, i) == Failure(r.error))
    decreases Reach(env, v), 0, |kids| - i
  {
    if i < |kids| {
      var w := kids[i];
      assert w in kids;
      ReachStep(env, v, w);
      var d := Compute(env, w, memo);
      assert && (d.Success? ==> Denote(env, w) == Success(d.value.value) && MemoSound(env, d.value.memo))
             && (d.Failure? ==> Denote(env, w) == Failure(d.error)) by {
        ComputeAgrees(env, w, memo);
      }
      if d.Success? {
        ComputeAllAgrees(env, v, kids, i + 1, d.value.memo);
      }
    }
  }

  /** The vertices reachable from any of `ws`. */
  ghost function ReachAll(env: Env, ws: seq<string>): (r: set<string>)
    requires forall w :: w in ws ==> w in Nodes(env.g)
    ensures forall w :: w in ws ==> Reach(env, w) <= r
  {
    if ws == [] then {} else Reach(env, ws[0]) + ReachAll(env, ws[1..])
  }

  lemma {:induction false} ReachAllFrom(env: Env, ws: seq<string>, x: string) returns (w: string)
    requires forall w :: w in ws ==> w in Nodes(env.g)
    requires x in ReachAll(env, ws)
    ensures w in ws && x in Reach(env, w)
  {
    if x in Reach(env, ws[0]) {
      w := ws[0];
    } else {
      w := ReachAllFrom(env, ws[1..], x);
    }
  }

  /** Only an expanding vertex reaches anything besides itself. */
  lemma ReachOnlySelf(env: Env, v: string, x: string)
    requires v in Nodes(env.g) && x in Reach(env, v)
    ensures x == v || Expands(env, v)
  {
    var p :| IsEvalPath(env, p) && p[0] == v && p[|p| - 1] == x;
    if |p| > 1 {
      assert Expands(env, p[0]);
    }
  }

  /** Whatever an expanding vertex reaches besides itself, one of its
      children reaches. */
  lemma ReachDown(env: Env, v: string, x: string) returns (w: string)
    requires WellFormed(env.g) && v in env.g.vertices && x in Reach(env, v) && x != v
    ensures Edge(env.g, v, w) && w in env.g.vertices && x in Reach(env, w)
  {
    var p :| IsEvalPath(env, p) && p[0] == v && p[|p| - 1] == x;
    assert |p| > 1 && Edge(env.g, p[0], p[1]);
    w := p[1];
    PathSlice(env.g, p, 1, |p|);
    var q := p[1..];
    assert IsEvalPath(env, q) by {
      forall i | 0 <= i < |q| - 1 ensures Expands(env, q[i]) {
        assert q[i] == p[i + 1];
      }
    }
  }

  lemma ReachBelow(env: Env, v: string)
    requires WellFormed(env.g) && v in env.g.vertices && Expands(env, v)
    ensures forall w :: w in Kids(env.g, v) ==> w in Nodes(env.g)
    ensures Reach(env, v) <= {v} + ReachAll(env, Kids(env.g, v))
  {
    var kids := Kids(env.g, v);
    forall w | w in kids ensures w in Nodes(env.g) {
      ReachStep(env, v, w);
    }
    forall x | x in Reach(env, v) && x != v ensures x in ReachAll(env, kids) {
      var w := ReachDown(env, v, x);
      assert w in kids;
    }
  }

  lemma ReachAbove(env: Env, v: string)
    requires WellFormed(env.g) && v in env.g.vertices && Expands(env, v)
    ensures forall w :: w in Kids(env.g, v) ==> w in Nodes(env.g)
    ensures ReachAll(env, Kids(env.g, v)) <= Reach(env, v)
  {
    var kids := Kids(env.g, v);
    forall w | w in kids ensures w in Nodes(env.g) && Reach(env, w) <= Reach(env, v) {
      ReachStep(env, v, w);
    }
    forall x | x in ReachAll(env, kids) ensures x in Reach(env, v) {
      var w := ReachAllFrom(env, kids, x);
    }
  }

  /** What `compute_vertex(v)` reaches: `v` itself, and, when `v` expands,
      whatever its children reach. */
  lemma ReachUnfold(env: Env, v: string)
    requires WellFormed(env.g) && v in env.g.vertices
    ensures Expands(env, v) ==> Reach(env, v) == {v} + ReachAll(env, Kids(env.g, v))
    ensures !Expands(env, v) ==> Reach(env, v) == {v}
  {
    if Expands(env, v) {
      ReachBelow(env, v);
      ReachAbove(env, v);
    } else {
      forall x | x in Reach(env, v) ensures x == v {
        ReachOnlySelf(env, v, x);
      }
    }
  }

  /** Every memoized vertex has everything it reaches memoized too. */
  ghost predicate MemoClosed(env: Env, memo: map<string, real>)
    requires memo.Keys <= Nodes(env.g)
  {
    forall k :: k in memo ==> Reach(env, k) <= memo.Keys
  }

  /** From a closed memo table, a successful `Compute(v)` memoizes exactly
      what `v` reaches, and the table stays closed. */
  lemma {:induction false} ComputeCovers(env: Env, v: string, memo: map<string, real>)
    requires Ready(env) && v in env.g.vertices && memo.Keys <= env.g.vertices && MemoClosed(env, memo)
    ensures var r := Compute(env, v, memo);
            r.Success? ==> r.value.memo.Keys == memo.Keys + Reach(env, v) && MemoClosed(env, r.value.memo)
    decreases Reach(env, v), 1, 0, 0
  {
    var r := Compute(env, v, memo);
    ReachUnfold(env, v);
    if v in memo {
      assert r == Success(Done(memo[v], memo, []));
    } else if v !in env.ops {
    } else if IsLiteral(env.ops[v]) {
      var x := DecimalValue(env.ops[v]);
      var m := memo[v := x];
      assert r == Success(Done(x, m, [v]));
      forall k | k in m ensures Reach(env, k) <= m.Keys {
        if k != v { assert k in memo; }
      }
    } else {
      var kids := Kids(env.g, v);
      ComputeAllCovers(env, v, kids, 0, memo);
      assert kids[0..] == kids;
      var b := ComputeAll(env, v, kids, 0, memo);
      if b.Success? {
        var a := Apply(env, v, env.ops[v], b.value.values);
        if a.Success? {
          var m := b.value.memo[v := a.value];
          assert r == Success(Done(a.value, m, b.value.trace + [v]));
          forall k | k in m ensures Reach(env, k) <= m.Keys {
            if k != v { assert k in b.value.memo; }
          }
        }
      }
    }
  }

  lemma {:induction false} ComputeAllCovers(env: Env, v: string, kids: seq<string>, i: nat, memo: map<string, real>)
    requires Ready(env) && v in env.g.vertices && Expands(env, v) && kids == Kids(env.g, v) && i <= |kids|
    requires memo.Keys <= env.g.vertices && MemoClosed(env, memo)
    ensures forall w :: w in kids ==> w in Nodes(env.g)
    ensures var r := ComputeAll(env, v, kids, i, memo);
            r.Success? ==> r.value.memo.Keys == memo.Keys + ReachAll(env, kids[i..]) && MemoClosed(env, r.value.memo)
    decreases Reach(env, v), 0, |kids| - i, 1
  {
    KidsAreVertices(env.g, v);
    if i == |kids| {
      assert kids[i..] == [];
    } else {
      CoversStep(env, v, kids, i, memo);
    }
  }

  /** One child computed, then the children after it. */
  lemma {:induction false} CoversStep(env: Env, v: string, kids: seq<string>, i: nat, memo: map<string, real>)
    requires Ready(env) && v in env.g.vertices && Expands(env, v) && kids == Kids(env.g, v) && i < |kids|
    requires memo.Keys <= env.g.vertices && MemoClosed(env, memo)
    ensures forall w :: w in kids ==> w in Nodes(env.g)
    ensures var r := ComputeAll(env, v, kids, i, memo);
            r.Success? ==> r.value.memo.Keys == memo.Keys + ReachAll(env, kids[i..]) && MemoClosed(env, r.value.memo)
    decreases Reach(env, v), 0, |kids| - i, 0
  {
    KidsAreVertices(env.g, v);
    var w := kids[i];
    assert w in kids;
    ReachStep(env, v, w);
    var d := Compute(env, w, memo);
    assert d.Success? ==> d.value.memo.Keys == memo.Keys + Reach(env, w) && MemoClosed(env, d.value.memo) by {
      ComputeCovers(env, w, memo);
    }
    if d.Success? {
      var rest := ComputeAll(env, v, kids, i + 1, d.value.memo);
      assert rest.Success? ==>
               rest.value.memo.Keys == d.value.memo.Keys + ReachAll(env, kids[i + 1..])
               && MemoClosed(env, rest.value.memo) by {
        ComputeAllCovers(env, v, kids, i + 1, d.value.memo);
      }
      assert ReachAll(env, kids[i..]) == Reach(env, w) + ReachAll(env, kids[i + 1..]) by {
        ReachAllCons(env, kids, i);
      }
      assert var r := ComputeAll(env, v, kids, i, memo);
             r.Success? ==> rest.Success? && r.value.memo == rest.value.memo by {
        ComputeAllNext(env, v, kids, i, memo);
      }
      if rest.Success? {
        UnionChain(memo.Keys, Reach(env, w), ReachAll(env, kids[i + 1..]),
                   d.value.memo.Keys, rest.value.memo.Keys);
      }
    }
  }

  /** A successful batch from child `i` is child `i`'s success followed by
      a successful batch from child `i + 1`, ending with the latter's table. */
  lemma ComputeAllNext(env: Env, v: string, kids: seq<string>, i: nat, memo: map<string, real>)
    requires Ready(env) && v in env.g.vertices && Expands(env, v) && kids == Kids(env.g, v) && i < |kids|
    requires memo.Keys <= env.g.vertices && kids[i] in env.g.vertices
    ensures var r := ComputeAll(env, v, kids, i, memo);
            var d := Compute(env, kids[i], memo);
            r.Success? ==> && d.Success?
                           && var rest := ComputeAll(env, v, kids, i + 1, d.value.memo);
                              rest.Success? && r.value.memo == rest.value.memo
  {
  }

  lemma ReachAllCons(env: Env, ws: seq<string>, i: nat)
    requires i < |ws| && forall w :: w in ws ==> w in Nodes(env.g)
    ensures ReachAll(env, ws[i..]) == Reach(env, ws[i]) + ReachAll(env, ws[i + 1..])
  {
    assert ws[i..][0] == ws[i] && ws[i..][1..] == ws[i + 1..];
  }

  lemma UnionChain<T>(m: set<T>, a: set<T>, b: set<T>, d: set<T>, e: set<T>)
    requires d == m + a && e == d + b
    ensures e == m + (a + b)
  {
  }



  /** The reference total: over `vs` in order, the value of each vertex that
      none of the vertices before it reaches (`covered` holds what they, and
      the vertices before `vs`, reach), stopping at the first error. */
  ghost function RefTotal(env: Env, vs: seq<string>, covered: set<string>): (r: Result<real, EvalError>)
    requires Ready(env) && forall v :: v in vs ==> v in env.g.vertices
    ensures r.Failure? ==> Faulty(env, r.error) && r.error.vertex in env.g.vertices
  {
    if vs == [] then Success(0.0)
    else if vs[0] in covered then RefTotal(env, vs[1..], covered)
    else
      match Denote(env, vs[0])
      case Failure(e) => Failure(e)
      case Success(x) =>
        match RefTotal(env, vs[1..], covered + Reach(env, vs[0]))
        case Failure(e) => Failure(e)
        case Success(rest) => Success(x + rest)
  }

  lemma RefStep(env: Env, vs: seq<string>, covered: set<string>)
    requires Ready(env) && (forall v :: v in vs ==> v in env.g.vertices)
    requires vs != [] && vs[0] !in covered
    ensures var x := Denote(env, vs[0]);
            var t := RefTotal(env, vs, covered);
            && (x.Failure? ==> t.Failure? && t.error == x.error)
            && (x.Success? ==>
                  var rest := RefTotal(env, vs[1..], covered + Reach(env, vs[0]));
                  && (t.Success? <==> rest.Success?)
                  && (t.Success? ==> t.value == x.value + rest.value)
                  && (t.Failure? ==> t.error == rest.error))
  {
  }

  /** What holds after the outer loop has handled `vs[..i]`: the memo table
      is sound, closed and holds every vertex handled so far, the trace lists
      its keys once each, and `total` plus the reference total of what is left
      gives the reference total of the whole list (`whole`). */
  ghost predicate LoopState(env: Env, vs: seq<string>, i: nat, memo: map<string, real>,
                            total: real, trace: seq<string>, whole: Result<real, EvalError>)
  {
    && Ready(env) && (forall v :: v in vs ==> v in env.g.vertices)
    && i <= |vs|
    && memo.Keys <= env.g.vertices && MemoSound(env, memo) && MemoClosed(env, memo)
    && (forall j :: 0 <= j < i ==> vs[j] in memo)
    && Distinct(trace) && Elems(trace) == memo.Keys
    && var rest := RefTotal(env, vs[i..], memo.Keys);
       && (whole.Success? <==> rest.Success?)
       && (whole.Success? ==> whole.value == total + rest.value)
       && (whole.Failure? ==> whole.error == rest.error)
  }

  /** A vertex already memoized adds nothing to the total. */
  lemma LoopSkip(env: Env, vs: seq<string>, i: nat, memo: map<string, real>,
                 total: real, trace: seq<string>, whole: Result<real, EvalError>)
    requires LoopState(env, vs, i, memo, total, trace, whole) && i < |vs| && vs[i] in memo
    ensures LoopState(env, vs, i + 1, memo, total, trace, whole)
  {
    assert vs[i..][0] == vs[i] && vs[i..][1..] == vs[i + 1..];
  }

  /** A vertex whose computation fails ends the loop with the reference error. */
  lemma LoopFail(env: Env, vs: seq<string>, i: nat, memo: map<string, real>,
                 total: real, trace: seq<string>, whole: Result<real, EvalError>)
    requires LoopState(env, vs, i, memo, total, trace, whole) && i < |vs| && vs[i] !in memo
    ensures var c := Compute(env, vs[i], memo);
            c.Failure? ==> whole.Failure? && whole.error == c.error
  {
    var v := vs[i];
    assert vs[i..][0] == v;
    ComputeAgrees(env, v, memo);
    RefStep(env, vs[i..], memo.Keys);
  }

  /** A vertex computed successfully moves its value into the total. */
  lemma LoopCompute(env: Env, vs: seq<string>, i: nat, memo: map<string, real>,
                    total: real, trace: seq<string>, whole: Result<real, EvalError>)
    requires LoopState(env, vs, i, memo, total, trace, whole) && i < |vs| && vs[i] !in memo
    ensures var c := Compute(env, vs[i], memo);
            c.Success? ==> LoopState(env, vs, i + 1, c.value.memo, total + c.value.value,
                                     trace + c.value.trace, whole)
  {
    var v := vs[i];
    var c := Compute(env, v, memo);
    if c.Success? {
      ComputeAgrees(env, v, memo);
      ComputeCovers(env, v, memo);
      LoopTable(env, vs, i, memo, trace, c.value.memo, c.value.trace);
      LoopTotal(env, vs, i, memo, total, whole, c.value.value);
    }
  }

  /** The memo table part of `LoopCompute`, for a table `m` and trace `t`
      with what `Compute`, `ComputeAgrees` and `ComputeCovers` promise. */
  lemma LoopTable(env: Env, vs: seq<string>, i: nat, memo: map<string, real>, trace: seq<string>,
                  m: map<string, real>, t: seq<string>)
    requires Ready(env) && (forall v :: v in vs ==> v in env.g.vertices) && i < |vs|
    requires forall j :: 0 <= j < i ==> vs[j] in memo
    requires Distinct(trace) && Elems(trace) == memo.Keys
    requires Extends(memo, m) && vs[i] in m
    requires Distinct(t) && Elems(t) == m.Keys - memo.Keys
    ensures forall j :: 0 <= j < i + 1 ==> vs[j] in m
    ensures Distinct(trace + t) && Elems(trace + t) == m.Keys
  {
    DistinctConcat(trace, t);
    ElemsConcat(trace, t);
    forall j | 0 <= j < i + 1 ensures vs[j] in m {
      if j < i { assert vs[j] in memo; }
    }
  }

  /** The total part of `LoopCompute`, for a value `x` that is the
      reference value of `vs[i]`. */
  lemma LoopTotal(env: Env, vs: seq<string>, i: nat, memo: map<string, real>,
                  total: real, whole: Result<real, EvalError>, x: real)
    requires Ready(env) && (forall v :: v in vs ==> v in env.g.vertices) && i < |vs| && vs[i] !in memo
    requires Denote(env, vs[i]) == Success(x)
    requires var rest := RefTotal(env, vs[i..], memo.Keys);
             && (whole.Success? <==> rest.Success?)
             && (whole.Success? ==> whole.value == total + rest.value)
             && (whole.Failure? ==> whole.error == rest.error)
    ensures var rest := RefTotal(env, vs[i + 1..], memo.Keys + Reach(env, vs[i]));
            && (whole.Success? <==> rest.Success?)
            && (whole.Success? ==> whole.value == total + x + rest.value)
            && (whole.Failure? ==> whole.error == rest.error)
  {
    assert vs[i..][0] == vs[i] && vs[i..][1..] == vs[i + 1..];
    RefStep(env, vs[i..], memo.Keys);
  }

  /** Before the loop: nothing memoized, nothing added. */
  lemma LoopStart(env: Env, vs: seq<string>)
    requires Ready(env) && forall v :: v in vs ==> v in env.g.vertices
    ensures LoopState(env, vs, 0, map[], 0.0, [], RefTotal(env, vs, {}))
  {
    assert vs[0..] == vs;
    var m: map<string, real> := map[];
    assert m.Keys == {};
    assert MemoSound(env, m);
    assert MemoClosed(env, m);
    assert Elems([]) == m.Keys;
  }

  /** After the loop over an enumeration of the vertices: every vertex is
      memoized, each traced once, and the total is the reference total. */
  lemma LoopEnd(env: Env, vs: seq<string>, memo: map<string, real>,
                total: real, trace: seq<string>, whole: Result<real, EvalError>)
    requires LoopState(env, vs, |vs|, memo, total, trace, whole)
    requires forall v :: v in env.g.vertices ==> v in vs
    ensures whole.Success? && whole.value == total
    ensures memo.Keys == env.g.vertices
    ensures Distinct(trace) && Elems(trace) == env.g.vertices
  {
    assert vs[|vs|..] == [];
    forall v | v in env.g.vertices ensures v in memo {
      var j :| 0 <= j < |vs| && vs[j] == v;
    }
  }

  /** One turn of the outer loop: a memoized vertex is passed over; any
      other is computed, and its failure ends the loop with the error of the
      reference total, while its success stores its values, adds it to the
      total and keeps the loop state. */
  method Turn(env: Env, vs: seq<string>, i: nat, memo: map<string, real>, total: real,
               trace: seq<string>, ghost whole: Result<real, EvalError>)
    returns (failed: Option<EvalError>, memo': map<string, real>, total': real, trace': seq<string>)
    requires LoopState(env, vs, i, memo, total, trace, whole) && i < |vs|
    ensures failed.None? ==> LoopState(env, vs, i + 1, memo', total', trace', whole)
    ensures failed.Some? ==> whole.Failure? && whole.error == failed.value
  {
    if vs[i] in memo {
      LoopSkip(env, vs, i, memo, total, trace, whole);
      return None, memo, total, trace;
    }
    LoopFail(env, vs, i, memo, total, trace, whole);
    LoopCompute(env, vs, i, memo, total, trace, whole);
    var c := Compute(env, vs[i], memo);
    if c.Failure? {
      return Some(c.error), memo, total, trace;
    }
    return None, c.value.memo, total + c.value.value, trace + c.value.trace;
  }

  /** `evaluate_function(graph, operations)`: the loop over the sorted
      vertices, computing each vertex not yet memoized and adding its value
      to the total. It returns the total, the final memo table and the
      order in which vertex values were stored. It agrees with the reference
      total, raising the same error when that fails; on success every vertex
      has a value, computed exactly once. */
  method Evaluate(env: Env) returns (r: Result<Done, EvalError>)
    requires Ready(env)
    ensures var t := RefTotal(env, Sorted(env.g.vertices), {});
            && (r.Success? <==> t.Success?)
            && (r.Success? ==> r.value.value == t.value)
            && (r.Failure? ==> r.error == t.error)
    ensures r.Failure? ==> Faulty(env, r.error) && r.error.vertex in env.g.vertices
    ensures r.Success? ==> r.value.memo.Keys == env.g.vertices
    ensures r.Success? ==> Distinct(r.value.trace) && Elems(r.value.trace) == env.g.vertices
  {
    var vs := Sorted(env.g.vertices);
    var memo: map<string, real> := map[];
    var total := 0.0;
    var trace: seq<string> := [];
    ghost var whole := RefTotal(env, vs, {});
    LoopStart(env, vs);
    var i := 0;
    while i < |vs|
      invariant LoopState(env, vs, i, memo, total, trace, whole)
    {
      var failed;
      failed, memo, total, trace := Turn(env, vs, i, memo, total, trace, whole);
      if failed.Some? {
        return Failure(failed.value);
      }
      i := i + 1;
    }
    LoopEnd(env, vs, memo, total, trace, whole);
    r := Success(Done(total, memo, trace));
  }

  /** Once `validate_graph` and `validate_operations` found nothing, the only
      error evaluation can still raise is `exp` applied to two or more
      children: every vertex has a known operation and no leaf is an
      operator. */
  lemma ValidatedErrors(env: Env, e: EvalError)
    requires WellFormed(env.g) && GraphValid(env.g, env.ops)
    requires forall u :: u in env.ops ==> ValidOperation(env.ops[u])
    requires Faulty(env, e) && e.vertex in env.g.vertices
    ensures e.ExpArity? && e.count >= 2
  {
    var u := e.vertex;
    assert u in env.ops;
    if e.ExpArity? {
      assert IsOperator(env.ops[u]);
      assert u !in Leaves(env.g);
    }
  }
}

=== FILE: graphs.dfy ===
/** The graph the three programs build: a set of vertex names and a list of arcs
    `(from, to, order)`, where `order` is the position of `to` among the
    arguments of `from`. */
module Graphs {

  datatype Arc = Arc(src: string, dst: string, ord: int)

  /** No element of `s` occurs twice. */
  predicate Distinct<T(==)>(s: seq<T>) {
    forall i, j :: 0 <= i < j < |s| ==> s[i] != s[j]
  }

  function Elems(s: seq<string>): (r: set<string>)
    ensures forall x :: x in r <==> x in s
  {
    set x | x in s
  }

  lemma ElemsConcat(a: seq<string>, b: seq<string>)
    ensures Elems(a + b) == Elems(a) + Elems(b)
  {
  }

  lemma DistinctConcat(a: seq<string>, b: seq<string>)
    requires Distinct(a) && Distinct(b) && Elems(a) !! Elems(b)
    ensures Distinct(a + b)
  {
    forall i, j | 0 <= i < j < |a + b| ensures (a + b)[i] != (a + b)[j] {
      if i < |a| && j >= |a| {
        assert (a + b)[i] in Elems(a) && (a + b)[j] in Elems(b);
      }
    }
  }

  lemma DistinctAppend<T>(a: seq<T>, b: seq<T>)
    requires Distinct(a) && Distinct(b) && forall x :: x in a ==> x !in b
    ensures Distinct(a + b)
  {
    forall i, j | 0 <= i < j < |a + b| ensures (a + b)[i] != (a + b)[j] {
      if i < |a| && j >= |a| {
        assert (a + b)[i] in a && (a + b)[j] in b;
      }
    }
  }

  /** A list without repetitions has as many elements as it has members. */
  lemma {:induction false} DistinctSize(s: seq<string>)
    requires Distinct(s)
    ensures |Elems(s)| == |s|
  {
    if s != [] {
      DistinctSize(s[1..]);
      assert Elems(s) == {s[0]} + Elems(s[1..]);
      assert s[0] !in Elems(s[1..]);
    }
  }

  /** `{"vertices": set(), "arcs": []}` of the source: the arc list keeps
      repeated arcs as separate entries. */
  datatype Graph = Graph(vertices: set<string>, arcs: seq<Arc>)

  /** The names an arc list mentions. */
  function Endpoints(arcs: seq<Arc>): set<string> {
    if arcs == [] then {} else {arcs[0].src, arcs[0].dst} + Endpoints(arcs[1..])
  }

  /** The endpoints are exactly the names some arc starts or ends at. */
  lemma {:induction false} EndpointsMembers(arcs: seq<Arc>)
    ensures forall k :: 0 <= k < |arcs| ==> arcs[k].src in Endpoints(arcs) && arcs[k].dst in Endpoints(arcs)
    ensures forall v :: v in Endpoints(arcs) ==>
              exists k :: 0 <= k < |arcs| && (arcs[k].src == v || arcs[k].dst == v)
  {
    if arcs != [] {
      EndpointsMembers(arcs[1..]);
      forall v | v in Endpoints(arcs)
        ensures exists k :: 0 <= k < |arcs| && (arcs[k].src == v || arcs[k].dst == v)
      {
        if v !in {arcs[0].src, arcs[0].dst} {
          assert v in Endpoints(arcs[1..]);
          var k :| 0 <= k < |arcs[1..]| && (arcs[1..][k].src == v || arcs[1..][k].dst == v);
          assert arcs[k + 1] == arcs[1..][k];
        }
      }
      forall k | 0 <= k < |arcs| ensures arcs[k].src in Endpoints(arcs) && arcs[k].dst in Endpoints(arcs) {
        if k > 0 { assert arcs[k] == arcs[1..][k - 1]; }
      }
    }
  }

  lemma {:induction false} EndpointsConcat(a: seq<Arc>, b: seq<Arc>)
    ensures Endpoints(a + b) == Endpoints(a) + Endpoints(b)
  {
    if a != [] {
      EndpointsConcat(a[1..], b);
      assert (a + b)[1..] == a[1..] + b;
    } else {
      assert a + b == b;
    }
  }

  /** Every arc's endpoints are vertices of the graph. */
  predicate WellFormed(g: Graph) {
    forall a :: a in g.arcs ==> a.src in g.vertices && a.dst in g.vertices
  }

  /** Every name the graph mentions, as a vertex or as an arc endpoint. */
  function Nodes(g: Graph): (ns: set<string>)
    ensures g.vertices <= ns
    ensures forall a :: a in g.arcs ==> a.src in ns && a.dst in ns
    ensures WellFormed(g) ==> ns == g.vertices
  {
    g.vertices + (set a | a in g.arcs :: a.src) + (set a | a in g.arcs :: a.dst)
  }

  /** Some arc leads from `u` to `w`. */
  predicate Edge(g: Graph, u: string, w: string) {
    exists a :: a in g.arcs && a.src == u && a.dst == w
  }

  /** `children_dict[v]`: the arcs leaving `v`, in the order they were read. */
  function ArcsFrom(arcs: seq<Arc>, v: string): (r: seq<Arc>)
    ensures forall a :: a in r <==> a in arcs && a.src == v
    ensures |r| <= |arcs|
  {
    if arcs == [] then []
    else (if arcs[0].src == v then [arcs[0]] else []) + ArcsFrom(arcs[1..], v)
  }

  /** `children_dict[v]` keeps every arc leaving `v`, repeats included, in
      reading order: one arc contributes itself exactly when it leaves `v`,
      and the list for two runs of arcs is the two lists one after the
      other. */
  lemma ArcsFromConcat(a: seq<Arc>, b: seq<Arc>, v: string)
    ensures forall x :: ArcsFrom([x], v) == if x.src == v then [x] else []
    ensures ArcsFrom(a + b, v) == ArcsFrom(a, v) + ArcsFrom(b, v)
  {
    forall x ensures ArcsFrom([x], v) == if x.src == v then [x] else [] {
      assert [x][1..] == [];
    }
    ArcsFromAppend(a, b, v);
  }

  lemma {:induction false} ArcsFromAppend(a: seq<Arc>, b: seq<Arc>, v: string)
    ensures ArcsFrom(a + b, v) == ArcsFrom(a, v) + ArcsFrom(b, v)
  {
    if a == [] {
      assert a + b == b;
    } else {
      assert (a + b)[0] == a[0] && (a + b)[1..] == a[1..] + b;
      ArcsFromAppend(a[1..], b, v);
    }
  }

  /** `set(vertices) - {arc["to"] for arc in arcs}`: vertices nothing points to. */
  function Roots(g: Graph): (r: set<string>)
    ensures forall v :: v in r <==> v in g.vertices && !exists a :: a in g.arcs && a.dst == v
  {
    g.vertices - (set a | a in g.arcs :: a.dst)
  }

  /** `vertices - {arc["from"] for arc in arcs}`: vertices with no outgoing arc. */
  function Leaves(g: Graph): (r: set<string>)
    ensures forall v :: v in r <==> v in g.vertices && ArcsFrom(g.arcs, v) == []
  {
    var srcs := set a | a in g.arcs :: a.src;
    assert forall v :: v in srcs <==> ArcsFrom(g.arcs, v) != [] by {
      forall v ensures v in srcs <==> ArcsFrom(g.arcs, v) != [] {
        if ArcsFrom(g.arcs, v) != [] {
          assert ArcsFrom(g.arcs, v)[0] in ArcsFrom(g.arcs, v);
        }
      }
    }
    g.vertices - srcs
  }

  /** A walk along arcs: consecutive names are joined by an arc. */
  ghost predicate IsPath(g: Graph, p: seq<string>) {
    |p| >= 1 && forall i :: 0 <= i < |p| - 1 ==> Edge(g, p[i], p[i + 1])
  }

  /** A walk of at least one arc that returns to where it started. */
  ghost predicate IsCycle(g: Graph, p: seq<string>) {
    |p| >= 2 && IsPath(g, p) && p[0] == p[|p| - 1]
  }

  /** The arc relation contains a directed cycle. */
  ghost predicate Cyclic(g: Graph) {
    exists p :: IsCycle(g, p)
  }

  /** A cycle passes through `v`. */
  ghost predicate OnCycle(g: Graph, v: string) {
    exists p {:trigger IsCycle(g, p)} :: IsCycle(g, p) && p[0] == v
  }

  lemma PathSlice(g: Graph, p: seq<string>, i: int, j: int)
    requires IsPath(g, p) && 0 <= i < j <= |p|
    ensures IsPath(g, p[i..j])
  {
    forall k | 0 <= k < j - i - 1 ensures Edge(g, p[i..j][k], p[i..j][k + 1]) {
      assert p[i..j][k] == p[i + k] && p[i..j][k + 1] == p[i + k + 1];
    }
  }

  lemma PathExtend(g: Graph, p: seq<string>, w: string)
    requires IsPath(g, p) && Edge(g, p[|p| - 1], w)
    ensures IsPath(g, p + [w])
  {
    var q := p + [w];
    forall k | 0 <= k < |q| - 1 ensures Edge(g, q[k], q[k + 1]) {
      if k < |p| - 1 {
        assert q[k] == p[k] && q[k + 1] == p[k + 1];
      }
    }
  }

  lemma PathPrepend(g: Graph, u: string, p: seq<string>)
    requires IsPath(g, p) && Edge(g, u, p[0])
    ensures IsPath(g, [u] + p)
  {
    var q := [u] + p;
    forall k | 0 <= k < |q| - 1 ensures Edge(g, q[k], q[k + 1]) {
      if k > 0 {
        assert q[k] == p[k - 1] && q[k + 1] == p[k];
      }
    }
  }

  /** No arc leaves the set `b`. */
  ghost predicate Closed(g: Graph, b: set<string>) {
    forall a :: a in g.arcs && a.src in b ==> a.dst in b
  }

  /** A walk that starts inside a set no arc leaves stays inside it. */
  lemma {:induction false} PathStaysIn(g: Graph, b: set<string>, p: seq<string>)
    requires Closed(g, b) && IsPath(g, p) && p[0] in b
    ensures forall k :: 0 <= k < |p| ==> p[k] in b
  {
    if |p| > 1 {
      assert Edge(g, p[0], p[1]);
      PathSlice(g, p, 1, |p|);
      PathStaysIn(g, b, p[1..]);
      forall k | 1 <= k < |p| ensures p[k] in b {
        assert p[k] == p[1..][k - 1];
      }
    }
  }
}

=== FILE: numerals.dfy ===
/** Base-10 numerals: the ordinal field of an arc (`int(n)`) and the value of a
    literal operation (`float(op)`, taken here as the exact decimal). */
module Numerals {
  import opened Wrappers
  import opened Text

  function DigitValue(c: char): nat
    requires IsDigit(c)
  {
    (c as int) - ('0' as int)
  }

  function DigitChar(d: nat): (c: char)
    requires d < 10
    ensures IsDigit(c) && DigitValue(c) == d
  {
    (('0' as int) + d) as char
  }

  /** The value of a string of digits read in base 10 (the empty string reads as 0). */
  function DigitsValue(s: string): nat
    requires forall i :: 0 <= i < |s| ==> IsDigit(s[i])
  {
    if s == [] then 0 else DigitsValue(s[..|s| - 1]) * 10 + DigitValue(s[|s| - 1])
  }

  /** `str(n)` for a natural number: a digit string without leading zeros
      that reads back as `n`. */
  function NatToString(n: nat): (s: string)
    ensures IsDigits(s)
    ensures DigitsValue(s) == n
    ensures s[0] == '0' ==> s == "0"
  {
    if n < 10 then [DigitChar(n)]
    else
      var s := NatToString(n / 10) + [DigitChar(n % 10)];
      assert s[..|s| - 1] == NatToString(n / 10);
      s
  }

  /** `str(i)` for an integer: a minus sign in front of a negative number. */
  function IntToString(i: int): string {
    if i < 0 then "-" + NatToString(-i) else NatToString(i)
  }

  /** Python's `int(s)` on what the arc lines can hold once spaces and tabs are
      gone: an optional sign followed by ASCII digits; anything else is the
      `ValueError` case, here `None`. */
  function ParseInt(s: string): (r: Option<int>)
    ensures r.Some? <==> IsDigits(s) || (|s| > 0 && (s[0] == '+' || s[0] == '-') && IsDigits(s[1..]))
    ensures r.Some? && IsDigits(s) ==> r.value >= 0
  {
    if |s| > 0 && s[0] == '-' && IsDigits(s[1..]) then Some(-(DigitsValue(s[1..]) as int))
    else if |s| > 0 && s[0] == '+' && IsDigits(s[1..]) then Some(DigitsValue(s[1..]))
    else if IsDigits(s) then Some(DigitsValue(s))
    else None
  }

  /** `int(s)` of a digit string is its base-10 value. */
  lemma ParseDigits(s: string)
    requires IsDigits(s)
    ensures ParseInt(s) == Some(DigitsValue(s) as int)
  {
    assert IsDigit(s[0]);
  }

  /** Reading back what `IntToString` writes gives the number again. */
  lemma ParseIntToString(i: int)
    ensures ParseInt(IntToString(i)) == Some(i)
  {
    if i < 0 {
      var t := NatToString(-i);
      assert ("-" + t)[1..] == t;
    }
  }

  function Pow10(k: nat): (p: nat)
    ensures p >= 1
  {
    if k == 0 then 1 else 10 * Pow10(k - 1)
  }

  /** `float(s)` for a digit string with at most one dot, read exactly: the
      digits before the dot are the whole part, those after it the fraction. */
  function DecimalValue(s: string): (x: real)
    requires IsDigits(RemoveFirst(s, '.'))
    ensures x >= 0.0
    ensures IsDigits(s) ==> x == DigitsValue(s) as real
  {
    if '.' in s then
      var i := IndexOf(s, '.');
      var r := RemoveFirst(s, '.');
      assert forall k :: 0 <= k < i ==> s[k] == r[k];
      assert forall k :: i < k < |s| ==> s[k] == r[k - 1];
      var whole := DigitsValue(s[..i]);
      var frac := s[i + 1..];
      whole as real + DigitsValue(frac) as real / Pow10(|frac|) as real
    else DigitsValue(s) as real
  }
}

=== FILE: operations.dfy ===
/** The operation table's vocabulary and the two validators of nntask3.py:
    `validate_graph` (structural rules checked against the table) and
    `validate_operations` (every table entry is a known operation). Both
    accumulate every violation instead of stopping at the first. */
module Operations {
  import opened Text
  import opened Graphs

  /** `op.replace('.', '', 1).isdigit()`: an unsigned decimal numeral with at
      most one dot. (nntask3.py tests `op.isdigit()` first, which this covers.) */
  predicate IsLiteral(op: string) {
    IsDigits(RemoveFirst(op, '.'))
  }

  /** The three symbolic operations. */
  predicate IsOperator(op: string) {
    op == "+" || op == "*" || op == "exp"
  }

  /** What `validate_operations` accepts. */
  predicate ValidOperation(op: string) {
    IsLiteral(op) || IsOperator(op)
  }

  /** The shape of a literal stated character by character: only digits and
      dots, at least one digit, at most one dot. */
  ghost predicate DecimalShape(s: string) {
    && (forall k :: 0 <= k < |s| ==> IsDigit(s[k]) || s[k] == '.')
    && (exists k :: 0 <= k < |s| && IsDigit(s[k]))
    && (forall j, k :: 0 <= j < k < |s| && s[j] == '.' ==> s[k] != '.')
  }

  /** Removing the first dot and testing for digits accepts exactly the
      numerals with at most one dot and at least one digit: "7", "0.5", ".5"
      and "5." pass; "", ".", "1.2.3", "-1" and "1e5" do not. */
  lemma LiteralShape(s: string)
    ensures IsLiteral(s) <==> DecimalShape(s)
  {
    if '.' !in s {
      if DecimalShape(s) {
        forall k | 0 <= k < |s| ensures IsDigit(s[k]) {
          assert s[k] in s;
        }
      }
      if IsLiteral(s) {
        assert IsDigit(s[0]);
      }
    } else {
      var i := IndexOf(s, '.');
      var r := RemoveFirst(s, '.');
      assert forall k :: 0 <= k < i ==> r[k] == s[k];
      assert forall k :: i < k < |s| ==> r[k - 1] == s[k];
      if IsLiteral(s) {
        forall k | 0 <= k < |s| ensures IsDigit(s[k]) || s[k] == '.' {
          if k < i { assert IsDigit(r[k]); }
          else if k > i { assert IsDigit(r[k - 1]); }
        }
        if i > 0 { assert IsDigit(s[0]) && IsDigit(r[0]); }
        else { assert IsDigit(r[0]) && s[1] == r[0]; }
        forall j, k | 0 <= j < k < |s| && s[j] == '.' ensures s[k] != '.' {
          assert j >= i;
          assert IsDigit(r[k - 1]);
        }
      }
      if DecimalShape(s) {
        var d :| 0 <= d < |s| && IsDigit(s[d]);
        assert |r| > 0;
        forall k | 0 <= k < |r| ensures IsDigit(r[k]) {
          if k < i {
            assert r[k] == s[k] && s[k] != '.';
          } else {
            assert r[k] == s[k + 1];
            assert s[k + 1] != '.';
          }
        }
      }
    }
  }

  /** One violation found by a validator, naming the vertex it concerns. */
  datatype Violation =
    | LiteralRoot(vertex: string)
    | RootWithoutOperation(vertex: string)
    | OperatorRoot(vertex: string, op: string)
    | OperatorLeaf(vertex: string, op: string)
    | LeafWithoutOperation(vertex: string)
    | VertexWithoutOperation(vertex: string)
    | InvalidOperation(vertex: string, op: string)

  /** The members of `s` in the order `vs` lists them (the model of iterating
      a Python set, whose order is not specified). */
  function Keep(vs: seq<string>, s: set<string>): (r: seq<string>)
    ensures forall v :: v in r <==> v in vs && v in s
    ensures Distinct(vs) ==> Distinct(r)
  {
    if vs == [] then []
    else
      var rest := Keep(vs[1..], s);
      assert forall v :: v in rest ==> v in vs[1..];
      (if vs[0] in s then [vs[0]] else []) + rest
  }

  /** The check on a graph's only root (nntask3.py:156-163). */
  function SoleRootCheck(size: nat, ops: map<string, string>, root: string): (errs: seq<Violation>)
    ensures forall e :: e in errs <==>
              || (e == LiteralRoot(root) && root in ops && IsLiteral(ops[root]) && size > 1)
              || (e == RootWithoutOperation(root) && root !in ops)
    ensures |errs| <= 1
  {
    if root in ops && IsLiteral(ops[root]) then
      (if size > 1 then [LiteralRoot(root)] else [])
    else if root !in ops then [RootWithoutOperation(root)]
    else []
  }

  /** The check on each of several roots, or on none (nntask3.py:164-169). */
  function RootChecks(ops: map<string, string>, roots: seq<string>): (errs: seq<Violation>)
    ensures forall e :: e in errs <==>
              || (e.OperatorRoot? && e.vertex in roots && e.vertex in ops && e.op == ops[e.vertex] && !IsLiteral(e.op))
              || (e.RootWithoutOperation? && e.vertex in roots && e.vertex !in ops)
    ensures Distinct(roots) ==> Distinct(errs)
  {
    if roots == [] then []
    else
      var r := roots[0];
      var here := if r in ops && !IsLiteral(ops[r]) then [OperatorRoot(r, ops[r])]
                  else if r !in ops then [RootWithoutOperation(r)] else [];
      var rest := RootChecks(ops, roots[1..]);
      assert forall v :: v in roots <==> v == r || v in roots[1..];
      assert Distinct(roots) ==> Distinct(here + rest) by {
        if Distinct(roots) {
          assert r !in roots[1..];
          DistinctAppend(here, rest);
        }
      }
      here + rest
  }

  /** The leaf rules (nntask3.py:171-178). */
  function LeafChecks(ops: map<string, string>, leaves: seq<string>): (errs: seq<Violation>)
    ensures forall e :: e in errs <==>
              || (e.OperatorLeaf? && e.vertex in leaves && e.vertex in ops && e.op == ops[e.vertex] && IsOperator(e.op))
              || (e.LeafWithoutOperation? && e.vertex in leaves && e.vertex !in ops)
    ensures forall e :: e in errs ==> e.OperatorLeaf? || e.LeafWithoutOperation?
    ensures Distinct(leaves) ==> Distinct(errs)
  {
    if leaves == [] then []
    else
      var v := leaves[0];
      var here := if v in ops && IsOperator(ops[v]) then [OperatorLeaf(v, ops[v])]
                  else if v !in ops then [LeafWithoutOperation(v)] else [];
      var rest := LeafChecks(ops, leaves[1..]);
      assert forall x :: x in leaves <==> x == v || x in leaves[1..];
      assert Distinct(leaves) ==> Distinct(here + rest) by {
        if Distinct(leaves) {
          assert v !in leaves[1..];
          DistinctAppend(here, rest);
        }
      }
      here + rest
  }

  /** The completeness loop (nntask3.py:179-181). */
  function MissingChecks(ops: map<string, string>, vs: seq<string>): (errs: seq<Violation>)
    ensures forall e :: e in errs <==> e.VertexWithoutOperation? && e.vertex in vs && e.vertex !in ops
    ensures forall e :: e in errs ==> e.VertexWithoutOperation?
    ensures Distinct(vs) ==> Distinct(errs)
  {
    if vs == [] then []
    else
      var v := vs[0];
      var here := if v !in ops then [VertexWithoutOperation(v)] else [];
      var rest := MissingChecks(ops, vs[1..]);
      assert forall x :: x in vs <==> x == v || x in vs[1..];
      assert Distinct(vs) ==> Distinct(here + rest) by {
        if Distinct(vs) {
          assert v !in vs[1..];
          DistinctAppend(here, rest);
        }
      }
      here + rest
  }

  /** `order` lists the vertex set once each: the order Python iterates it in. */
  predicate Enumerates(order: seq<string>, vs: set<string>) {
    Distinct(order) && (forall v :: v in order ==> v in vs) && (forall v :: v in vs ==> v in order)
  }

  /** The root rules of `validate_graph` (nntask3.py:151-169) for a root set
      `rs` listed in the order `order` gives: a single root must not be a
      literal unless it is the only vertex; with no root or several, every root
      must be a literal; every root needs an operation. */
  function RootRules(size: nat, ops: map<string, string>, rs: set<string>, order: seq<string>): (errs: seq<Violation>)
    requires Distinct(order) && forall v :: v in rs ==> v in order
    ensures forall e :: e in errs ==> e.LiteralRoot? || e.RootWithoutOperation? || e.OperatorRoot?
    ensures forall v :: RootWithoutOperation(v) in errs <==> v in rs && v !in ops
    ensures forall v, o :: OperatorRoot(v, o) in errs <==>
              |rs| != 1 && v in rs && v in ops && o == ops[v] && !IsLiteral(o)
    ensures forall v :: LiteralRoot(v) in errs <==>
              |rs| == 1 && size > 1 && v in rs && v in ops && IsLiteral(ops[v])
    ensures Distinct(errs)
  {
    var roots := Keep(order, rs);
    assert Elems(roots) == rs;
    DistinctSize(roots);
    if |roots| == 1 then
      assert rs == {roots[0]};
      SoleRootCheck(size, ops, roots[0])
    else RootChecks(ops, roots)
  }

  /** Whether `validate_graph` reports `e` for a graph with `size` vertices,
      vertex set `vs`, roots `rs` and leaves `ls`. */
  predicate Reported(size: nat, ops: map<string, string>, vs: set<string>, rs: set<string>, ls: set<string>,
                     e: Violation) {
    match e
    case LiteralRoot(v) => |rs| == 1 && size > 1 && v in rs && v in ops && IsLiteral(ops[v])
    case RootWithoutOperation(v) => v in rs && v !in ops
    case OperatorRoot(v, o) => |rs| != 1 && v in rs && v in ops && o == ops[v] && !IsLiteral(o)
    case OperatorLeaf(v, o) => v in ls && v in ops && o == ops[v] && IsOperator(o)
    case LeafWithoutOperation(v) => v in ls && v !in ops
    case VertexWithoutOperation(v) => v in vs && v !in ops
    case InvalidOperation(_, _) => false
  }

  /** The violations `validate_graph` reports on the graph `g`. */
  predicate GraphViolation(g: Graph, ops: map<string, string>, e: Violation) {
    Reported(|g.vertices|, ops, g.vertices, Roots(g), Leaves(g), e)
  }

  /** The three rule groups between them report exactly what `Reported`
      describes. */
  lemma ReportedParts(size: nat, ops: map<string, string>, rs: set<string>, ls: set<string>, order: seq<string>,
                      e: Violation)
    requires Distinct(order) && (forall v :: v in rs ==> v in order) && (forall v :: v in ls ==> v in order)
    ensures e in RootRules(size, ops, rs, order) + LeafChecks(ops, Keep(order, ls)) + MissingChecks(ops, order)
            <==> Reported(size, ops, Elems(order), rs, ls, e)
  {
    match e
    case LiteralRoot(v) =>
    case RootWithoutOperation(v) =>
    case OperatorRoot(v, o) =>
    case OperatorLeaf(v, o) =>
    case LeafWithoutOperation(v) =>
    case VertexWithoutOperation(v) =>
    case InvalidOperation(v, o) =>
  }

  /** `validate_graph` for a graph with `size` vertices listed by `order`,
      roots `rs` and leaves `ls`. */
  function Validate(size: nat, ops: map<string, string>, rs: set<string>, ls: set<string>, order: seq<string>)
    : (errs: seq<Violation>)
    requires Distinct(order) && (forall v :: v in rs ==> v in order) && (forall v :: v in ls ==> v in order)
    ensures forall e :: e in errs <==> Reported(size, ops, Elems(order), rs, ls, e)
    ensures Distinct(errs)
  {
    var rootErrs := RootRules(size, ops, rs, order);
    var leafErrs := LeafChecks(ops, Keep(order, ls));
    var missing := MissingChecks(ops, order);
    assert forall e :: e in rootErrs ==> e !in leafErrs && e !in missing;
    assert forall e :: e in leafErrs ==> e !in missing;
    DistinctAppend(rootErrs, leafErrs);
    DistinctAppend(rootErrs + leafErrs, missing);
    var errs := rootErrs + leafErrs + missing;
    forall e {
      ReportedParts(size, ops, rs, ls, order, e);
    }
    errs
  }

  /** `validate_graph(graph, operations)` (nntask3.py:151-183), with the
      vertex set iterated in the order `order`: it lists every violation of
      the root, leaf and completeness rules, each once. A vertex without an
      operation is reported by the completeness rule even when a root or
      leaf rule already reported it. */
  function ValidateGraph(g: Graph, ops: map<string, string>, order: seq<string>): (errs: seq<Violation>)
    requires Enumerates(order, g.vertices)
    ensures forall e :: e in errs <==> GraphViolation(g, ops, e)
    ensures Distinct(errs)
  {
    assert Elems(order) == g.vertices;
    Validate(|g.vertices|, ops, Roots(g), Leaves(g), order)
  }

  /** The rules of `validate_graph` for vertex set `vs`, roots `rs` and
      leaves `ls`: every vertex has an operation, no leaf is an operator, a
      sole root of a larger graph is not a literal, and when there is not
      exactly one root every root is a literal. */
  predicate RulesHold(size: nat, ops: map<string, string>, vs: set<string>, rs: set<string>, ls: set<string>) {
    && (forall v :: v in vs ==> v in ops)
    && (forall v :: v in ls && v in ops ==> !IsOperator(ops[v]))
    && (|rs| == 1 && size > 1 ==> forall r :: r in rs && r in ops ==> !IsLiteral(ops[r]))
    && (|rs| != 1 ==> forall r :: r in rs && r in ops ==> IsLiteral(ops[r]))
  }

  lemma NothingReported(size: nat, ops: map<string, string>, vs: set<string>, rs: set<string>, ls: set<string>)
    requires rs <= vs && ls <= vs
    ensures (forall e :: !Reported(size, ops, vs, rs, ls, e)) <==> RulesHold(size, ops, vs, rs, ls)
  {
    if forall e :: !Reported(size, ops, vs, rs, ls, e) {
      forall v | v in vs ensures v in ops {
        assert !Reported(size, ops, vs, rs, ls, VertexWithoutOperation(v));
      }
      forall v | v in ls && v in ops ensures !IsOperator(ops[v]) {
        assert !Reported(size, ops, vs, rs, ls, OperatorLeaf(v, ops[v]));
      }
      forall r | r in rs && r in ops && |rs| == 1 && size > 1 ensures !IsLiteral(ops[r]) {
        assert !Reported(size, ops, vs, rs, ls, LiteralRoot(r));
      }
      forall r | r in rs && r in ops && |rs| != 1 ensures IsLiteral(ops[r]) {
        assert !Reported(size, ops, vs, rs, ls, OperatorRoot(r, ops[r]));
      }
    }
  }

  /** The rules of `validate_graph`, stated on the whole graph at once. */
  predicate GraphValid(g: Graph, ops: map<string, string>) {
    RulesHold(|g.vertices|, ops, g.vertices, Roots(g), Leaves(g))
  }

  /** `validate_graph` returns no violation exactly when the graph obeys
      every rule. */
  lemma ValidateGraphEmpty(g: Graph, ops: map<string, string>, order: seq<string>)
    requires Enumerates(order, g.vertices)
    ensures ValidateGraph(g, ops, order) == [] <==> GraphValid(g, ops)
  {
    var errs := ValidateGraph(g, ops, order);
    var rs, ls := Roots(g), Leaves(g);
    assert rs <= g.vertices && ls <= g.vertices;
    assert forall e :: e in errs <==> Reported(|g.vertices|, ops, g.vertices, rs, ls, e);
    EmptyIffNothing(|g.vertices|, ops, g.vertices, rs, ls, errs);
    NothingReported(|g.vertices|, ops, g.vertices, rs, ls);
  }

  /** A list holding exactly the reported violations is empty exactly when
      nothing is reported. */
  lemma EmptyIffNothing(size: nat, ops: map<string, string>, vs: set<string>, rs: set<string>, ls: set<string>,
                        errs: seq<Violation>)
    requires forall e :: e in errs <==> Reported(size, ops, vs, rs, ls, e)
    ensures errs == [] <==> forall e :: !Reported(size, ops, vs, rs, ls, e)
  {
    if errs != [] {
      assert errs[0] in errs;
    }
  }

  /** `validate_operations(operations)`, visiting the table in the order its
      keys were inserted: one violation for each entry that is neither a
      literal nor a known operation. */
  function ValidateOperations(ops: map<string, string>, keys: seq<string>): (errs: seq<Violation>)
    requires forall v :: v in keys ==> v in ops
    ensures forall e :: e in errs <==>
              e.InvalidOperation? && e.vertex in keys && e.op == ops[e.vertex] && !ValidOperation(e.op)
    ensures Distinct(keys) ==> Distinct(errs)
    ensures |errs| <= |keys|
  {
    if keys == [] then []
    else
      var v := keys[0];
      var here := if !ValidOperation(ops[v]) then [InvalidOperation(v, ops[v])] else [];
      var rest := ValidateOperations(ops, keys[1..]);
      assert forall x :: x in keys <==> x == v || x in keys[1..];
      assert Distinct(keys) ==> Distinct(here + rest) by {
        if Distinct(keys) {
          assert v !in keys[1..];
          DistinctAppend(here, rest);
        }
      }
      here + rest
  }
}

=== FILE: opsparse.dfy ===
/** The line-by-line reading of the operations file in nntask3.py
    (`parse_operations_file`, once the file is not JSON). Each line is
    stripped and a blank line skipped; the rest must split on `:` into
    exactly two parts, the vertex and its operation, each stripped. A later
    line for the same vertex replaces the operation but keeps the vertex's
    place in the dictionary's insertion order. The first line that does not
    split into two parts ends reading with its line number. */
module OpsParse {
  import opened Wrappers
  import opened Text
  import opened Graphs
  import opened ArcText

  /** The `operations` dictionary: the operation of each vertex, and the
      order in which the vertices were first inserted. */
  datatype Ops = Ops(table: map<string, string>, order: seq<string>)

  /** What `parse_operations_file` returns. */
  datatype OpsParsed = OpsParsed(ops: Ops, error: Option<LineError>)

  /** One line, read: blank, a vertex with its operation, or the number of
      parts it splits into when that is not two. */
  datatype Entry = Blank | Pair(vertex: string, op: string) | Bad(parts: nat)

  /** `line.strip()`, then `vertex, operation = line.split(':')` with both
      parts stripped. A non-blank line is a pair exactly when it holds one
      colon; the vertex is then the text before it and the operation the
      text after it, both stripped. */
  function ReadLine(line: string): (r: Entry)
    ensures r.Blank? <==> Trim(line) == []
    ensures r.Pair? <==> Trim(line) != [] && |Split(Trim(line), ':')| == 2
    ensures r.Bad? ==> r.parts == |Split(Trim(line), ':')| && r.parts != 2
    ensures r.Pair? ==> var ps := Split(Trim(line), ':');
                        && Trim(line) == ps[0] + ":" + ps[1]
                        && r.vertex == Trim(ps[0]) && r.op == Trim(ps[1])
    ensures r.Pair? ==> && ':' !in r.vertex && ':' !in r.op
                        && Trim(r.vertex) == r.vertex && Trim(r.op) == r.op
  {
    var t := Trim(line);
    if t == [] then Blank
    else
      var ps := Split(t, ':');
      if |ps| != 2 then Bad(|ps|)
      else
        assert ps[0] in ps && ps[1] in ps;
        assert Trim(line) == ps[0] + ":" + ps[1] by {
          assert ps[1..] == [ps[1]];
          assert Join(ps, ":") == ps[0] + ":" + Join(ps[1..], ":");
        }
        Pair(Trim(ps[0]), Trim(ps[1]))
  }

  /** Every line, read. */
  function Entries(lines: seq<string>): (r: seq<Entry>)
    ensures |r| == |lines|
  {
    MapSeq(ReadLine, lines)
  }

  lemma EntriesAt(lines: seq<string>, k: nat)
    requires k < |lines|
    ensures Entries(lines)[k] == ReadLine(lines[k])
  {
    MapSeqAt(ReadLine, lines, k);
  }

  /** `operations[vertex] = operation`. */
  function Assign(ops: Ops, v: string, op: string): Ops {
    Ops(ops.table[v := op], if v in ops.table then ops.order else ops.order + [v])
  }

  /** The loop over the lines from line `i` (0-based) on, each already read. */
  function Fill(es: seq<Entry>, i: nat, ops: Ops): OpsParsed
    requires i <= |es|
    decreases |es| - i
  {
    if i == |es| then OpsParsed(ops, None)
    else
      match es[i]
      case Blank => Fill(es, i + 1, ops)
      case Bad(n) => OpsParsed(ops, Some(LineError(i + 1, FieldCount(n))))
      case Pair(v, op) => Fill(es, i + 1, Assign(ops, v, op))
  }

  /** `parse_operations_file` on the lines of a file that is not JSON. */
  function ParseOps(lines: seq<string>): OpsParsed {
    Fill(Entries(lines), 0, Ops(map[], []))
  }

  /** Line `j` gives vertex `k` an operation. */
  predicate Keyed(e: Entry, k: string) {
    e.Pair? && e.vertex == k
  }

  /** The reference for "the last line wins": the operation the last of
      the first `i` lines that names `k` gives it, if any. */
  function LastOp(es: seq<Entry>, i: nat, k: string): Option<string>
    requires i <= |es|
  {
    if i == 0 then None
    else if Keyed(es[i - 1], k) then Some(es[i - 1].op)
    else LastOp(es, i - 1, k)
  }

  /** The first line, from `j` on, that names `k`; `|es|` if none does. */
  function FirstAt(es: seq<Entry>, k: string, j: nat): (r: nat)
    requires j <= |es|
    ensures j <= r <= |es|
    ensures r < |es| ==> Keyed(es[r], k)
    ensures forall m :: j <= m < r ==> !Keyed(es[m], k)
    decreases |es| - j
  {
    if j == |es| then |es| else if Keyed(es[j], k) then j else FirstAt(es, k, j + 1)
  }

  /** The first line that names `k`. */
  function First(es: seq<Entry>, k: string): nat
    ensures First(es, k) <= |es|
  {
    FirstAt(es, k, 0)
  }

  /** The entry of `k` in the table, if any. */
  function Lookup(table: map<string, string>, k: string): Option<string> {
    if k in table then Some(table[k]) else None
  }

  /** The dictionary holds every vertex once in its order. */
  predicate Listed(ops: Ops) {
    Distinct(ops.order) && Elems(ops.order) == ops.table.Keys
  }

  /** After the first `i` lines: each vertex has the operation of the last
      line naming it. */
  ghost predicate LastWins(es: seq<Entry>, i: nat, ops: Ops)
    requires i <= |es|
  {
    forall k :: Lookup(ops.table, k) == LastOp(es, i, k)
  }

  /** After the first `i` lines: the vertices are in the order of the lines
      first naming them, all among the first `i` lines, and no other vertex
      is named there. */
  ghost predicate FirstOrder(es: seq<Entry>, i: nat, ops: Ops) {
    && (forall p, q :: 0 <= p < q < |ops.order| ==> First(es, ops.order[p]) < First(es, ops.order[q]))
    && (forall p :: 0 <= p < |ops.order| ==> First(es, ops.order[p]) < i)
    && (forall k :: k !in ops.table ==> First(es, k) >= i)
  }

  lemma AssignListed(ops: Ops, v: string, op: string)
    requires Listed(ops)
    ensures Listed(Assign(ops, v, op))
  {
    if v !in ops.table {
      assert Elems([v]) == {v};
      ElemsConcat(ops.order, [v]);
      DistinctAppend(ops.order, [v]);
    }
  }

  lemma AssignLastWins(es: seq<Entry>, i: nat, ops: Ops)
    requires i < |es| && es[i].Pair? && LastWins(es, i, ops)
    ensures LastWins(es, i + 1, Assign(ops, es[i].vertex, es[i].op))
  {
    var n := Assign(ops, es[i].vertex, es[i].op);
    forall k ensures Lookup(n.table, k) == LastOp(es, i + 1, k) {
      assert Lookup(ops.table, k) == LastOp(es, i, k);
    }
  }

  lemma SkipLastWins(es: seq<Entry>, i: nat, ops: Ops)
    requires i < |es| && !es[i].Pair? && LastWins(es, i, ops)
    ensures LastWins(es, i + 1, ops)
  {
    forall k ensures Lookup(ops.table, k) == LastOp(es, i + 1, k) {
      assert Lookup(ops.table, k) == LastOp(es, i, k);
    }
  }

  /** The first line naming `k` is `i` when line `i` names it and no line
      before does; a line not naming `k` is not its first. */
  lemma FirstFacts(es: seq<Entry>, i: nat, k: string)
    requires i < |es|
    ensures First(es, k) >= i && Keyed(es[i], k) ==> First(es, k) == i
    ensures !Keyed(es[i], k) ==> First(es, k) != i
  {
  }

  lemma AssignFirstOrder(es: seq<Entry>, i: nat, ops: Ops)
    requires i < |es| && es[i].Pair? && Listed(ops) && FirstOrder(es, i, ops)
    ensures FirstOrder(es, i + 1, Assign(ops, es[i].vertex, es[i].op))
  {
    var v := es[i].vertex;
    var n := Assign(ops, v, es[i].op);
    if v !in ops.table {
      assert First(es, v) == i by {
        FirstFacts(es, i, v);
      }
      forall p, q | 0 <= p < q < |n.order| ensures First(es, n.order[p]) < First(es, n.order[q]) {
        if q == |ops.order| {
          assert n.order[q] == v;
        }
      }
    }
    forall k | k !in n.table ensures First(es, k) >= i + 1 {
      FirstFacts(es, i, k);
    }
  }

  lemma SkipFirstOrder(es: seq<Entry>, i: nat, ops: Ops)
    requires i < |es| && !es[i].Pair? && FirstOrder(es, i, ops)
    ensures FirstOrder(es, i + 1, ops)
  {
    forall k | k !in ops.table ensures First(es, k) >= i + 1 {
      FirstFacts(es, i, k);
    }
  }

  /** Where reading stops: the line before the one with the error, or the
      end of the file. */
  function Stop(n: nat, error: Option<LineError>): nat {
    if error.Some? && 1 <= error.value.line <= n then error.value.line - 1 else n
  }

  /** The loop stops at the first line that does not split into two parts,
      with that line's number and number of parts. */
  lemma {:induction false} FillError(es: seq<Entry>, i: nat, ops: Ops)
    requires i <= |es|
    ensures var r := Fill(es, i, ops);
            var n := Stop(|es|, r.error);
            && i <= n
            && (r.error.None? <==> forall j :: i <= j < |es| ==> !es[j].Bad?)
            && (r.error.Some? ==> && n < |es| && r.error.value.line == n + 1
                                  && r.error.value.fault.FieldCount?
                                  && es[n] == Bad(r.error.value.fault.count)
                                  && forall j :: i <= j < n ==> !es[j].Bad?)
    decreases |es| - i
  {
    if i < |es| {
      match es[i]
      case Blank =>
        FillError(es, i + 1, ops);
      case Bad(_) =>
      case Pair(v, op) =>
        FillError(es, i + 1, Assign(ops, v, op));
    }
  }

  /** The invariants of the loop, after the first `i` lines. */
  ghost predicate Kept(es: seq<Entry>, i: nat, ops: Ops)
    requires i <= |es|
  {
    Listed(ops) && LastWins(es, i, ops) && FirstOrder(es, i, ops)
  }

  /** The loop keeps its invariants up to where it stops. */
  lemma {:induction false} FillKeeps(es: seq<Entry>, i: nat, ops: Ops)
    requires i <= |es| && Kept(es, i, ops)
    ensures var r := Fill(es, i, ops);
            Stop(|es|, r.error) <= |es| && Kept(es, Stop(|es|, r.error), r.ops)
    decreases |es| - i, 1
  {
    if i < |es| {
      match es[i]
      case Blank => BlankKeeps(es, i, ops);
      case Bad(_) =>
      case Pair(v, op) => PairKeeps(es, i, ops);
    }
  }

  /** A blank line, then the lines after it. */
  lemma {:induction false} BlankKeeps(es: seq<Entry>, i: nat, ops: Ops)
    requires i < |es| && es[i].Blank? && Kept(es, i, ops)
    ensures var r := Fill(es, i, ops);
            Stop(|es|, r.error) <= |es| && Kept(es, Stop(|es|, r.error), r.ops)
    decreases |es| - i, 0
  {
    assert Kept(es, i + 1, ops) by {
      SkipLastWins(es, i, ops);
      SkipFirstOrder(es, i, ops);
    }
    FillKeeps(es, i + 1, ops);
    assert Fill(es, i, ops) == Fill(es, i + 1, ops);
  }

  /** A line naming a vertex and its operation, then the lines after it. */
  lemma {:induction false} PairKeeps(es: seq<Entry>, i: nat, ops: Ops)
    requires i < |es| && es[i].Pair? && Kept(es, i, ops)
    ensures var r := Fill(es, i, ops);
            Stop(|es|, r.error) <= |es| && Kept(es, Stop(|es|, r.error), r.ops)
    decreases |es| - i, 0
  {
    var next := Assign(ops, es[i].vertex, es[i].op);
    assert Kept(es, i + 1, next) by {
      AssignListed(ops, es[i].vertex, es[i].op);
      AssignLastWins(es, i, ops);
      AssignFirstOrder(es, i, ops);
    }
    FillKeeps(es, i + 1, next);
    assert Fill(es, i, ops) == Fill(es, i + 1, next);
  }

  /** `parse_operations_file(operations_file)` on the lines of a file that
      is not JSON. Every vertex is listed once in the dictionary's order.
      Up to where reading stops, each vertex has the operation of the last
      line naming it, the vertices are listed in the order of the lines
      first naming them, and no other vertex is listed. There is no error
      exactly when every line is blank or splits into two parts; an error
      names the first line that does not, with its number of parts. */
  lemma ParseOpsSpec(lines: seq<string>)
    ensures var r := ParseOps(lines);
            var es := Entries(lines);
            var n := Stop(|lines|, r.error);
            && Listed(r.ops)
            && (forall k :: Lookup(r.ops.table, k) == LastOp(es, n, k))
            && (forall p, q :: 0 <= p < q < |r.ops.order| ==> First(es, r.ops.order[p]) < First(es, r.ops.order[q]))
            && (r.error.None? <==> forall j :: 0 <= j < |lines| ==> !es[j].Bad?)
            && (r.error.Some? ==> && n < |lines| && r.error.value.line == n + 1
                                  && r.error.value.fault.FieldCount?
                                  && es[n] == Bad(r.error.value.fault.count)
                                  && forall j :: 0 <= j < n ==> !es[j].Bad?)
  {
    var es := Entries(lines);
    var empty := Ops(map[], []);
    assert Kept(es, 0, empty) by {
      assert empty.table.Keys == {} && Elems([]) == {};
    }
    FillKeeps(es, 0, empty);
    FillError(es, 0, empty);
  }

  /** A vertex and an operation that can be written as `vertex:op` and read
      back: no colon, and nothing to strip at either end. */
  predicate Field(s: string) {
    ':' !in s && Trim(s) == s
  }

  /** A line of the operations file. */
  function FormatEntry(v: string, op: string): string {
    v + ":" + op
  }

  /** The lines for a list of vertices and operations. */
  function FormatOps(pairs: seq<(string, string)>): (r: seq<string>)
    ensures |r| == |pairs| && forall j :: 0 <= j < |pairs| ==> r[j] == FormatEntry(pairs[j].0, pairs[j].1)
  {
    if pairs == [] then [] else [FormatEntry(pairs[0].0, pairs[0].1)] + FormatOps(pairs[1..])
  }

  /** The first character of a stripped, non-empty text is not white space,
      nor is its last. */
  lemma TrimEnds(s: string)
    requires Trim(s) == s && s != []
    ensures s[0] !in Whitespace && s[|s| - 1] !in Whitespace
  {
  }

  /** A written line reads back as its vertex and operation. */
  lemma ReadFormatted(v: string, op: string)
    requires Field(v) && Field(op)
    ensures ReadLine(FormatEntry(v, op)) == Pair(v, op)
  {
    var line := FormatEntry(v, op);
    assert line == v + [':'] + op;
    assert line[0] !in Whitespace && line[|line| - 1] !in Whitespace by {
      if v != [] { TrimEnds(v); assert line[0] == v[0]; }
      if op != [] { TrimEnds(op); assert line[|line| - 1] == op[|op| - 1]; }
    }
    assert Trim(line) == line;
    SplitAt(v, op, ':');
    SplitNoSep(op, ':');
  }

  /** Written lines read back as the pairs they were written from. */
  lemma EntriesFormatted(pairs: seq<(string, string)>)
    requires forall j :: 0 <= j < |pairs| ==> Field(pairs[j].0) && Field(pairs[j].1)
    ensures var es := Entries(FormatOps(pairs));
            forall j :: 0 <= j < |pairs| ==> es[j] == Pair(pairs[j].0, pairs[j].1)
  {
    var lines := FormatOps(pairs);
    forall j | 0 <= j < |pairs| ensures Entries(lines)[j] == Pair(pairs[j].0, pairs[j].1) {
      EntriesAt(lines, j);
      ReadFormatted(pairs[j].0, pairs[j].1);
    }
  }

  /** The reference for the written pairs: the operation of the last pair
      for `k` among the first `i`. */
  function LastPair(pairs: seq<(string, string)>, i: nat, k: string): Option<string>
    requires i <= |pairs|
  {
    if i == 0 then None
    else if pairs[i - 1].0 == k then Some(pairs[i - 1].1)
    else LastPair(pairs, i - 1, k)
  }

  lemma {:induction false} LastPairOp(pairs: seq<(string, string)>, es: seq<Entry>, i: nat, k: string)
    requires i <= |pairs| == |es| && forall j :: 0 <= j < |pairs| ==> es[j] == Pair(pairs[j].0, pairs[j].1)
    ensures LastOp(es, i, k) == LastPair(pairs, i, k)
  {
    if i > 0 {
      LastPairOp(pairs, es, i - 1, k);
    }
  }

  /** Writing vertices and operations one per line and reading them back
      gives no error, and each vertex the operation of the last pair for
      it; a vertex no pair names is not in the dictionary. */
  lemma {:induction false} ParseFormattedOps(pairs: seq<(string, string)>)
    requires forall j :: 0 <= j < |pairs| ==> Field(pairs[j].0) && Field(pairs[j].1)
    ensures var r := ParseOps(FormatOps(pairs));
            && r.error.None?
            && forall k :: Lookup(r.ops.table, k) == LastPair(pairs, |pairs|, k)
  {
    var lines := FormatOps(pairs);
    var es := Entries(lines);
    EntriesFormatted(pairs);
    ParseOpsSpec(lines);
    var r := ParseOps(lines);
    forall k ensures Lookup(r.ops.table, k) == LastPair(pairs, |pairs|, k) {
      LastPairOp(pairs, es, |pairs|, k);
    }
  }
}

=== FILE: pipeline.dfy ===
/** The `main` functions of nntask2.py and nntask3.py, without their file
    handling: each stage's outcome decides whether the next stage runs, and
    the first stage that fails decides what is reported. Python iterates a
    `set` in an order of its own; here the vertex set is iterated in sorted
    order, which changes neither the cycle answer (`Cycles.HasCycleCorrect`)
    nor which violations are found. */
module Pipeline {
  import opened Wrappers
  import opened Graphs
  import opened StrOrder
  import opened ArcText
  import opened Cycles
  import opened Operations
  import opened Evaluate
  import Prefix
  import ArcParse2
  import ArcParse3
  import OpsParse

  /** `has_cycle(graph)`, the vertex set iterated in sorted order: it
      answers whether the arcs have a directed cycle. */
  function CycleCheck(g: Graph): (r: bool)
    requires WellFormed(g)
    ensures r <==> Cyclic(g)
  {
    var order := Sorted(g.vertices);
    assert HasCycle(g, order) <==> Cyclic(g) by {
      HasCycleCorrect(g, order);
    }
    HasCycle(g, order)
  }

  // ---------------------------------------------------------------------------
  // nntask2.py

  /** What nntask2's `main` ends with: the parser's error, the cycle
      message, or the prefix notation. */
  datatype Report2 = BadInput(error: LineError) | HasCycles | Notation(text: string)

  /** `main()` of nntask2.py on the lines of the input file. A parse error
      stops it; otherwise a graph with a cycle gets the cycle message and
      any other graph its prefix notation. */
  function Run2(lines: seq<string>): (r: Report2)
    ensures var p := ArcParse2.ParseArcs(lines);
            && (r.BadInput? <==> p.error.Some?)
            && (r.BadInput? ==> p.error == Some(r.error))
            && (r.HasCycles? <==> p.error.None? && Cyclic(p.graph))
            && (r.Notation? ==> r.text == Prefix.ToPrefix(p.graph))
  {
    var p := ArcParse2.ParseArcs(lines);
    if p.error.Some? then BadInput(p.error.value)
    else if CycleCheck(p.graph) then HasCycles
    else Notation(Prefix.ToPrefix(p.graph))
  }

  // ---------------------------------------------------------------------------
  // nntask3.py

  /** What nntask3's `main` ends with. */
  datatype Report3 =
    | BadGraph(error: LineError)          // `parse_input_file` failed
    | NoOperations                        // no second input file given
    | BadOperations(error: LineError)     // `parse_operations_file` failed
    | Rejected(violations: seq<Violation>) // `graph_errors + operation_errors`
    | CyclicGraph                         // `has_cycle` found a cycle
    | EvalFailed(fault: EvalError)        // `evaluate_function` raised
    | Value(total: real)                  // the function's value

  /** Both validators' rules: the graph rules of `validate_graph`, and every
      operation a literal or a known operator. */
  predicate Valid(g: Graph, table: map<string, string>) {
    GraphValid(g, table) && forall u :: u in table ==> ValidOperation(table[u])
  }

  /** A violation either validator reports. */
  predicate Reports(g: Graph, table: map<string, string>, e: Violation) {
    GraphViolation(g, table, e)
    || (e.InvalidOperation? && e.vertex in table && e.op == table[e.vertex] && !ValidOperation(e.op))
  }

  /** What happens once both files have been read: the violations when
      there are any, else the cycle message for a cyclic graph, else the
      reference total of the evaluator, whose only possible error is `exp`
      given two or more arguments. */
  ghost predicate Checked(g: Graph, table: map<string, string>, exp: real -> real, r: Report3)
    requires WellFormed(g)
  {
    && (r.Rejected? <==> !Valid(g, table))
    && (r.Rejected? ==> r.violations != [] && forall e :: e in r.violations <==> Reports(g, table, e))
    && (r.CyclicGraph? <==> Valid(g, table) && Cyclic(g))
    && (Valid(g, table) && !Cyclic(g) ==>
          var env := Env(g, table, exp);
          var t := RefTotal(env, Sorted(g.vertices), {});
          && (r.Value? || r.EvalFailed?)
          && (r.Value? ==> t == Success(r.total))
          && (r.EvalFailed? ==> t == Failure(r.fault) && r.fault.ExpArity? && r.fault.count >= 2))
  }

  /** `main()` of nntask3.py on the lines of the graph file, the lines of the
      operations file when one is given, and the exponential function. The
      stages run in order (parse the graph, require the second file, parse
      the operations, validate, check for cycles, evaluate), and the first
      that fails decides the report. */
  method Run3(graphLines: seq<string>, opsLines: Option<seq<string>>, exp: real -> real) returns (r: Report3)
    ensures var p := ArcParse3.ParseArcs(graphLines);
            && (r.BadGraph? <==> p.error.Some?)
            && (r.BadGraph? ==> p.error == Some(r.error))
            && (r.NoOperations? <==> p.error.None? && opsLines.None?)
    ensures var p := ArcParse3.ParseArcs(graphLines);
            p.error.None? && opsLines.Some? ==>
              var q := OpsParse.ParseOps(opsLines.value);
              && (r.BadOperations? <==> q.error.Some?)
              && (r.BadOperations? ==> q.error == Some(r.error))
              && (q.error.None? ==> Checked(p.graph, q.ops.table, exp, r))
  {
    var p := ArcParse3.ParseArcs(graphLines);
    if p.error.Some? {
      return BadGraph(p.error.value);
    }
    if opsLines.None? {
      return NoOperations;
    }
    var q := OpsParse.ParseOps(opsLines.value);
    if q.error.Some? {
      return BadOperations(q.error.value);
    }
    OpsListed(opsLines.value);
    r := Judge(p.graph, q.ops, exp);
  }

  /** `validate_operations` finds nothing exactly when every operation in
      the table is valid. */
  lemma OperationErrorsEmpty(table: map<string, string>, keys: seq<string>)
    requires forall v :: v in keys <==> v in table
    ensures ValidateOperations(table, keys) == [] <==> forall u :: u in table ==> ValidOperation(table[u])
  {
    var errs := ValidateOperations(table, keys);
    if errs != [] {
      assert errs[0] in errs;
    } else {
      forall u | u in table ensures ValidOperation(table[u]) {
        assert InvalidOperation(u, table[u]) !in errs;
      }
    }
  }

  lemma OpsListed(lines: seq<string>)
    ensures OpsParse.Listed(OpsParse.ParseOps(lines).ops)
  {
    OpsParse.ParseOpsSpec(lines);
  }

  /** The stages after both files were read, on the graph and the
      operations in the order their vertices were first named. */
  method Judge(g: Graph, ops: OpsParse.Ops, exp: real -> real) returns (r: Report3)
    requires WellFormed(g) && OpsParse.Listed(ops)
    ensures Checked(g, ops.table, exp, r)
  {
    var table := ops.table;
    var order := Sorted(g.vertices);
    SortedDistinct(order);
    var graphErrors := ValidateGraph(g, table, order);
    ValidateGraphEmpty(g, table, order);
    var opErrors := ValidateOperations(table, ops.order);
    OperationErrorsEmpty(table, ops.order);
    var errors := graphErrors + opErrors;
    if errors != [] {
      return Rejected(errors);
    }
    if CycleCheck(g) {
      return CyclicGraph;
    }
    var env := Env(g, table, exp);
    var result := Evaluate.Evaluate(env);
    if result.Failure? {
      ValidatedErrors(env, result.error);
      return EvalFailed(result.error);
    }
    r := Value(result.value.value);
  }
}

=== FILE: prefix.dfy ===
/** `to_prefix_notation` of nntask2.py. A depth-first walk from each vertex,
    in sorted order, that was not reached before. Walking a vertex marks it
    visited. A vertex without outgoing arcs is written as its bare name.
    Otherwise it is written as its name followed by its children in
    brackets, joined by commas. The children are taken in the order of
    `sorted` on `(child, ordinal)` pairs. An unvisited child is walked in
    turn; a child already visited is written as `child()`. The walks'
    texts are concatenated.

    The walk is modelled as building a term, which is then shown as text. */
module Prefix {
  import opened Text
  import opened Graphs
  import opened Sorting
  import opened StrOrder

  /** What one call of `dfs` produces: a vertex with no children, a vertex
      with its children's terms, or a child that was already visited. */
  datatype Term = Leaf(name: string) | Node(name: string, kids: seq<Term>) | Seen(name: string)

  /** The text of a term. */
  function Show(t: Term): string
    decreases t, 1
  {
    match t
    case Leaf(v) => v
    case Seen(v) => v + "()"
    case Node(v, ks) => v + "(" + Join(ShowAll(ks), ",") + ")"
  }

  function ShowAll(ks: seq<Term>): (r: seq<string>)
    ensures |r| == |ks|
    decreases ks, 0
  {
    if ks == [] then [] else [Show(ks[0])] + ShowAll(ks[1..])
  }

  /** `sorted(children_dict[v])`: the arcs leaving `v` ordered by child,
      then ordinal. Their children are vertices of a well-formed graph. */
  function Children(g: Graph, v: string): (r: seq<Arc>)
    requires WellFormed(g)
    ensures SortedBy(ByChildThenOrdinal, r) && multiset(r) == multiset(ArcsFrom(g.arcs, v))
    ensures forall j :: 0 <= j < |r| ==> r[j].dst in g.vertices
  {
    var kids := Sort(ByChildThenOrdinal, ArcsFrom(g.arcs, v));
    assert forall j :: 0 <= j < |kids| ==> kids[j].dst in g.vertices by {
      forall j | 0 <= j < |kids| ensures kids[j].dst in g.vertices {
        assert kids[j] in multiset(kids);
      }
    }
    kids
  }

  /** `dfs(v)` with the visited set before the call: the term and the
      visited set after it. */
  function Visit(g: Graph, v: string, visited: set<string>): (r: (Term, set<string>))
    requires WellFormed(g) && v in g.vertices && v !in visited && visited <= g.vertices
    ensures visited + {v} <= r.1 <= g.vertices
    decreases g.vertices - visited, 0
  {
    var kids := Children(g, v);
    if kids == [] then (Leaf(v), visited + {v})
    else
      var (ts, after) := VisitKids(g, kids, 0, visited + {v});
      (Node(v, ts), after)
  }

  /** The loop over the sorted children from child `i` on. */
  function VisitKids(g: Graph, kids: seq<Arc>, i: nat, visited: set<string>): (r: (seq<Term>, set<string>))
    requires WellFormed(g) && i <= |kids| && visited <= g.vertices
    requires forall j :: 0 <= j < |kids| ==> kids[j].dst in g.vertices
    ensures visited <= r.1 <= g.vertices && |r.0| == |kids| - i
    decreases g.vertices - visited, 1, |kids| - i
  {
    if i == |kids| then ([], visited)
    else
      var c := kids[i].dst;
      if c in visited then
        var (ts, after) := VisitKids(g, kids, i + 1, visited);
        ([Seen(c)] + ts, after)
      else
        var (t, mid) := Visit(g, c, visited);
        var (ts, after) := VisitKids(g, kids, i + 1, mid);
        ([t] + ts, after)
  }

  /** The outer loop over `sorted(graph["vertices"])` from position `i` on. */
  function Walks(g: Graph, order: seq<string>, i: nat, visited: set<string>): (r: (seq<Term>, set<string>))
    requires WellFormed(g) && i <= |order| && visited <= g.vertices
    requires forall j :: 0 <= j < |order| ==> order[j] in g.vertices
    ensures visited <= r.1 <= g.vertices
    decreases |order| - i
  {
    if i == |order| then ([], visited)
    else if order[i] in visited then Walks(g, order, i + 1, visited)
    else
      var (t, mid) := Visit(g, order[i], visited);
      var (ts, after) := Walks(g, order, i + 1, mid);
      ([t] + ts, after)
  }

  /** The terms of all the walks. */
  function Forest(g: Graph): seq<Term>
    requires WellFormed(g)
  {
    Walks(g, Sorted(g.vertices), 0, {}).0
  }

  /** `to_prefix_notation(graph)`: `''.join(result)`. */
  function ToPrefix(g: Graph): string
    requires WellFormed(g)
  {
    Join(ShowAll(Forest(g)), "")
  }

  /** The vertices a term walks, each where its `dfs` call starts. */
  function Walked(t: Term): seq<string>
    decreases t, 1
  {
    match t
    case Leaf(v) => [v]
    case Seen(_) => []
    case Node(v, ks) => [v] + WalkedAll(ks)
  }

  function WalkedAll(ks: seq<Term>): seq<string>
    decreases ks, 0
  {
    if ks == [] then [] else Walked(ks[0]) + WalkedAll(ks[1..])
  }

  /** The name a term is written under. */
  function Head(t: Term): string {
    match t
    case Leaf(v) => v
    case Seen(v) => v
    case Node(v, _) => v
  }

  /** A term follows the rules of `dfs` when it is started with the vertices
      in `before` already visited: a child already visited is written
      `Seen`; any other term starts at a vertex not yet visited, and is a
      leaf exactly when no arc leaves it; a node lists one term per sorted
      child, named after that child, each started with the vertices visited
      by then. */
  predicate Follows(g: Graph, t: Term, before: set<string>)
    requires WellFormed(g)
    decreases t, 1
  {
    match t
    case Seen(c) => c in before
    case Leaf(v) => v !in before && ArcsFrom(g.arcs, v) == []
    case Node(v, ks) =>
      var kids := Children(g, v);
      && v !in before && kids != [] && |ks| == |kids|
      && (forall j :: 0 <= j < |ks| ==> Head(ks[j]) == kids[j].dst)
      && FollowsAll(g, ks, before + {v})
  }

  /** Terms one after the other follow the rules, each started with the
      vertices the terms before it walked also visited. */
  predicate FollowsAll(g: Graph, ks: seq<Term>, before: set<string>)
    requires WellFormed(g)
    decreases ks, 0
  {
    ks == [] || (Follows(g, ks[0], before) && FollowsAll(g, ks[1..], before + Elems(Walked(ks[0]))))
  }

  /** The outer loop's rules from position `i` of `order` on: a vertex
      already visited starts no walk; any other starts the next walk, which
      follows the rules with the vertices visited so far. */
  predicate WalksFollow(g: Graph, order: seq<string>, i: nat, visited: set<string>, ts: seq<Term>)
    requires WellFormed(g) && i <= |order|
    decreases |order| - i
  {
    if i == |order| then ts == []
    else if order[i] in visited then WalksFollow(g, order, i + 1, visited, ts)
    else
      && ts != [] && Head(ts[0]) == order[i] && Follows(g, ts[0], visited)
      && WalksFollow(g, order, i + 1, visited + Elems(Walked(ts[0])), ts[1..])
  }

  /** Walking a vertex walks exactly the vertices it adds to the visited
      set, each once, starting with itself; its term follows the rules of
      `dfs` from the visited set it started with. */
  lemma {:induction false} VisitSpec(g: Graph, v: string, visited: set<string>)
    requires WellFormed(g) && v in g.vertices && v !in visited && visited <= g.vertices
    ensures var (t, after) := Visit(g, v, visited);
            && Distinct(Walked(t)) && Elems(Walked(t)) == after - visited
            && Head(t) == v && !t.Seen? && Follows(g, t, visited)
    decreases g.vertices - visited, 0
  {
    var kids := Children(g, v);
    if kids == [] {
      ChildrenEmpty(g, v);
    } else {
      VisitKidsSpec(g, kids, 0, visited + {v}, v);
      var (ts, after) := VisitKids(g, kids, 0, visited + {v});
      assert Visit(g, v, visited) == (Node(v, ts), after);
      var w := WalkedAll(ts);
      assert v !in Elems(w);
      DistinctAppend([v], w);
      ElemsConcat([v], w);
      assert Elems([v]) == {v};
    }
  }

  /** A vertex has sorted children exactly when an arc leaves it. */
  lemma ChildrenEmpty(g: Graph, v: string)
    requires WellFormed(g)
    ensures Children(g, v) == [] <==> ArcsFrom(g.arcs, v) == []
  {
    assert |Children(g, v)| == |ArcsFrom(g.arcs, v)| by {
      assert multiset(Children(g, v)) == multiset(ArcsFrom(g.arcs, v));
    }
  }

  /** What the children's loop from child `i` on promises: its walks
      together walk exactly the vertices they add to the visited set, each
      once; the term of child `j` is named after it; and the terms follow
      the rules of `dfs` from the visited set the loop started with, so the
      term of a child is `Seen` exactly when that child was visited before
      it. */
  predicate KidsWalked(g: Graph, kids: seq<Arc>, i: nat, visited: set<string>, ts: seq<Term>, after: set<string>)
    requires WellFormed(g) && i <= |kids|
  {
    && |ts| == |kids| - i
    && Distinct(WalkedAll(ts)) && Elems(WalkedAll(ts)) == after - visited
    && (forall j :: 0 <= j < |ts| ==> Head(ts[j]) == kids[i + j].dst)
    && FollowsAll(g, ts, visited)
  }

  lemma {:induction false} VisitKidsSpec(g: Graph, kids: seq<Arc>, i: nat, visited: set<string>, v: string)
    requires WellFormed(g) && i <= |kids| && visited <= g.vertices && v in visited
    requires forall j :: 0 <= j < |kids| ==> kids[j].dst in g.vertices
    ensures var (ts, after) := VisitKids(g, kids, i, visited);
            KidsWalked(g, kids, i, visited, ts, after)
    decreases g.vertices - visited, 1, |kids| - i, 1
  {
    if i < |kids| {
      if kids[i].dst in visited {
        SeenStep(g, kids, i, visited, v);
      } else {
        WalkStep(g, kids, i, visited, v);
      }
    }
  }

  /** A child already visited is written as `child()` and walks nothing. */
  lemma {:induction false} SeenStep(g: Graph, kids: seq<Arc>, i: nat, visited: set<string>, v: string)
    requires WellFormed(g) && i < |kids| && visited <= g.vertices && v in visited
    requires forall j :: 0 <= j < |kids| ==> kids[j].dst in g.vertices
    requires kids[i].dst in visited
    ensures var (ts, after) := VisitKids(g, kids, i, visited);
            KidsWalked(g, kids, i, visited, ts, after)
    decreases g.vertices - visited, 1, |kids| - i, 0
  {
    var c := kids[i].dst;
    VisitKidsSpec(g, kids, i + 1, visited, v);
    var (ts, after) := VisitKids(g, kids, i + 1, visited);
    var all := [Seen(c)] + ts;
    assert VisitKids(g, kids, i, visited) == (all, after);
    assert all[1..] == ts;
    assert WalkedAll(all) == WalkedAll(ts);
    assert visited + Elems(Walked(Seen(c))) == visited;
    forall j | 0 <= j < |all| ensures Head(all[j]) == kids[i + j].dst {
      if j > 0 { assert all[j] == ts[j - 1]; }
    }
  }

  /** A child not yet visited is walked, then the loop goes on from the
      visited set that walk leaves. */
  lemma {:induction false} WalkStep(g: Graph, kids: seq<Arc>, i: nat, visited: set<string>, v: string)
    requires WellFormed(g) && i < |kids| && visited <= g.vertices && v in visited
    requires forall j :: 0 <= j < |kids| ==> kids[j].dst in g.vertices
    requires kids[i].dst !in visited
    ensures var (ts, after) := VisitKids(g, kids, i, visited);
            KidsWalked(g, kids, i, visited, ts, after)
    decreases g.vertices - visited, 1, |kids| - i, 0
  {
    var c := kids[i].dst;
    var (t, mid) := Visit(g, c, visited);
    assert && Distinct(Walked(t)) && Elems(Walked(t)) == mid - visited
           && Head(t) == c && Follows(g, t, visited) by {
      VisitSpec(g, c, visited);
    }
    assert visited <= mid && mid <= g.vertices && v in mid;
    var (ts, after) := VisitKids(g, kids, i + 1, mid);
    assert KidsWalked(g, kids, i + 1, mid, ts, after) by {
      VisitKidsSpec(g, kids, i + 1, mid, v);
    }
    var all := [t] + ts;
    assert VisitKids(g, kids, i, visited) == (all, after);
    assert all[0] == t && all[1..] == ts;
    assert WalkedAll(all) == Walked(t) + WalkedAll(ts);
    assert mid == visited + Elems(Walked(t));
    assert FollowsAll(g, all, visited);
    forall j | 0 <= j < |all| ensures Head(all[j]) == kids[i + j].dst {
      if j > 0 { assert all[j] == ts[j - 1]; }
    }
    DistinctConcat(Walked(t), WalkedAll(ts));
    ElemsConcat(Walked(t), WalkedAll(ts));
  }

  /** The outer loop walks exactly the vertices it adds to the visited set,
      each once, and every vertex from position `i` on ends up visited; the
      walks start, in order, at the vertices of `order` not visited by
      then, and each follows the rules of `dfs`. */
  lemma {:induction false} WalksSpec(g: Graph, order: seq<string>, i: nat, visited: set<string>)
    requires WellFormed(g) && i <= |order| && visited <= g.vertices
    requires forall j :: 0 <= j < |order| ==> order[j] in g.vertices
    ensures var (ts, after) := Walks(g, order, i, visited);
            WalksDone(g, order, i, visited, ts, after)
    decreases |order| - i, 1
  {
    if i < |order| {
      if order[i] in visited {
        WalksSpec(g, order, i + 1, visited);
      } else {
        WalkFrom(g, order, i, visited);
      }
    }
  }

  /** What the outer loop from position `i` on promises. */
  predicate WalksDone(g: Graph, order: seq<string>, i: nat, visited: set<string>, ts: seq<Term>, after: set<string>)
    requires WellFormed(g) && i <= |order|
  {
    && Distinct(WalkedAll(ts)) && Elems(WalkedAll(ts)) == after - visited
    && (forall j :: i <= j < |order| ==> order[j] in after)
    && WalksFollow(g, order, i, visited, ts)
  }

  /** A vertex not yet visited starts a walk, then the loop goes on. */
  lemma {:induction false} WalkFrom(g: Graph, order: seq<string>, i: nat, visited: set<string>)
    requires WellFormed(g) && i < |order| && visited <= g.vertices
    requires forall j :: 0 <= j < |order| ==> order[j] in g.vertices
    requires order[i] !in visited
    ensures var (ts, after) := Walks(g, order, i, visited);
            WalksDone(g, order, i, visited, ts, after)
    decreases |order| - i, 0
  {
    VisitSpec(g, order[i], visited);
    var (t, mid) := Visit(g, order[i], visited);
    WalksSpec(g, order, i + 1, mid);
    var (ts, after) := Walks(g, order, i + 1, mid);
    assert Walks(g, order, i, visited) == ([t] + ts, after);
    assert ([t] + ts)[0] == t && ([t] + ts)[1..] == ts;
    assert mid == visited + Elems(Walked(t));
    assert WalkedAll([t] + ts) == Walked(t) + WalkedAll(ts);
    DistinctConcat(Walked(t), WalkedAll(ts));
    ElemsConcat(Walked(t), WalkedAll(ts));
  }

  /** The rendering walks every vertex exactly once. Its walks start, in
      sorted order, at each vertex no earlier walk reached, and each follows
      the rules of `dfs`: a child already visited is written `child()`, any
      other child is walked in turn, a leaf is a vertex without outgoing
      arcs, and a node lists its children in `(child, ordinal)` order. */
  lemma ForestSpec(g: Graph)
    requires WellFormed(g)
    ensures Distinct(WalkedAll(Forest(g))) && Elems(WalkedAll(Forest(g))) == g.vertices
    ensures WalksFollow(g, Sorted(g.vertices), 0, {}, Forest(g))
  {
    var order := Sorted(g.vertices);
    WalksSpec(g, order, 0, {});
    var (ts, after) := Walks(g, order, 0, {});
    assert after == g.vertices by {
      forall v | v in g.vertices ensures v in after {
        var j :| 0 <= j < |order| && order[j] == v;
      }
    }
  }

  /** The rules of `dfs` leave no choice: the forest is the only list of
      terms that follows them, so it fixes the text written. */
  lemma ForestUnique(g: Graph, ts: seq<Term>)
    requires WellFormed(g) && WalksFollow(g, Sorted(g.vertices), 0, {}, ts)
    ensures ts == Forest(g)
  {
    ForestSpec(g);
    WalksUnique(g, Sorted(g.vertices), 0, {}, ts, Forest(g));
  }

  /** Two lists of walks that follow the outer loop's rules are the same. */
  lemma {:induction false} WalksUnique(g: Graph, order: seq<string>, i: nat, visited: set<string>,
                                       ts: seq<Term>, us: seq<Term>)
    requires WellFormed(g) && i <= |order|
    requires WalksFollow(g, order, i, visited, ts) && WalksFollow(g, order, i, visited, us)
    ensures ts == us
    decreases |order| - i
  {
    if i < |order| {
      if order[i] in visited {
        WalksUnique(g, order, i + 1, visited, ts, us);
      } else {
        FollowsUnique(g, ts[0], us[0], visited);
        WalksUnique(g, order, i + 1, visited + Elems(Walked(ts[0])), ts[1..], us[1..]);
        assert ts == [ts[0]] + ts[1..] && us == [us[0]] + us[1..];
      }
    }
  }

  /** Two terms under the same name that follow the rules from the same
      visited set are the same term. */
  lemma {:induction false} FollowsUnique(g: Graph, t: Term, u: Term, before: set<string>)
    requires WellFormed(g) && Follows(g, t, before) && Follows(g, u, before) && Head(t) == Head(u)
    ensures t == u
    decreases t, 1
  {
    ChildrenEmpty(g, Head(t));
    match t
    case Seen(_) =>
    case Leaf(_) =>
    case Node(v, ks) =>
      var ls := u.kids;
      FollowsAllUnique(g, ks, ls, before + {v});
  }

  /** Two lists of terms under the same names that follow the rules from the
      same visited set are the same. */
  lemma {:induction false} FollowsAllUnique(g: Graph, ks: seq<Term>, ls: seq<Term>, before: set<string>)
    requires WellFormed(g) && FollowsAll(g, ks, before) && FollowsAll(g, ls, before)
    requires |ks| == |ls| && forall j :: 0 <= j < |ks| ==> Head(ks[j]) == Head(ls[j])
    ensures ks == ls
    decreases ks, 0
  {
    if ks != [] {
      FollowsUnique(g, ks[0], ls[0], before);
      assert forall j :: 0 <= j < |ks| - 1 ==> ks[1..][j] == ks[j + 1] && ls[1..][j] == ls[j + 1];
      FollowsAllUnique(g, ks[1..], ls[1..], before + Elems(Walked(ks[0])));
      assert ks == [ks[0]] + ks[1..] && ls == [ls[0]] + ls[1..];
    }
  }

  /** Without arcs every vertex is a leaf, and the text is the vertices'
      names in sorted order, run together. */
  lemma NoArcs(g: Graph)
    requires WellFormed(g) && g.arcs == []
    ensures ToPrefix(g) == Join(Sorted(g.vertices), "")
  {
    var order := Sorted(g.vertices);
    SortedDistinct(order);
    LeavesFrom(g, order, 0, {});
    assert order[0..] == order;
  }

  /** With no arcs, the walks from position `i` on are the leaves of the
      vertices not yet visited, in order. */
  lemma {:induction false} LeavesFrom(g: Graph, order: seq<string>, i: nat, visited: set<string>)
    requires WellFormed(g) && g.arcs == [] && i <= |order| && visited <= g.vertices
    requires forall j :: 0 <= j < |order| ==> order[j] in g.vertices
    requires Distinct(order) && forall j :: i <= j < |order| ==> order[j] !in visited
    ensures ShowAll(Walks(g, order, i, visited).0) == order[i..]
    decreases |order| - i
  {
    if i < |order| {
      var v := order[i];
      assert Children(g, v) == [];
      assert Visit(g, v, visited) == (Leaf(v), visited + {v});
      LeavesFrom(g, order, i + 1, visited + {v});
      assert order[i..] == [v] + order[i + 1..];
    }
  }
}

=== FILE: sorting.dfy ===
/** Python's `sorted` on a vertex's outgoing arcs, in the two orders the
    programs use: by ordinal alone (`key=lambda x: x[1]` in nntask3.py), and
    by the `(child, ordinal)` tuple (nntask2.py). `sorted` is stable, so arcs
    the key cannot tell apart keep the order they were read in. */
module Sorting {
  import opened Graphs
  import StrOrder

  datatype Key = ByOrdinal | ByChildThenOrdinal

  /** `a` may be placed before `b` under the key. */
  predicate Le(k: Key, a: Arc, b: Arc) {
    match k
    case ByOrdinal => a.ord <= b.ord
    case ByChildThenOrdinal => StrOrder.Less(a.dst, b.dst) || (a.dst == b.dst && a.ord <= b.ord)
  }

  /** The key cannot tell `a` and `b` apart. */
  predicate Tie(k: Key, a: Arc, b: Arc) {
    Le(k, a, b) && Le(k, b, a)
  }

  lemma LeTotal(k: Key, a: Arc, b: Arc)
    ensures Le(k, a, b) || Le(k, b, a)
  {
    StrOrder.Total(a.dst, b.dst);
  }

  lemma LeTransitive(k: Key, a: Arc, b: Arc, c: Arc)
    requires Le(k, a, b) && Le(k, b, c)
    ensures Le(k, a, c)
  {
    if k.ByChildThenOrdinal? {
      if StrOrder.Less(a.dst, b.dst) && StrOrder.Less(b.dst, c.dst) {
        StrOrder.Transitive(a.dst, b.dst, c.dst);
      }
    }
  }

  predicate SortedBy(k: Key, s: seq<Arc>) {
    forall i, j :: 0 <= i < j < |s| ==> Le(k, s[i], s[j])
  }

  /** The elements of `s` tied with `x`, in their order in `s`. */
  function Ties(k: Key, x: Arc, s: seq<Arc>): seq<Arc> {
    if s == [] then [] else (if Tie(k, x, s[0]) then [s[0]] else []) + Ties(k, x, s[1..])
  }

  lemma ConsSorted(k: Key, h: Arc, t: seq<Arc>)
    requires SortedBy(k, t)
    requires forall y :: y in multiset(t) ==> Le(k, h, y)
    ensures SortedBy(k, [h] + t)
  {
    forall i, j | 0 <= i < j < |[h] + t| ensures Le(k, ([h] + t)[i], ([h] + t)[j]) {
      if i == 0 {
        assert ([h] + t)[j] == t[j - 1];
        assert t[j - 1] in multiset(t);
      } else {
        assert ([h] + t)[i] == t[i - 1] && ([h] + t)[j] == t[j - 1];
      }
    }
  }

  /** Places `x` in front of the first element it may precede. */
  function Insert(k: Key, x: Arc, s: seq<Arc>): (r: seq<Arc>)
    requires SortedBy(k, s)
    ensures SortedBy(k, r)
    ensures multiset(r) == multiset(s) + multiset{x}
  {
    if s == [] then [x]
    else if Le(k, x, s[0]) then
      assert forall y :: y in multiset(s) ==> Le(k, x, y) by {
        forall y | y in multiset(s) ensures Le(k, x, y) {
          var j :| 0 <= j < |s| && s[j] == y;
          if j > 0 { LeTransitive(k, x, s[0], s[j]); }
        }
      }
      ConsSorted(k, x, s);
      [x] + s
    else
      LeTotal(k, x, s[0]);
      var t := Insert(k, x, s[1..]);
      assert s == [s[0]] + s[1..];
      assert forall y :: y in multiset(t) ==> Le(k, s[0], y) by {
        forall y | y in multiset(t) ensures Le(k, s[0], y) {
          if y != x {
            assert y in multiset(s[1..]);
            var j :| 0 <= j < |s[1..]| && s[1..][j] == y;
            assert s[j + 1] == y;
          }
        }
      }
      ConsSorted(k, s[0], t);
      [s[0]] + t
  }

  /** Insertion sort, which is stable: the model of `sorted`. */
  function Sort(k: Key, s: seq<Arc>): (r: seq<Arc>)
    ensures SortedBy(k, r)
    ensures multiset(r) == multiset(s)
    ensures |r| == |s|
  {
    if s == [] then []
    else
      assert s == [s[0]] + s[1..];
      Insert(k, s[0], Sort(k, s[1..]))
  }

  lemma {:induction false} InsertTies(k: Key, x: Arc, s: seq<Arc>, y: Arc)
    requires SortedBy(k, s)
    ensures Ties(k, y, Insert(k, x, s)) == (if Tie(k, y, x) then [x] else []) + Ties(k, y, s)
  {
    if s == [] || Le(k, x, s[0]) {
      assert Insert(k, x, s) == [x] + s;
      TiesCons(k, y, x, s);
    } else {
      var t := Insert(k, x, s[1..]);
      assert Insert(k, x, s) == [s[0]] + t;
      InsertTies(k, x, s[1..], y);
      assert s == [s[0]] + s[1..];
      TiesPast(k, y, x, s[0], s[1..], t);
    }
  }

  lemma TiesCons(k: Key, y: Arc, h: Arc, t: seq<Arc>)
    ensures Ties(k, y, [h] + t) == (if Tie(k, y, h) then [h] else []) + Ties(k, y, t)
  {
    assert ([h] + t)[1..] == t;
  }

  /** Moving `x` past a head `h` that must precede it keeps the ties with `y`
      in order: `x` and `h` cannot both tie with `y`. */
  lemma TiesPast(k: Key, y: Arc, x: Arc, h: Arc, rest: seq<Arc>, t: seq<Arc>)
    requires !Le(k, x, h)
    requires Ties(k, y, t) == (if Tie(k, y, x) then [x] else []) + Ties(k, y, rest)
    ensures Ties(k, y, [h] + t) == (if Tie(k, y, x) then [x] else []) + Ties(k, y, [h] + rest)
  {
    TiesCons(k, y, h, t);
    TiesCons(k, y, h, rest);
    if Tie(k, y, x) && Tie(k, y, h) {
      LeTransitive(k, x, y, h);
    }
  }

  /** Stability: for every arc `y`, the arcs tied with `y` appear in the
      sorted list in the same order as in the input. */
  lemma {:induction false} SortStable(k: Key, s: seq<Arc>, y: Arc)
    ensures Ties(k, y, Sort(k, s)) == Ties(k, y, s)
  {
    if s != [] {
      SortStable(k, s[1..], y);
      InsertTies(k, s[0], Sort(k, s[1..]), y);
    }
  }

  /** Sorting an already sorted list leaves it unchanged; in particular
      sorting twice is the same as sorting once. */
  lemma {:induction false} SortSorted(k: Key, s: seq<Arc>)
    requires SortedBy(k, s)
    ensures Sort(k, s) == s
  {
    if s != [] {
      SortSorted(k, s[1..]);
      assert s == [s[0]] + s[1..];
    }
  }

  lemma SortIdempotent(k: Key, s: seq<Arc>)
    ensures Sort(k, Sort(k, s)) == Sort(k, s)
  {
    SortSorted(k, Sort(k, s));
  }
}

=== FILE: splitread.dfy ===
/** The splitting reading of an arc line that nntask1.py and nntask2.py share:
    the stripped line loses its spaces and tabs, is split on `),(`, and each
    piece, stripped of brackets, is split on commas into `a, b, n`. Unpacking
    needs exactly three fields; `int(n)` may then still fail. */
module SplitRead {
  import opened Wrappers
  import opened Text
  import opened Numerals
  import opened Graphs
  import opened ArcText

  /** One piece, read: three fields with the ordinal as `int(n)` gives it
      (`None` where it raises), or the number of fields when it is not three. */
  datatype PieceRead = Fields(src: string, dst: string, text: string, ord: Option<int>) | Miscount(count: nat)

  /** `a, b, n = arc.strip('()').split(',')` and `int(n)`. Three fields are
      the comma-free parts the stripped piece is made of. */
  function ReadPiece(piece: string): (r: PieceRead)
    ensures var t := Strip(piece, Parens);
            && (r.Miscount? <==> |Split(t, ',')| != 3)
            && (r.Miscount? ==> r.count == |Split(t, ',')|)
            && (r.Fields? ==> && ',' !in r.src && ',' !in r.dst && ',' !in r.text
                              && r.src + "," + r.dst + "," + r.text == t)
    ensures r.Fields? ==> r.ord == ParseInt(r.text)
  {
    var t := Strip(piece, Parens);
    var fs := Split(t, ',');
    if |fs| != 3 then Miscount(|fs|)
    else
      assert fs[0] in fs && fs[1] in fs && fs[2] in fs;
      assert fs == [fs[0], fs[1], fs[2]];
      Join3(fs[0], fs[1], fs[2], ",");
      Fields(fs[0], fs[1], fs[2], ParseInt(fs[2]))
  }

  /** Every piece of the stripped line, read. */
  function LineReads(line: string): (r: seq<PieceRead>)
    ensures var ps := Pieces(Trim(line));
            |r| == |ps| && forall j :: 0 <= j < |ps| ==> r[j] == ReadPiece(ps[j])
  {
    var ps := Pieces(Trim(line));
    seq(|ps|, j requires 0 <= j < |ps| => ReadPiece(ps[j]))
  }

  /** The exception a read piece raises, if any: `ValueError` from unpacking
      the wrong number of fields, or from `int(n)`. */
  function PieceFault(r: PieceRead): (f: Option<Fault>)
    ensures f.None? <==> r.Fields? && r.ord.Some?
  {
    match r
    case Miscount(c) => Some(FieldCount(c))
    case Fields(_, _, t, o) => if o.None? then Some(BadOrdinal(t)) else None
  }

  /** The fault of the first piece that raises, if any. */
  function PiecesFault(rs: seq<PieceRead>): Option<Fault> {
    if rs == [] then None
    else if PieceFault(rs[0]).Some? then PieceFault(rs[0])
    else PiecesFault(rs[1..])
  }

  /** The pieces raise nothing exactly when every one of them reads. */
  lemma {:induction false} PiecesFaultNone(rs: seq<PieceRead>)
    ensures PiecesFault(rs).None? <==> forall j :: 0 <= j < |rs| ==> PieceFault(rs[j]).None?
  {
    if rs != [] {
      PiecesFaultNone(rs[1..]);
      assert forall j :: 0 < j < |rs| ==> rs[j] == rs[1..][j - 1];
    }
  }

  /** The names left behind by the piece that stops a line: both names when it
      is the ordinal that does not read, none otherwise. */
  function Stray(rs: seq<PieceRead>): set<string> {
    if rs == [] then {}
    else if rs[0].Miscount? then {}
    else if rs[0].ord.None? then {rs[0].src, rs[0].dst}
    else Stray(rs[1..])
  }

  /** The arc a piece reads as, once its ordinal is read. */
  function PieceArc(r: PieceRead): Arc
    requires r.Fields? && r.ord.Some?
  {
    Arc(r.src, r.dst, r.ord.value)
  }

  /** The arcs of pieces that all read, in order. */
  function PieceArcs(rs: seq<PieceRead>): (r: seq<Arc>)
    requires forall j :: 0 <= j < |rs| ==> PieceFault(rs[j]).None?
    ensures |r| == |rs|
    ensures forall j :: 0 <= j < |rs| ==> PieceFault(rs[j]).None? && r[j] == PieceArc(rs[j])
  {
    if rs == [] then []
    else
      assert PieceFault(rs[0]).None?;
      assert forall j :: 0 <= j < |rs| - 1 ==> rs[1..][j] == rs[j + 1];
      [PieceArc(rs[0])] + PieceArcs(rs[1..])
  }

  /** How a written arc's triple reads: its names, and its ordinal as text
      and as a number. */
  function Written(a: Arc): PieceRead {
    Fields(a.src, a.dst, IntToString(a.ord), Some(a.ord))
  }

  /** Pieces that read as written arcs all read, as those arcs. */
  lemma WrittenArcs(rs: seq<PieceRead>, row: seq<Arc>)
    requires |rs| == |row| && forall j :: 0 <= j < |rs| ==> rs[j] == Written(row[j])
    ensures forall j :: 0 <= j < |rs| ==> PieceFault(rs[j]).None?
    ensures PieceArcs(rs) == row
  {
    assert forall j :: 0 <= j < |rs| ==> PieceFault(rs[j]).None? && PieceArc(rs[j]) == row[j];
  }

  /** Every piece of a written line reads back as its arc. */
  lemma LineReadsFormatted(row: seq<Arc>)
    requires row != [] && PlainArcs(row)
    ensures var rs := LineReads(FormatLine(row));
            |rs| == |row| && forall j :: 0 <= j < |row| ==> rs[j] == Written(row[j])
  {
    var ts := Triples(row);
    var line := FormatLine(row);
    assert Trim(line) == line by {
      assert line[0] == '(' && line[|line| - 1] == ')';
      BracketedTrim(line);
    }
    assert Pieces(line) == Framed("(", ts) by {
      TriplesFree(row);
      PiecesFormatted(ts);
    }
    assert |Framed("(", ts)| == |row| by {
      FramedAt("(", ts, 0);
    }
    forall j | 0 <= j < |row| ensures ReadPiece(Framed("(", ts)[j]) == Written(row[j]) {
      PieceReads(row, j);
    }
  }

  /** Piece `j` of a written line reads as arc `j`. */
  lemma PieceReads(row: seq<Arc>, j: nat)
    requires j < |row| && PlainArcs(row)
    ensures |Framed("(", Triples(row))| == |row|
    ensures ReadPiece(Framed("(", Triples(row))[j]) == Written(row[j])
  {
    var ts := Triples(row);
    var a := row[j];
    TripleFree(a);
    StripPiece(ts, j);
    TripleReads(Framed("(", ts)[j], a);
  }

  /** A piece that strips to an arc's triple reads as that arc. */
  lemma TripleReads(piece: string, a: Arc)
    requires Plain(a.src) && Plain(a.dst) && Strip(piece, Parens) == Triple(a)
    ensures ReadPiece(piece) == Written(a)
  {
    assert Split(Triple(a), ',') == [a.src, a.dst, IntToString(a.ord)] by {
      TripleFields(a);
    }
    ParseIntToString(a.ord);
  }
}

=== FILE: strorder.dfy ===
/** Python's ordering of `str` values and the `sorted(...)` enumeration of a set
    of vertex names. */
module StrOrder {

  /** `a < b` on Python strings: lexicographic by code point, a proper prefix
      before any of its extensions. */
  predicate Less(a: string, b: string) {
    if |a| == 0 then |b| > 0
    else if |b| == 0 then false
    else a[0] < b[0] || (a[0] == b[0] && Less(a[1..], b[1..]))
  }

  lemma {:induction false} Irreflexive(a: string)
    ensures !Less(a, a)
  {
    if |a| > 0 {
      Irreflexive(a[1..]);
    }
  }

  lemma {:induction false} Asymmetric(a: string, b: string)
    requires Less(a, b)
    ensures !Less(b, a)
  {
    if |a| > 0 && |b| > 0 && a[0] == b[0] {
      Asymmetric(a[1..], b[1..]);
    }
  }

  lemma {:induction false} Transitive(a: string, b: string, c: string)
    requires Less(a, b) && Less(b, c)
    ensures Less(a, c)
  {
    if |a| > 0 && |b| > 0 && |c| > 0 && a[0] == b[0] == c[0] {
      Transitive(a[1..], b[1..], c[1..]);
    }
  }

  /** Two different strings are always ordered one way or the other. */
  lemma {:induction false} Total(a: string, b: string)
    ensures a == b || Less(a, b) || Less(b, a)
  {
    if |a| > 0 && |b| > 0 && a[0] == b[0] {
      Total(a[1..], b[1..]);
      if a[1..] == b[1..] {
        assert a == [a[0]] + a[1..] && b == [b[0]] + b[1..];
      }
    }
  }

  lemma AsymmetricAll()
    ensures forall a, b :: Less(a, b) ==> !Less(b, a)
  {
    forall a, b | Less(a, b) ensures !Less(b, a) {
      Asymmetric(a, b);
    }
  }

  predicate IsLeast(m: string, vs: set<string>) {
    m in vs && forall v :: v in vs ==> v == m || Less(m, v)
  }

  /** Every non-empty finite set of strings has a least element. */
  lemma {:induction false} LeastExists(vs: set<string>)
    requires vs != {}
    ensures exists m :: IsLeast(m, vs)
    decreases vs
  {
    var x :| x in vs;
    if vs != {x} {
      LeastExists(vs - {x});
      var m :| IsLeast(m, vs - {x});
      Total(x, m);
      if Less(x, m) {
        forall v | v in vs ensures v == x || Less(x, v) {
          if v != x && v != m {
            Transitive(x, m, v);
          }
        }
        assert IsLeast(x, vs);
      } else {
        assert IsLeast(m, vs);
      }
    } else {
      Irreflexive(x);
      assert IsLeast(x, vs);
    }
  }

  predicate StrictlySorted(s: seq<string>) {
    forall i, j :: 0 <= i < j < |s| ==> Less(s[i], s[j])
  }

  /** A strictly increasing list has no element twice. */
  lemma SortedDistinct(s: seq<string>)
    requires StrictlySorted(s)
    ensures forall i, j :: 0 <= i < j < |s| ==> s[i] != s[j]
  {
    forall i, j | 0 <= i < j < |s| ensures s[i] != s[j] {
      Irreflexive(s[i]);
    }
  }

  /** `sorted(vs)`: the elements of `vs` listed once each in increasing order. */
  function Sorted(vs: set<string>): (r: seq<string>)
    ensures StrictlySorted(r)
    ensures forall v :: v in r <==> v in vs
    ensures |r| == |vs|
    decreases vs
  {
    if vs == {} then []
    else
      LeastExists(vs);
      AsymmetricAll();
      var m :| IsLeast(m, vs);
      [m] + Sorted(vs - {m})
  }
}

=== FILE: text.dfy ===
/** String operations the three programs use: Python's `strip`, `replace`, `split`
    and `join` on `str`, restricted to the ASCII behaviour the inputs exercise. */
module Text {

  /** The characters Python's argument-less `str.strip()` removes, within ASCII. */
  const Whitespace: set<char> := {' ', '\t', '\n', '\r', 11 as char, 12 as char,
                                  28 as char, 29 as char, 30 as char, 31 as char}

  /** Python's `str.isdigit()` on one ASCII character. */
  predicate IsDigit(c: char) {
    '0' <= c <= '9'
  }

  /** Python's `str.isdigit()`: non-empty and every character a digit. */
  predicate IsDigits(s: string) {
    |s| > 0 && forall i :: 0 <= i < |s| ==> IsDigit(s[i])
  }

  /** `s.lstrip(chars)`: drops the leading characters that are in `cs`. */
  function StripLeft(s: string, cs: set<char>): (r: string)
    ensures |r| <= |s| && r == s[|s| - |r|..]
    ensures forall i :: 0 <= i < |s| - |r| ==> s[i] in cs
    ensures |r| > 0 ==> r[0] !in cs
  {
    if |s| > 0 && s[0] in cs then StripLeft(s[1..], cs) else s
  }

  /** `s.rstrip(chars)`: drops the trailing characters that are in `cs`. */
  function StripRight(s: string, cs: set<char>): (r: string)
    ensures |r| <= |s| && r == s[..|r|]
    ensures forall i :: |r| <= i < |s| ==> s[i] in cs
    ensures |r| > 0 ==> r[|r| - 1] !in cs
  {
    if |s| > 0 && s[|s| - 1] in cs then StripRight(s[..|s| - 1], cs) else s
  }

  /** `s.strip(chars)`: drops characters of `cs` from both ends. The result
      is empty exactly when every character is in `cs`, and a string whose ends
      are not in `cs` is left as it is. */
  function Strip(s: string, cs: set<char>): (r: string)
    ensures |r| <= |s|
    ensures |r| > 0 ==> r[0] !in cs && r[|r| - 1] !in cs
    ensures r == [] <==> forall k :: 0 <= k < |s| ==> s[k] in cs
    ensures (|s| == 0 || (s[0] !in cs && s[|s| - 1] !in cs)) ==> r == s
  {
    var l := StripLeft(s, cs);
    var r := StripRight(l, cs);
    r
  }

  /** `r` is `s[i..i + |r|]`, and every character of `s` around it is in `cs`. */
  predicate StrippedAt(s: string, cs: set<char>, r: string, i: int) {
    && 0 <= i && i + |r| <= |s| && r == s[i..i + |r|]
    && (forall k :: 0 <= k < i ==> s[k] in cs)
    && (forall k :: i + |r| <= k < |s| ==> s[k] in cs)
  }

  /** What `strip` keeps is a slice of `s` with only characters of `cs`
      around it and neither end in `cs`: the longest such slice. */
  lemma StripSlice(s: string, cs: set<char>)
    ensures var r := Strip(s, cs);
            && (exists i :: StrippedAt(s, cs, r, i))
            && (|r| > 0 ==> r[0] !in cs && r[|r| - 1] !in cs)
  {
    var l := StripLeft(s, cs);
    var r := StripRight(l, cs);
    assert r == l[..|r|] && l == s[|s| - |l|..];
    assert forall k :: |s| - |l| + |r| <= k < |s| ==> s[k] == l[k - (|s| - |l|)];
    assert Strip(s, cs) == r;
    assert StrippedAt(s, cs, r, |s| - |l|);
  }

  /** Python's argument-less `str.strip()`. */
  function Trim(s: string): (r: string)
    ensures r == [] <==> forall k :: 0 <= k < |s| ==> s[k] in Whitespace
  {
    Strip(s, Whitespace)
  }

  /** `s.replace(c, "")`: every occurrence of `c` deleted, the rest kept in order. */
  function RemoveAll(s: string, c: char): (r: string)
    ensures c !in r
    ensures forall x :: x in r <==> x in s && x != c
    ensures c !in s ==> r == s
    ensures |r| <= |s|
  {
    if s == [] then []
    else (if s[0] == c then [] else [s[0]]) + RemoveAll(s[1..], c)
  }

  /** The position of the first occurrence of `c` in `s`. */
  function IndexOf(s: string, c: char): (i: nat)
    requires c in s
    ensures i < |s| && s[i] == c && c !in s[..i]
  {
    if s[0] == c then 0
    else
      var j := IndexOf(s[1..], c);
      assert s[..j + 1] == [s[0]] + s[1..][..j];
      j + 1
  }

  /** `s.replace(c, "", 1)`: only the first occurrence of `c` deleted. */
  function RemoveFirst(s: string, c: char): (r: string)
    ensures c !in s ==> r == s
    ensures c in s ==> |r| == |s| - 1 && r == s[..IndexOf(s, c)] + s[IndexOf(s, c) + 1..]
  {
    if c in s then
      var i := IndexOf(s, c);
      s[..i] + s[i + 1..]
    else s
  }

  /** `sep.join(parts)`. */
  function Join(parts: seq<string>, sep: string): string {
    if |parts| == 0 then []
    else if |parts| == 1 then parts[0]
    else parts[0] + sep + Join(parts[1..], sep)
  }

  lemma JoinCons(x: string, p: string, q: seq<string>, sep: string)
    ensures Join([x + p] + q, sep) == x + Join([p] + q, sep)
  {
    if |q| > 0 {
      assert ([x + p] + q)[1..] == q;
      assert ([p] + q)[1..] == q;
    }
  }

  lemma Join3(a: string, b: string, c: string, sep: string)
    ensures Join([a, b, c], sep) == a + sep + b + sep + c
  {
    assert [a, b, c][1..] == [b, c];
    assert [b, c][1..] == [c];
    assert Join([c], sep) == c;
    assert Join([b, c], sep) == b + sep + c;
    assert Join([a, b, c], sep) == a + sep + (b + sep + c);
  }

  /** `s.split(sep)` for a one-character separator: the pieces between
      separators, which join back to `s` and contain no separator. */
  function Split(s: string, sep: char): (r: seq<string>)
    ensures |r| >= 1
    ensures forall p :: p in r ==> sep !in p
    ensures Join(r, [sep]) == s
  {
    if s == [] then [[]]
    else
      var rest := Split(s[1..], sep);
      if s[0] == sep then
        assert ([[]] + rest)[1..] == rest;
        assert s == [] + [sep] + s[1..];
        [[]] + rest
      else
        JoinCons([s[0]], rest[0], rest[1..], [sep]);
        assert [rest[0]] + rest[1..] == rest;
        [[s[0]] + rest[0]] + rest[1..]
  }

  lemma {:induction false} SplitNoSep(a: string, sep: char)
    requires sep !in a
    ensures Split(a, sep) == [a]
  {
    if a != [] {
      SplitNoSep(a[1..], sep);
    }
  }

  lemma {:induction false} SplitAt(a: string, b: string, sep: char)
    requires sep !in a
    ensures Split(a + [sep] + b, sep) == [a] + Split(b, sep)
  {
    if a == [] {
      assert a + [sep] + b == [sep] + b;
      assert ([sep] + b)[1..] == b;
    } else {
      var s := a + [sep] + b;
      assert s[1..] == a[1..] + [sep] + b;
      SplitAt(a[1..], b, sep);
      assert [s[0]] + a[1..] == a;
    }
  }

  /** Splitting undoes joining when no part holds the separator: the inverse
      direction of `Split`'s own round trip. */
  lemma {:induction false} SplitJoin(parts: seq<string>, sep: char)
    requires |parts| >= 1
    requires forall p :: p in parts ==> sep !in p
    ensures Split(Join(parts, [sep]), sep) == parts
  {
    if |parts| == 1 {
      SplitNoSep(parts[0], sep);
    } else {
      SplitJoin(parts[1..], sep);
      SplitAt(parts[0], Join(parts[1..], [sep]), sep);
      assert [parts[0]] + parts[1..] == parts;
    }
  }

  /** `sep` occurs somewhere in `s`. */
  predicate Occurs(s: string, sep: string)
    requires |sep| > 0
    decreases |s|
  {
    |s| >= |sep| && (s[..|sep|] == sep || Occurs(s[1..], sep))
  }

  /** `s.split(sep)` for a separator of several characters: Python cuts at the
      leftmost occurrence and continues after it. The parts join back to `s`,
      and no part holds the separator. */
  function SplitOn(s: string, sep: string): (r: seq<string>)
    requires |sep| > 0
    ensures |r| >= 1
    ensures Join(r, sep) == s
    ensures forall j :: 0 <= j < |r| ==> !Occurs(r[j], sep)
    ensures |r[0]| <= |s| && r[0] == s[..|r[0]|]
    decreases |s|
  {
    if |s| >= |sep| && s[..|sep|] == sep then
      var rest := SplitOn(s[|sep|..], sep);
      SplitOnLead(s, sep, rest);
      [[]] + rest
    else if s == [] then [[]]
    else
      var rest := SplitOn(s[1..], sep);
      SplitOnCons(s, sep, rest);
      [[s[0]] + rest[0]] + rest[1..]
  }

  /** The parts of a string that starts with the separator: an empty part,
      then the parts of what follows the separator. */
  lemma SplitOnLead(s: string, sep: string, rest: seq<string>)
    requires |sep| > 0 && |s| >= |sep| && s[..|sep|] == sep
    requires |rest| >= 1 && Join(rest, sep) == s[|sep|..]
    requires forall j :: 0 <= j < |rest| ==> !Occurs(rest[j], sep)
    ensures var r := [[]] + rest;
            Join(r, sep) == s && forall j :: 0 <= j < |r| ==> !Occurs(r[j], sep)
  {
    var r := [[]] + rest;
    assert Join(r, sep) == sep + Join(rest, sep) by {
      JoinEmptyFirst(rest, sep);
    }
    assert s == sep + s[|sep|..] by {
      assert s == s[..|sep|] + s[|sep|..];
    }
    forall j | 0 <= j < |r| ensures !Occurs(r[j], sep) {
      if j > 0 {
        assert r[j] == rest[j - 1];
      }
    }
  }

  /** An empty first part puts the separator in front of the rest. */
  lemma JoinEmptyFirst(rest: seq<string>, sep: string)
    requires |rest| >= 1
    ensures Join([[]] + rest, sep) == sep + Join(rest, sep)
  {
    assert ([[]] + rest)[1..] == rest;
  }

  /** The parts of a string that does not start with the separator: its
      first character joins the first part of the rest. */
  lemma SplitOnCons(s: string, sep: string, rest: seq<string>)
    requires |sep| > 0 && |s| > 0 && !(|s| >= |sep| && s[..|sep|] == sep)
    requires |rest| >= 1 && Join(rest, sep) == s[1..]
    requires forall j :: 0 <= j < |rest| ==> !Occurs(rest[j], sep)
    requires |rest[0]| <= |s| - 1 && rest[0] == s[1..][..|rest[0]|]
    ensures var r := [[s[0]] + rest[0]] + rest[1..];
            && Join(r, sep) == s
            && (forall j :: 0 <= j < |r| ==> !Occurs(r[j], sep))
            && |r[0]| <= |s| && r[0] == s[..|r[0]|]
  {
    JoinCons([s[0]], rest[0], rest[1..], sep);
    assert [rest[0]] + rest[1..] == rest;
    var first := [s[0]] + rest[0];
    assert first == s[..|first|];
    assert !Occurs(first, sep) by {
      assert first[1..] == rest[0];
      if |first| >= |sep| {
        assert first[..|sep|] == s[..|sep|];
      }
    }
    assert forall j :: 1 <= j < |rest| ==> ([first] + rest[1..])[j] == rest[j];
  }

  lemma {:induction false} SplitOnNoSep(a: string, sep: string)
    requires |sep| > 0 && sep[0] !in a
    ensures SplitOn(a, sep) == [a]
  {
    if a != [] {
      assert a[0] != sep[0];
      SplitOnNoSep(a[1..], sep);
    }
  }

  lemma {:induction false} SplitOnAt(a: string, b: string, sep: string)
    requires |sep| > 0 && sep[0] !in a
    ensures SplitOn(a + sep + b, sep) == [a] + SplitOn(b, sep)
  {
    var s := a + sep + b;
    if a == [] {
      assert s == sep + b;
      assert s[..|sep|] == sep && s[|sep|..] == b;
    } else {
      assert s[0] == a[0] != sep[0];
      assert s[1..] == a[1..] + sep + b;
      SplitOnAt(a[1..], b, sep);
      assert [s[0]] + a[1..] == a;
    }
  }

  /** Splitting on a separator undoes joining with it when no part holds the
      separator's first character. */
  lemma {:induction false} SplitOnJoin(parts: seq<string>, sep: string)
    requires |sep| > 0 && |parts| >= 1
    requires forall p :: p in parts ==> sep[0] !in p
    ensures SplitOn(Join(parts, sep), sep) == parts
  {
    if |parts| == 1 {
      SplitOnNoSep(parts[0], sep);
    } else {
      SplitOnJoin(parts[1..], sep);
      SplitOnAt(parts[0], Join(parts[1..], sep), sep);
      assert [parts[0]] + parts[1..] == parts;
    }
  }
}

=== FILE: wrappers.dfy ===
/** Failure-compatible wrappers used for the parsers' and the evaluator's error paths. */
module Wrappers {

  /** An optional value: the Python code's `None` or a present value. */
  datatype Option<+T> = None | Some(value: T)

  /** Either a computed value or the error that aborted the computation. */
  datatype Result<+T, +E> = Success(value: T) | Failure(error: E) {

    predicate IsFailure() {
      Failure?
    }

    function PropagateFailure<U>(): Result<U, E>
      requires Failure?
    {
      Failure(error)
    }

    function Extract(): T
      requires Success?
    {
      value
    }
  }
}
